=== FILE: README.md ===
# Dispatch and location pipeline of a ride-hailing backend, in Dafny

This project models the dispatch core of a ride-hailing platform: the path a
driver's GPS sample takes into the live Redis geo index and into the location
history table, and the path a trip request takes from its database
transaction to the drivers near its pickup point. Each piece is a
deterministic step over maps and sequences. Redis, SQS and PostgreSQL
outcomes (success or failure, the radius-query answer, the current time) are
parameters, so every branch of the source's failure handling is a case of a
pure function.

The pieces, one Dafny module per source file:

- **Location coalescing buffers** (`ModulesLocationBuffer`,
  `ServicesLocationBuffer`, over the shared `BufferState` and the
  insertion-ordered `OrderedMap`). One entry per driver, a newer sample
  replaces an older one, a flush drains everything into one Redis pipeline,
  and a failed flush puts the drained entries back.
- **Redis store semantics** (`GeoStore`). Keys, the commands the pipeline
  issues (GEOADD, HSET, EXPIRE, ZREM, SET, DEL, XADD) and a store on which
  "only these keys change" can be stated.
- **Location service** (`LocationService`). The delta-significance filter,
  single and batch writes, removal and the nearby-driver filter.
- **Driver controller** (`DriverController`). Authorisation, coordinate
  guards, status updates (offline leaves the geo set) and radius search.
- **Trip-offer path**:
  - `TripModel`: the trip-and-outbox transaction;
  - `OutboxPublisher`: one poll cycle;
  - `ModulesTripSqs`, `ServicesTripSqs`, `ServicesSqsClient`: the message
    envelope and the queue URL;
  - `ModulesTripController`, `ServicesTripController`, `TripRequests`: the
    trip-status guards of the two controller versions;
  - `ModulesDriverConsumer`, `ServicesDriverConsumer` over `TripOffer`: the
    consumers that expire, search and fan out offers to driver rooms.
- **Location history**:
  - `RedisStream`: the location event stream;
  - `LocationBatchWorker`: the list-draining batch writer;
  - `ScalableLocationConsumer`: the buffered stream consumer with
    backpressure;
  - `SqsLocationClient`, `SqsLocationConsumer`: the SQS producer and
    consumer;
  - `LocationHistoryHandler`: the Lambda handler with its monthly
    partitions;
  - `SqlBatch`: the shared placeholder builder.
- **Shared vocabulary**:
  - `Wrappers`: options and outcomes;
  - `Text`: splitting, decimal rendering and parsing;
  - `JsValues`: JavaScript truthiness, `String()`, loose equality and
    `JSON.stringify` on the values these handlers see.

Several pieces exist twice, once under `modules/` and once under
`services/`, and the copies behave differently. Each copy is modelled on its
own. Where the copies agree, a lemma says so (for example
`ServicesLocationBuffer` against `ModulesLocationBuffer`, or
`ModulesDriverConsumer.AgreesWithServicesOnLiveOffers`).

Some behaviour of the source is surprising. The model keeps it as written
and states it as a lemma:

- a flush restored after a failure overwrites newer samples;
- the modules outbox deletes a row whose send failed;
- a latitude of 0 is refused as missing;
- a failed insert in the batch worker loses its entries;
- records are lost when the consumer's database connection fails;
- a null latitude escapes the Lambda handler;
- the history lookup scans only a window of recent events.

The trip-status constants file (`utils/constants.js`) is not part of this
model. Its values are taken to be the lowercase names `searching`,
`accepted`, `in_progress`, `completed` and `canceled`, which is the spelling
`tripModel.js` uses for `accepted`. The services trip controller imports the
trip model of its own service. That file is not part of this model either,
so the services controller is modelled over the `modules/` trip model, whose
functions it calls with the same arguments.

## Model

| member | source | states |
|---|---|---|
| BufferState.ConfigOf | modules/driver-service/src/utils/locationBuffer.js:18-20 | each option falls back to its default (100 ms, 10000, 500) exactly when it is absent or zero, and is taken as given otherwise |
| BufferState.Create | modules/driver-service/src/utils/locationBuffer.js:16-31 | a new buffer holds no entries, all its counters start at zero, the last flush time is the creation time with no duration yet, the configuration is the defaulted options, and the periodic flush timer is set |
| BufferState.PairsOfValues | modules/driver-service/src/utils/locationBuffer.js:84 | the drained values of a well-formed map, keyed again by their own driver id, give back the map, so the drained drivers are pairwise distinct |
| BufferState.AvgFlushSize | modules/driver-service/src/utils/locationBuffer.js:141-143 | the average flush size is 0 before any flush and otherwise the mean rounded half up: `2n*avg <= 2*flushed + n < 2n*(avg+1)` |
| ModulesLocationBuffer.BeginFlush | modules/driver-service/src/utils/locationBuffer.js:78-107 | an empty buffer starts no flush and stays as it was; otherwise every entry is drained in insertion order, the map is left empty before any write, and one geoadd/hset/expire group per drained entry is queued |
| ModulesLocationBuffer.Add | modules/driver-service/src/utils/locationBuffer.js:44-72 | the reply says buffered; coalesced holds iff the driver already had an entry; totalReceived grows by one and totalCoalesced by one exactly when coalesced; bufferSize is the size after the call |
| ModulesLocationBuffer.AddEffect | modules/driver-service/src/utils/locationBuffer.js:44-65 | after an add the driver has exactly one pending entry, the new location with its id and the current time; every other driver's entry is unchanged; a flush starts exactly when the map reached flushThreshold, and then the map is empty |
| ModulesLocationBuffer.AddIgnoresMaxBufferSize | modules/driver-service/src/utils/locationBuffer.js:44-72 | `add` behaves identically whatever maxBufferSize is (it is stored at line 19 and never read) |
| ModulesLocationBuffer.BufferNotCapped | modules/driver-service/src/utils/locationBuffer.js:44-72 | with maxBufferSize 1 a second driver is still accepted, so the map outgrows the stated maximum |
| ModulesLocationBuffer.FinishFlush | modules/driver-service/src/utils/locationBuffer.js:109-127 | a settled pipeline adds the drained count to totalFlushed and one to flushCount and reports the count and duration; a failed one leaves the counters alone and rethrows |
| ModulesLocationBuffer.FailedFlushRestores | modules/driver-service/src/utils/locationBuffer.js:121-127 | after a failed write every drained driver's entry is the drained one, overwriting any newer update, and drivers outside the flush keep their entry |
| ModulesLocationBuffer.FlushWritesEveryEntry | modules/driver-service/src/utils/locationBuffer.js:88-109 | after a successful flush each drained driver is in the geo set at its (lng, lat), its metadata hash holds the entry's fields and timestamp over the old ones, and the hash has a 3600 s TTL |
| ModulesLocationBuffer.Shutdown | modules/driver-service/src/utils/locationBuffer.js:150-157 | shutdown clears the timer and starts a flush exactly when entries are pending, draining all of them |
| ModulesLocationBuffer.GetStats | modules/driver-service/src/utils/locationBuffer.js:134-144 | the report carries the counters, the current map size and the rounded average flush size (0 before any flush) |
| ServicesLocationBuffer.BeginFlush | services/driver-service/src/utils/locationBuffer.js:65-92 | an empty buffer starts no flush; otherwise every entry is drained in order, the map is cleared before any write and one write group per entry is queued |
| ServicesLocationBuffer.Add | services/driver-service/src/utils/locationBuffer.js:28-60 | an empty driver id changes nothing, not even a counter, and returns nothing; otherwise the update is counted, coalesced iff an entry existed, and bufferSize is the size after |
| ServicesLocationBuffer.AddAgreesWithModules | services/driver-service/src/utils/locationBuffer.js:36-59 | for a non-empty driver id the services `add` produces the same map, counters, reply and flush as the modules `add` |
| ServicesLocationBuffer.AddEffect | services/driver-service/src/utils/locationBuffer.js:42-53 | after an accepted add the driver's only pending entry is the new data with the current time, other drivers are unchanged, and a flush starts exactly at the threshold |
| ServicesLocationBuffer.FinishFlush | services/driver-service/src/utils/locationBuffer.js:94-117 | success adds the drained count to totalFlushed and one to flushCount and reports them; failure keeps the counters and rethrows |
| ServicesLocationBuffer.FlushAgreesWithModules | services/driver-service/src/utils/locationBuffer.js:65-117 | both halves of the services flush coincide with the modules flush on every buffer and outcome |
| ServicesLocationBuffer.FailedFlushRestores | services/driver-service/src/utils/locationBuffer.js:108-117 | a failed write sets every drained entry back under its driver, over any newer one, and leaves other drivers' entries alone |
| ServicesLocationBuffer.Shutdown | services/driver-service/src/utils/locationBuffer.js:135-142 | the timer is cleared and a flush of every pending entry starts exactly when the buffer is non-empty; otherwise the map is untouched |
| ServicesLocationBuffer.GetStats | services/driver-service/src/utils/locationBuffer.js:120-133 | the report carries the counters, the map size and the rounded average, 0 before any successful flush |
| OrderedMap.Set | modules/driver-service/src/utils/locationBuffer.js:51-55 | `map.set` on a present driver replaces its value in place, on a new driver appends it last |
| OrderedMap.SetEffect | modules/driver-service/src/utils/locationBuffer.js:51-55 | after `set` the keys stay distinct, the driver maps to the new entry, every other key reads as before, and the size grows exactly when the driver was new |
| OrderedMap.SetAllEffect | modules/driver-service/src/utils/locationBuffer.js:124-126 | setting back drained pairs with distinct keys gives each of their keys the drained value whatever it held and leaves other keys alone |
| OrderedMap.Values | modules/driver-service/src/utils/locationBuffer.js:84 | `Array.from(map.values())` lists one value per entry, in insertion order |
| GeoStore.KeysDistinct | services/driver-service/src/services/locationService.js:39-52 | the `drivers_locations`, `driver:location:`, `driver:lastpos:` and `driver_status:` keys never collide, and each per-driver family is injective in the driver id |
| GeoStore.ExecKeepsValid | services/driver-service/src/services/locationService.js:33-52 | a queued command keeps the store well formed (only existing keys have a TTL) |
| GeoStore.ExecFrame | services/driver-service/src/services/locationService.js:33-52 | a Redis command leaves every key other than its own exactly as it was |
| GeoStore.ExecAllKeepsValid | services/driver-service/src/services/locationService.js:54-55 | a settled pipeline, its commands applied in order, keeps the store well formed |
| GeoStore.ExecAllFrame | services/driver-service/src/services/locationService.js:33-55 | a pipeline leaves every key none of its commands names as it was |
| GeoStore.ExecAllAppend | services/driver-service/src/services/locationService.js:33-55 | running two command lists back to back is running their concatenation |
| GeoStore.MetaHash | services/driver-service/src/services/locationService.js:40-48 | the metadata hash has exactly the seven fields, coordinates as given, missing heading/speed/accuracy as 0, a missing trip as "", and the write time |
| GeoStore.LocationWrites | services/driver-service/src/services/locationService.js:36-49 | the per-driver group is GEOADD at (lng, lat), HSET of the metadata hash, EXPIRE 3600 on that hash, in this order |
| GeoStore.LocationWritesEffect | services/driver-service/src/services/locationService.js:36-49 | the group puts the driver at the new position, merges the metadata over the old hash, sets a 3600 s TTL, and changes no other key |
| GeoStore.LocationWritesOtherDriver | services/driver-service/src/services/locationService.js:36-49 | one driver's write group leaves another driver's geo member and metadata key untouched |
| GeoStore.WritesOfGroup | services/driver-service/src/services/locationService.js:85-103 | a batch pipeline is one three-command group per item, item i's group at positions 3i..3i+2 |
| GeoStore.WritesOfKeys | services/driver-service/src/services/locationService.js:85-103 | a batch pipeline touches only the geo set and the metadata keys of its own drivers |
| GeoStore.OtherWritesPreserveView | services/driver-service/src/services/locationService.js:85-103 | write groups for other drivers leave a driver's geo member and metadata key as they were |
| GeoStore.FirstGroup | services/driver-service/src/services/locationService.js:85-103 | with distinct drivers, the first write group leaves every later driver's metadata key as it was and free for its own HSET |
| GeoStore.ExecAllWrites | services/driver-service/src/services/locationService.js:85-103 | a batch pipeline runs its first driver's group, then the rest of the batch |
| GeoStore.WritesOfEffect | services/driver-service/src/services/locationService.js:85-106 | after a batch over distinct drivers every driver in it is at its new position with its metadata and a 3600 s TTL |
| LocationService.UpdateCommands | services/driver-service/src/services/locationService.js:33-52 | the single-update pipeline is the location write group stamped with now followed by SET of the lastpos snapshot |
| LocationService.UpdateDriverLocation | services/driver-service/src/services/locationService.js:29-69 | a rejected pipeline is rethrown and changes nothing; otherwise it answers success with the time and driver id |
| LocationService.UpdateEffect | services/driver-service/src/services/locationService.js:33-55 | a resolved update sets the geo member, the metadata hash with its 3600 s TTL, and a TTL-free snapshot, and no other key changes |
| LocationService.BatchWrites | services/driver-service/src/services/locationService.js:85-101 | batch item i is written with updatedAt = timestamp + i |
| LocationService.BatchUpdateLocations | services/driver-service/src/services/locationService.js:77-116 | null or an empty list answers count 0 and leaves the store alone; otherwise a resolved pipeline answers count = number of items with the batch time stamp, and a rejected one is rethrown with nothing changed |
| LocationService.BatchStampsDistinct | services/driver-service/src/services/locationService.js:100 | two items of one batch never share an updatedAt, even for the same driver |
| LocationService.BatchEffect | services/driver-service/src/services/locationService.js:82-106 | after a resolved batch over distinct drivers, item i's driver is at its new position with updatedAt = timestamp + i |
| LocationService.BatchLeavesSnapshots | services/driver-service/src/services/locationService.js:77-116 | a batch writes no lastpos snapshot, so the delta filter keeps the last single update's position |
| LocationService.StatusOf | services/driver-service/src/services/locationService.js:206 | `status \|\| 'unknown'` is never the empty string |
| LocationService.Truncate | services/driver-service/src/services/locationService.js:207-208 | the whole part toward zero: within one below a non-negative number and within one above a negative one |
| LocationService.ReadingOf | services/driver-service/src/services/locationService.js:207-208 | heading and speed are null exactly when the field is missing or empty text; a stored number reads as its whole part; NaN only from text parseInt cannot read |
| LocationService.WrittenReadingsReadBack | services/driver-service/src/services/locationService.js:96-97 | after a location write, the search reads the written heading and speed back as whole numbers, and a missing one as 0, not null |
| Text.ParseInt | services/driver-service/src/services/locationService.js:207-208 | all-white-space text is NaN, and a number is read only when the text holds a digit |
| Text.ParseIntOfRendering | services/driver-service/src/services/locationService.js:207-208 | the text of a whole number, signed or not, reads back as that number |
| Text.ParseIntReadsWholePart | services/driver-service/src/services/locationService.js:207-208 | `<digits>.<fraction>` reads as the whole part: reading stops at the point |
| Text.ParseIntReadsNegativeWholePart | services/driver-service/src/services/locationService.js:207-208 | `-<digits>.<fraction>` reads as the negated whole part, so `-0.5` reads as 0 |
| LocationService.OnlineOnly | services/driver-service/src/services/locationService.js:197-214 | the filtered list is no longer than the hits, every kept driver is the description of one of the hits, and its stored status is exactly "online" |
| LocationService.OnlineOnlyKeepsOnline | services/driver-service/src/services/locationService.js:197-214 | every hit whose stored status is "online" survives the filter |
| LocationService.OnlineOnlyLowerBound | services/driver-service/src/services/locationService.js:197-214 | a lower bound on the hits' distances bounds every kept driver's distance |
| LocationService.OnlineOnlyKeepsOrder | services/driver-service/src/services/locationService.js:197-214 | the filter keeps the hits' order, so an ascending answer stays ascending |
| LocationService.FindNearbyDrivers | services/driver-service/src/services/locationService.js:167-219 | a failing GEORADIUS or a non-positive COUNT is rethrown, and so is a rejected lookup pipeline when there were hits; otherwise the answer has at most limit (default 20) drivers, all stored "online", each of them the description of one of the first limit hits (with its heading, speed and trip read from its metadata hash), and an empty radius answer returns [] with no lookups |
| LocationService.FindNearbyKeepsOnlineHits | services/driver-service/src/services/locationService.js:170-214 | each of the first limit hits whose status is "online" appears in the answer |
| LocationService.FindNearbyAscending | services/driver-service/src/services/locationService.js:170-214 | the answer keeps the store's ascending distance order |
| LocationService.RemoveDriverLocation | services/driver-service/src/services/locationService.js:226-240 | a rejected pipeline is rethrown with nothing changed; otherwise it answers success |
| LocationService.RemoveEffect | services/driver-service/src/services/locationService.js:227-234 | removal takes the driver out of the geo set and deletes its metadata hash and snapshot, and every other key, including other drivers' positions, is unchanged |
| LocationService.RemoveGeoMember | services/driver-service/src/services/locationService.js:229 | ZREM takes exactly this driver out of the geo set |
| LocationService.RemoveDeletesKeys | services/driver-service/src/services/locationService.js:230-231 | the metadata hash and the snapshot key are gone, with no time-to-live left |
| LocationService.RemoveFrame | services/driver-service/src/services/locationService.js:227-231 | any key other than the geo set and the driver's two keys is unchanged |
| LocationService.HeadingDeltaIsShortestArc | services/driver-service/src/services/locationService.js:268-269 | for headings in [0, 360] the normalised delta is min(d, 360 - d), lies in [0, 180] and is symmetric |
| LocationService.ShouldProcessUpdate | services/driver-service/src/services/locationService.js:251-278 | the delta filter lets an update through on a read error or when no snapshot is stored, and skips one only when both the move is under 10 m and the turn under 15 degrees |
| LocationService.ShouldProcessUpdateCases | services/driver-service/src/services/locationService.js:251-278 | the delta filter fails open on a read error or a missing snapshot, and otherwise accepts iff the move is at least 10 m or the turn at least 15 degrees |
| LocationService.RepeatUpdateFiltered | services/driver-service/src/services/locationService.js:251-273 | right after an update, repeating the same position and heading is filtered out when a point's distance to itself is below 10 m |
| LocationService.UpdateAcceptedAfterRemoval | services/driver-service/src/services/locationService.js:251-257 | after the driver's location is removed its next update always goes through |
| TripOffer.DriverRoomInjective | services/driver-service/src/workers/driverConsumer.js:82 | two drivers share a `driver:<id>` room exactly when their ids are equal, so an offer reaches only the driver it names |
| ServicesDriverConsumer.Offers | services/driver-service/src/workers/driverConsumer.js:80-87 | one offer per driver id the radius query returned, in its order, each to that driver's room with the time left |
| ServicesDriverConsumer.Process | services/driver-service/src/workers/driverConsumer.js:47-105 | a message is deleted only when its body parsed, its `data` was present and the delete call succeeded; a search within 5 km runs exactly for a live offer with both pickup coordinates truthy |
| ServicesDriverConsumer.ExpiredOfferDropped | services/driver-service/src/workers/driverConsumer.js:52-65 | an offer more than 15000 ms old is not searched or emitted, only deleted |
| ServicesDriverConsumer.LiveOfferFanOut | services/driver-service/src/workers/driverConsumer.js:68-101 | a live offer with a pickup is sent to each found driver's room with timeoutMs = 15000 - elapsed (never negative), then broadcast once, then deleted |
| ServicesDriverConsumer.BoundaryOfferSent | services/driver-service/src/workers/driverConsumer.js:57 | the expiry test is strict: an offer exactly 15000 ms old is still sent, with 0 ms left |
| ServicesDriverConsumer.NoPickupOnlyBroadcast | services/driver-service/src/workers/driverConsumer.js:75-95 | without both pickup coordinates the only emit is the broadcast, whatever a search would answer |
| ServicesDriverConsumer.OneBroadcastPerLiveOffer | services/driver-service/src/workers/driverConsumer.js:75-95 | a live message processed to the end broadcasts exactly once, as its last emit |
| ServicesDriverConsumer.DeletedOnlyAfterProcessing | services/driver-service/src/workers/driverConsumer.js:47-105 | a deleted message was parsed and either expired or emitted something |
| ServicesDriverConsumer.Poll | services/driver-service/src/workers/driverConsumer.js:37-111 | a failing receive backs off 5000 ms; otherwise every received message is processed on its own, one failure not stopping the rest |
| ModulesDriverConsumer.Offers | modules/driver-service/src/workers/driverConsumer.js:87-94 | one offer per found driver id, in order, each to that driver's room |
| ModulesDriverConsumer.Process | modules/driver-service/src/workers/driverConsumer.js:61-107 | a message is deleted only when it parsed, had `data` and the delete succeeded; the 5 km search runs exactly when both pickup coordinates are truthy; anything emitted is one offer per found driver |
| ModulesDriverConsumer.NoExpiry | modules/driver-service/src/workers/driverConsumer.js:61-107 | the decision does not depend on the current time or the envelope's timestamp |
| ModulesDriverConsumer.MissingPickupStillDeleted | modules/driver-service/src/workers/driverConsumer.js:70-102 | without both pickup coordinates nothing is searched or emitted, but the message is still deleted |
| ModulesDriverConsumer.FanOut | modules/driver-service/src/workers/driverConsumer.js:74-102 | with a pickup and a search answer, each found driver's room gets the trip data with "New trip nearby!", then the message is deleted |
| ModulesDriverConsumer.AgreesWithServicesOnLiveOffers | modules/driver-service/src/workers/driverConsumer.js:61-107 | on offers the services copy considers live, both copies search the same, reach the same rooms with the same trip and delete alike; the services copy only adds the broadcast |
| ModulesDriverConsumer.Poll | modules/driver-service/src/workers/driverConsumer.js:49-115 | a failing receive backs off 5000 ms; otherwise every received message is processed on its own |
| TripModel.CreateTripWithOutbox | modules/trip-service/src/models/tripModel.js:55-107 | a falsy passenger id throws before a client is taken; a taken client is always released; the call succeeds exactly when every step does, and a failure leaves both tables as they were |
| TripModel.CreateCommitsBoth | modules/trip-service/src/models/tripModel.js:70-97 | a committed creation adds one new trip with the requested status and no driver, and one PENDING TRIP_OFFER outbox row for it whose payload carries the request's coordinates |
| TripModel.CreateFailureCommitsNothing | modules/trip-service/src/models/tripModel.js:99-105 | after a rollback neither the trips nor the outbox table has changed |
| TripModel.UpdateTripStatus | modules/trip-service/src/models/tripModel.js:19-25 | only the named trip's status changes; a missing trip changes nothing and returns undefined |
| TripModel.AssignDriver | modules/trip-service/src/models/tripModel.js:28-34 | the driver and the status 'accepted' are set together on the named trip; a driver id the INTEGER column cannot take throws |
| TripModel.AssignThenAcceptIsAssign | modules/trip-service/src/models/tripModel.js:19-34 | setting the status to accepted after assignDriver changes nothing further |
| TripModel.UpdateTripReview | modules/trip-service/src/models/tripModel.js:37-43 | the statement fails exactly when the rating is neither null nor an integer 1..5; otherwise the trip keeps its status and takes the comment |
| TripRequests.AcceptedRatingsInRange | services/trip-service/src/controllers/tripController.js:144 | a numeric rating the guard lets through is within 1..5 |
| TripRequests.NonNumericRatingPassesGuard | services/trip-service/src/controllers/tripController.js:144 | a non-numeric string passes the guard (NaN fails both comparisons) and is then refused by the database |
| TripRequests.CompletedIsFinal | services/trip-service/src/controllers/tripController.js:88 | no handler move leaves a completed trip |
| ModulesTripSqs.BaseUrl | modules/trip-service/src/utils/tripSqs.js:28-43 | the endpoint is kept unless it contains "localhost", in which case its first "localstack" becomes "localhost" |
| ModulesTripSqs.QueueUrl | modules/trip-service/src/utils/tripSqs.js:28-43 | the queue URL is a base followed by "/000000000000/" and the queue name |
| ModulesTripSqs.DefaultEndpointHasNoLocalhost | modules/trip-service/src/utils/tripSqs.js:7 | the default endpoint does not contain "localhost" |
| ModulesTripSqs.DefaultQueueUrl | modules/trip-service/src/utils/tripSqs.js:7-9 | with no environment the URL is http://localstack:4566/000000000000/trip-events |
| ModulesTripSqs.ReplacementNeedsBothHosts | modules/trip-service/src/utils/tripSqs.js:34-42 | an endpoint without "localstack" is only stripped of one trailing slash |
| ModulesTripSqs.PushTripOfferJob | modules/trip-service/src/utils/tripSqs.js:46-75 | the job sends a TRIP_OFFER envelope with the data and the current time to the queue URL, and never throws: a failed send returns null |
| ServicesTripSqs.QueueUrl | services/trip-service/src/utils/tripSqs.js:20 | a non-empty SQS_QUEUE_URL is used as is; otherwise the local default URL |
| ServicesTripSqs.DefaultsAgreeWithModules | services/trip-service/src/utils/tripSqs.js:20 | with no environment both copies send to the same queue URL |
| ServicesTripSqs.PushTripOfferJob | services/trip-service/src/utils/tripSqs.js:23-45 | the same TRIP_OFFER envelope, but a failed send is rethrown |
| ServicesTripSqs.SameMessageAsModules | services/trip-service/src/utils/tripSqs.js:23-45 | both copies send the same message; only a failed send differs (rethrown here, null there) |
| ServicesTripSqs.ConsumerReadsEnvelope | services/trip-service/src/utils/tripSqs.js:27-31 | an offer pushed with a pickup and read within 15 s reaches each found driver with the pushed trip and 15000 - age ms left |
| ServicesSqsClient.ClientConfigOf | services/trip-service/src/utils/sqsClient.js:8-23 | the client uses the endpoint, with test credentials exactly when the endpoint contains "localstack" |
| ServicesSqsClient.QueueUrl | services/trip-service/src/utils/sqsClient.js:27-50 | a local endpoint gives endpoint (localhost to localstack, one trailing slash dropped) + "/000000000000/" + queue name; otherwise SQS_QUEUE_URL, then endpoint/account/queue, then the bare endpoint |
| ServicesSqsClient.LocalIgnoresQueueUrl | services/trip-service/src/utils/sqsClient.js:29-32 | a local endpoint ignores SQS_QUEUE_URL |
| ServicesSqsClient.DefaultIsLocal | services/trip-service/src/utils/sqsClient.js:5-8 | the default endpoint is local and gets test credentials |
| ServicesSqsClient.AgreesWithModulesHelper | services/trip-service/src/utils/sqsClient.js:27-32 | for a local endpoint without "localhost" the URL equals the one the modules trip queue helper builds |
| OutboxPublisher.PendingRows | modules/trip-service/src/workers/outboxPublisher.js:10-12 | the rows with status PENDING, and only they |
| OutboxPublisher.Select | modules/trip-service/src/workers/outboxPublisher.js:10-12 | at most 50 PENDING rows, min(50, number pending) of them; the query has no ORDER BY, and the model picks table order |
| OutboxPublisher.RemoveIds | modules/trip-service/src/workers/outboxPublisher.js:27 | a row survives exactly when its id is not deleted |
| OutboxPublisher.RemoveIdsTwice | modules/trip-service/src/workers/outboxPublisher.js:17-34 | deleting one set of ids and then another is deleting their union |
| OutboxPublisher.RowStep | modules/trip-service/src/workers/outboxPublisher.js:18-33 | a row is deleted when its push did not throw and its delete succeeded; otherwise nothing changes; trips are never touched |
| OutboxPublisher.RethrowingPublishKeepsRow | modules/trip-service/src/workers/outboxPublisher.js:30-33 | a push that throws leaves the row in the outbox for the next tick |
| OutboxPublisher.Offers | modules/trip-service/src/workers/outboxPublisher.js:21-24 | exactly the TRIP_OFFER rows are pushed |
| OutboxPublisher.Publish | modules/trip-service/src/workers/outboxPublisher.js:17-34 | the per-row loop only deletes outbox rows, never touches trips, and makes at most one push per selected row |
| OutboxPublisher.PushesFor | modules/trip-service/src/workers/outboxPublisher.js:21-24 | one push per TRIP_OFFER row, in order, with that row's payload |
| OutboxPublisher.PublishEffect | modules/trip-service/src/workers/outboxPublisher.js:17-34 | over a selection the outbox loses exactly the selected rows whose delete succeeded, and one push is made per TRIP_OFFER row in order |
| OutboxPublisher.Cycle | modules/trip-service/src/workers/outboxPublisher.js:7-38 | a failing select or an empty selection does nothing; the trips table is never touched |
| OutboxPublisher.SendFailureStillDeletes | modules/trip-service/src/workers/outboxPublisher.js:21-27 | a TRIP_OFFER row whose send failed (the modules push returns null) is still deleted, so that offer is never sent again |
| OutboxPublisher.CycleDeletes | modules/trip-service/src/workers/outboxPublisher.js:10-34 | a row survives a tick exactly when it was not selected or its delete failed |
| ServicesTripController.CreateTrip | services/trip-service/src/controllers/tripController.js:6-60 | 400 without pickup, destination or caller id; a 201 only after both the transaction and the direct push succeed; the direct push carries the stored row, its fare as the NUMERIC column's text |
| ServicesTripController.CreatePublishesTwice | services/trip-service/src/controllers/tripController.js:26-42 | a created trip is published twice, through the outbox row and directly, with the same trip id and coordinates and loosely equal passenger ids; the fare is the number 50000 in the outbox row but the text "50000.00" in the direct push, so the two offers differ |
| ServicesTripController.CreatePushFailureStillCommits | services/trip-service/src/controllers/tripController.js:26-59 | a failed direct push answers 500 although the trip and its outbox row are committed |
| ServicesTripController.CancelTrip | services/trip-service/src/controllers/tripController.js:75-97 | a trip is canceled exactly when it exists, is not completed, and no caller id is given or it equals the passenger as a string; otherwise nothing changes |
| ServicesTripController.CompleteTrip | services/trip-service/src/controllers/tripController.js:100-128 | a trip is completed exactly when the caller id equals its driver as a string and it is accepted or in progress; the 403 comes before the status check |
| ServicesTripController.ReviewTrip | services/trip-service/src/controllers/tripController.js:131-186 | the rating guard's 400 precedes the 404; a 201 needs a completed trip (either spelling) whose passenger equals the caller as a string; nothing else changes on refusal |
| ServicesTripController.AcceptTrip | services/trip-service/src/controllers/tripController.js:205-226 | only a searching trip is accepted, getting the driver and status accepted; anything else changes nothing |
| ServicesTripController.RejectTrip | services/trip-service/src/controllers/tripController.js:229-248 | rejecting never changes the database, and answers 200 exactly for a searching trip |
| ServicesTripController.HandlersMoveLegally | services/trip-service/src/controllers/tripController.js:75-248 | no handler removes a trip, and every status change is an allowed move |
| ServicesTripController.ReviewAcceptsTextualId | services/trip-service/src/controllers/tripController.js:164-166 | a header id that is the passenger's number as text passes the review's ownership check |
| ModulesTripController.CreateTrip | modules/trip-service/src/controllers/tripController.js:5-49 | 400 without pickup, destination or a passenger id from header or body; 201 exactly when the transaction commits, with a searching trip at the 50000 fare |
| ModulesTripController.CreateUsesOutboxOnly | modules/trip-service/src/controllers/tripController.js:28-40 | a created trip is published only through its committed TRIP_OFFER outbox row |
| ModulesTripController.CancelTrip | modules/trip-service/src/controllers/tripController.js:64-80 | a trip is canceled exactly when it exists and is not completed; otherwise nothing changes |
| ModulesTripController.CompleteTrip | modules/trip-service/src/controllers/tripController.js:83-99 | a trip is completed exactly when it is accepted or in progress; otherwise nothing changes |
| ModulesTripController.ReviewTrip | modules/trip-service/src/controllers/tripController.js:102-130 | a 201 needs a trip with status exactly "completed" whose stored passenger number is strictly the caller's id |
| ModulesTripController.AcceptTrip | modules/trip-service/src/controllers/tripController.js:149-170 | only a searching trip is accepted, getting the driver and status accepted |
| ModulesTripController.RejectTrip | modules/trip-service/src/controllers/tripController.js:173-192 | rejecting never changes the database, and answers 200 exactly for a searching trip |
| ModulesTripController.HandlersMoveLegally | modules/trip-service/src/controllers/tripController.js:64-192 | no handler removes a trip, and every status change is an allowed move |
| ModulesTripController.WeakerThanServices | modules/trip-service/src/controllers/tripController.js:64-99 | whatever the services copy lets a caller cancel or complete, this copy lets anyone, and it never answers 403 for them |
| ModulesTripController.ReviewRefusesTextualId | modules/trip-service/src/controllers/tripController.js:119-121 | a passenger id given as text never passes the strict comparison |
| ScalableLocationConsumer.IntOrNull | modules/driver-service/src/workers/scalableLocationConsumer.js:134-137 | a falsy field is stored as NULL and only a falsy one |
| ScalableLocationConsumer.RecordOf | modules/driver-service/src/workers/scalableLocationConsumer.js:130-139 | the buffered record takes the driver id as an integer, the coordinates as floats, NULL for falsy optional fields, and the body's recordedAt or else the current time |
| ScalableLocationConsumer.ZeroHeadingStoredAsNull | modules/driver-service/src/workers/scalableLocationConsumer.js:134 | a heading of 0 is stored as NULL, not as 0 |
| ScalableLocationConsumer.Row | modules/driver-service/src/workers/scalableLocationConsumer.js:184-193 | each record contributes eight values |
| ScalableLocationConsumer.Rows | modules/driver-service/src/workers/scalableLocationConsumer.js:180-194 | one eight-value row per record, in buffer order |
| ScalableLocationConsumer.InsertNumbering | modules/driver-service/src/workers/scalableLocationConsumer.js:176-201 | the statement numbers its parameters $1..$8n and placeholder k of tuple i names value k of record i |
| ScalableLocationConsumer.BuildStatement | modules/driver-service/src/workers/scalableLocationConsumer.js:176-194 | the building loop produces exactly that statement |
| ScalableLocationConsumer.Create | modules/driver-service/src/workers/scalableLocationConsumer.js:22-64 | a new consumer is stopped, unpaused, with zeroed counters, an empty buffer and a batch limit of options.maxBatchInsert or 100 |
| ScalableLocationConsumer.BeginFlush | modules/driver-service/src/workers/scalableLocationConsumer.js:168-170 | the flush takes the oldest min(n, maxBatchInsert) records off the buffer and leaves the rest in order |
| ScalableLocationConsumer.FinishFlush | modules/driver-service/src/workers/scalableLocationConsumer.js:172-219 | a failed insert puts the records back in front, counts an error and rethrows; a failed connection rethrows with the records gone; a success counts one batch and the records |
| ScalableLocationConsumer.FlushBuffer | modules/driver-service/src/workers/scalableLocationConsumer.js:167-220 | an empty buffer is a no-op; a flush never changes the message counters or the flags |
| ScalableLocationConsumer.FlushTakesOldest | modules/driver-service/src/workers/scalableLocationConsumer.js:168-209 | a successful flush inserts the oldest records in buffer order and leaves the rest |
| ScalableLocationConsumer.FailedInsertRestoresBuffer | modules/driver-service/src/workers/scalableLocationConsumer.js:211-216 | after a failed insert the buffer is exactly as before the flush, with one more error |
| ScalableLocationConsumer.RestoredAheadOfNewer | modules/driver-service/src/workers/scalableLocationConsumer.js:170-215 | records buffered while the insert was pending stay behind the restored ones |
| ScalableLocationConsumer.ConnectFailureLosesRecords | modules/driver-service/src/workers/scalableLocationConsumer.js:170-172 | a failed pool connection throws with the taken records neither inserted nor put back |
| ScalableLocationConsumer.Ingest | modules/driver-service/src/workers/scalableLocationConsumer.js:125-149 | every message yields a record or a parse failure, and every parsable message's record is buffered |
| ScalableLocationConsumer.Receipts | modules/driver-service/src/workers/scalableLocationConsumer.js:228-231 | one delete entry per message, in order |
| ScalableLocationConsumer.PollAndProcess | modules/driver-service/src/workers/scalableLocationConsumer.js:105-162 | a failed receive throws with nothing changed; an empty one changes nothing; otherwise all messages are counted, and received = processed + failed is kept |
| ScalableLocationConsumer.EveryMessageDeleted | modules/driver-service/src/workers/scalableLocationConsumer.js:141-161 | when the threshold flush does not throw, every received message is sent for deletion and lastProcessedAt is refreshed |
| ScalableLocationConsumer.UnparsableCountedAndDeleted | modules/driver-service/src/workers/scalableLocationConsumer.js:143-148 | an unparsable message is counted as failed, buffers nothing, and is still deleted |
| ScalableLocationConsumer.BelowThresholdOnlyBuffers | modules/driver-service/src/workers/scalableLocationConsumer.js:151-154 | below the threshold the records are appended in message order and nothing is inserted |
| ScalableLocationConsumer.FailedThresholdFlushKeepsMessages | modules/driver-service/src/workers/scalableLocationConsumer.js:151-159 | a failed threshold insert deletes nothing while the records stay buffered, so the redelivered messages are buffered twice |
| ScalableLocationConsumer.Start | modules/driver-service/src/workers/scalableLocationConsumer.js:69-77 | starting a running consumer changes nothing; otherwise it sets running and the start time |
| ScalableLocationConsumer.StartIdempotent | modules/driver-service/src/workers/scalableLocationConsumer.js:70-73 | starting twice is starting once |
| ScalableLocationConsumer.Pause | modules/driver-service/src/workers/scalableLocationConsumer.js:271-274 | pausing sets only the paused flag |
| ScalableLocationConsumer.Resume | modules/driver-service/src/workers/scalableLocationConsumer.js:279-282 | resuming clears only the paused flag |
| ScalableLocationConsumer.PauseResumeOnlyToggle | modules/driver-service/src/workers/scalableLocationConsumer.js:271-282 | pause then resume, or the reverse, touches nothing but the flag |
| ScalableLocationConsumer.Iterate | modules/driver-service/src/workers/scalableLocationConsumer.js:83-96 | a paused consumer only sleeps 1000 ms; a throwing poll counts an error and backs off 5000 ms |
| ScalableLocationConsumer.FailedInsertCountedTwice | modules/driver-service/src/workers/scalableLocationConsumer.js:91-95 | a failed threshold insert is counted as two errors, once in the flush and once in the loop |
| ScalableLocationConsumer.Stop | modules/driver-service/src/workers/scalableLocationConsumer.js:247-266 | stopping clears the running flag and flushes once when something is buffered |
| ScalableLocationConsumer.StopLeavesOverflow | modules/driver-service/src/workers/scalableLocationConsumer.js:256-263 | records beyond one batch are still buffered when the pool closes |
| ScalableLocationConsumer.IsHealthy | modules/driver-service/src/workers/scalableLocationConsumer.js:307-323 | a healthy running consumer processed within the last five minutes; a stopped consumer with no failures is healthy |
| ScalableLocationConsumer.HealthyIff | modules/driver-service/src/workers/scalableLocationConsumer.js:307-323 | healthy exactly when at most a tenth of received messages failed and a running consumer processed within the last five minutes |
| ScalableLocationConsumer.IdleConsumerTurnsUnhealthy | modules/driver-service/src/workers/scalableLocationConsumer.js:116-118 | empty receives do not refresh lastProcessedAt, so a running consumer on an idle queue turns unhealthy after five minutes |
| LocationBatchWorker.RowOf | modules/driver-service/src/workers/locationBatchWorker.js:31-34 | an entry yields a row exactly when its first three `\|`-separated fields are present and non-empty; the row is four values, driver id first as text |
| LocationBatchWorker.RowsOf | modules/driver-service/src/workers/locationBatchWorker.js:29-40 | the rows are exactly those of the well-formed entries, none invented, at most one per entry |
| LocationBatchWorker.BuildStatement | modules/driver-service/src/workers/locationBatchWorker.js:25-40 | the placeholder loop numbers four parameters per kept entry, skipped entries taking none, and lines the values up with them |
| LocationBatchWorker.RunCycle | modules/driver-service/src/workers/locationBatchWorker.js:10-60 | a failing LPOP sleeps 5 s and changes nothing; an empty list sleeps 3 s; otherwise the oldest min(n, 500) entries leave the list |
| LocationBatchWorker.CycleWritesOldestBatch | modules/driver-service/src/workers/locationBatchWorker.js:16-50 | a cycle pops at most 500 entries from the front and writes exactly the well-formed ones among them, in order |
| LocationBatchWorker.InsertFailureLosesEntries | modules/driver-service/src/workers/locationBatchWorker.js:50-59 | a failed insert writes nothing, yet the popped entries are gone from the list |
| LocationBatchWorker.LogEntryRoundTrip | modules/driver-service/src/workers/locationBatchWorker.js:30-34 | an entry `driverId\|lat\|lng\|ms` whose fields hold no `\|` splits back into its fields and its timestamp into the same milliseconds |
| LocationBatchWorker.MissingLatitudeIsKept | modules/driver-service/src/workers/locationBatchWorker.js:31-34 | a missing latitude arrives as the text "undefined", which passes the emptiness test, so the row is written with a NaN latitude; the socket handler in services/driver-service/src/app.js never appends such an entry, so this needs another producer |
| LocationHistoryHandler.PyNumber | infra/terraform/modules/lambda_sqs_consumer/location_history_handler.py:81-83 | a number converts to itself and None raises a TypeError, which is not among the caught exceptions |
| LocationHistoryHandler.ParseRecord | infra/terraform/modules/lambda_sqs_consumer/location_history_handler.py:64-95 | an unparsable body is a reported failure, a body missing driverId, lat or lng is skipped, and a parsed location carries the body's driver id |
| LocationHistoryHandler.ParseAll | infra/terraform/modules/lambda_sqs_consumer/location_history_handler.py:60-95 | the loop finishes exactly when no record raises an uncaught exception, and yields at most one location or failure per record |
| LocationHistoryHandler.ParseAllFailures | infra/terraform/modules/lambda_sqs_consumer/location_history_handler.py:91-95 | the collected failures are exactly the message ids of the records that failed to parse, in order |
| LocationHistoryHandler.MessageIds | infra/terraform/modules/lambda_sqs_consumer/location_history_handler.py:149-152 | one identifier per record of the batch, in order |
| LocationHistoryHandler.Handler | infra/terraform/modules/lambda_sqs_consumer/location_history_handler.py:40-157 | an escaping exception fails the invocation; a 200 with failures reports exactly the records that failed to parse |
| LocationHistoryHandler.SkippedRecordDropped | infra/terraform/modules/lambda_sqs_consumer/location_history_handler.py:69-71 | a record missing a required key is neither inserted nor reported, so the queue deletes it |
| LocationHistoryHandler.FailedIdsFrom | infra/terraform/modules/lambda_sqs_consumer/location_history_handler.py:91-95 | every reported id belongs to a record that failed to parse |
| LocationHistoryHandler.NoLocationsReportsNothing | infra/terraform/modules/lambda_sqs_consumer/location_history_handler.py:97-102 | with no valid location the answer is 200 with counts only and no batchItemFailures, so parse failures are not redelivered, and no insert is made |
| LocationHistoryHandler.DbErrorReportsAll | infra/terraform/modules/lambda_sqs_consumer/location_history_handler.py:138-153 | a database error answers 500 and reports every record of the batch for redelivery |
| LocationHistoryHandler.NullLatitudeEscapes | infra/terraform/modules/lambda_sqs_consumer/location_history_handler.py:82-91 | a present but null lat raises a TypeError that escapes the handler and fails the whole invocation |
| LocationHistoryHandler.Pad2 | infra/terraform/modules/lambda_sqs_consumer/location_history_handler.py:167 | a month is written with two digits |
| LocationHistoryHandler.Pad2RoundTrip | infra/terraform/modules/lambda_sqs_consumer/location_history_handler.py:167 | the two-digit month reads back as the same month |
| LocationHistoryHandler.PartitionNamesDistinct | infra/terraform/modules/lambda_sqs_consumer/location_history_handler.py:167 | two months share a partition name only when they are the same year and month |
| LocationHistoryHandler.NextMonth | infra/terraform/modules/lambda_sqs_consumer/location_history_handler.py:179-184 | the next month is a valid month exactly one month later, December rolling over into January |
| LocationHistoryHandler.CreatePartitionIfNeeded | infra/terraform/modules/lambda_sqs_consumer/location_history_handler.py:159-194 | a partition is created exactly when none exists, named for its month and spanning from its first day to the first day of the next month |
| LocationHistoryHandler.PartitionsTile | infra/terraform/modules/lambda_sqs_consumer/location_history_handler.py:186-191 | each monthly partition ends where the next month's begins |
| SqsLocationClient.Chunks | modules/driver-service/src/utils/sqsLocationClient.js:91-94 | the chunks concatenate back to the input in order, none is empty, and all but the last hold exactly ten |
| SqsLocationClient.ChunkPosition | modules/driver-service/src/utils/sqsLocationClient.js:92-93 | location j travels in chunk j / 10 at entry j % 10 |
| SqsLocationClient.BatchBodyFields | modules/driver-service/src/utils/sqsLocationClient.js:102-107 | a batch body carries every defined field of the location and the send time, and the batch type unless the location names its own |
| SqsLocationClient.EntryIdsDistinct | modules/driver-service/src/utils/sqsLocationClient.js:101 | the entry ids within one request are pairwise distinct |
| SqsLocationClient.EntriesOf | modules/driver-service/src/utils/sqsLocationClient.js:100-118 | one entry per location of the chunk, in order, with id msg-k and the driver attribute; a nullish driverId makes the map throw |
| SqsLocationClient.Tally | modules/driver-service/src/utils/sqsLocationClient.js:125-136 | a request that throws counts its whole chunk as failed |
| SqsLocationClient.SendChunks | modules/driver-service/src/utils/sqsLocationClient.js:99-137 | the chunks are sent in order and the loop throws exactly when some location from here on has a nullish driverId |
| SqsLocationClient.PublishLocationBatch | modules/driver-service/src/utils/sqsLocationClient.js:80-140 | null without a history URL, even for an empty list; zero counts for a missing or empty list; otherwise it throws exactly when some location has a nullish driverId |
| SqsLocationClient.NullishInChunks | modules/driver-service/src/utils/sqsLocationClient.js:91-94 | a location with a nullish driverId is in some chunk, and a chunk entry is always some location |
| SqsLocationClient.EveryLocationSentOnce | modules/driver-service/src/utils/sqsLocationClient.js:91-118 | every location goes out exactly once, as entry j % 10 of request j / 10 |
| SqsLocationClient.SendChunksAccounting | modules/driver-service/src/utils/sqsLocationClient.js:125-136 | when every reply accounts for its chunk, the counts of the remaining chunks add up to their size |
| SqsLocationClient.BatchAccounting | modules/driver-service/src/utils/sqsLocationClient.js:96-139 | when every response lists each entry as successful or failed, successful + failed equals the number of locations |
| SqsLocationClient.SendChunksAllThrow | modules/driver-service/src/utils/sqsLocationClient.js:133-136 | when every remaining request throws, every remaining location counts as failed |
| SqsLocationClient.AllRequestsThrowAllFailed | modules/driver-service/src/utils/sqsLocationClient.js:133-139 | when every request throws, all locations are failed and none successful |
| SqsLocationClient.NullishDriverRejects | modules/driver-service/src/utils/sqsLocationClient.js:99-118 | a location without a driver id rejects the whole call, after only the chunks before its own were sent |
| SqsLocationClient.SentBeforeNullish | modules/driver-service/src/utils/sqsLocationClient.js:99-118 | no chunk from the one holding a nullish driverId on is sent |
| SqsLocationClient.PublishToHistoryQueue | modules/driver-service/src/utils/sqsLocationClient.js:148-187 | null without a URL; otherwise one message with the history body and a 5 s delay, and the message id exactly when the send succeeds; it never throws |
| SqsLocationClient.HistoryOptionalFields | modules/driver-service/src/utils/sqsLocationClient.js:159-162 | heading, speed, accuracy and tripId are always present, the value when truthy and null otherwise, so a heading of 0 arrives as null |
| SqsLocationClient.HistoryMessageParsed | modules/driver-service/src/utils/sqsLocationClient.js:153-164 | the history Lambda parses a message with numeric driverId, lat and lng back into exactly those values, the optional fields and the send time |
| SqsLocationClient.UndefinedLatitudeDropped | modules/driver-service/src/utils/sqsLocationClient.js:157 | an undefined lat disappears from the JSON and the Lambda skips the record without reporting it |
| SqsLocationClient.NullLatitudeRaises | modules/driver-service/src/utils/sqsLocationClient.js:157 | a null lat survives the JSON and makes the Lambda raise, failing the whole batch |
| SqsLocationClient.PublishLocationUpdate | modules/driver-service/src/utils/sqsLocationClient.js:34-72 | null exactly without a URL; a nullish driverId throws before sending; the message is grouped by driver with the update body; a message id exactly when configured, identified and sent |
| SqsLocationClient.DedupIdInjective | modules/driver-service/src/utils/sqsLocationClient.js:61 | two updates share a deduplication id only for the same driver text in the same millisecond |
| SqsLocationConsumer.OrZeroText | services/driver-service/src/workers/sqsLocationConsumer.js:99-101 | a nullish or empty optional field is stored as 0, a number as itself |
| SqsLocationConsumer.Meta | services/driver-service/src/workers/sqsLocationConsumer.js:96-104 | the metadata hash has exactly the seven fields |
| SqsLocationConsumer.Commands | services/driver-service/src/workers/sqsLocationConsumer.js:93-105 | an update queues writes to the geo set and its driver's metadata key only, ending with EXPIRE 3600 on that key |
| SqsLocationConsumer.Decide | services/driver-service/src/workers/sqsLocationConsumer.js:86-112 | a message is accepted exactly when it parses, has type driver.location_update and non-nullish lat and lng; it is ignored exactly when it parses with another type |
| SqsLocationConsumer.CommandsAreLocationWrites | services/driver-service/src/workers/sqsLocationConsumer.js:93-105 | an update with numeric fields queues the same write group as every other location writer |
| SqsLocationConsumer.Process | services/driver-service/src/workers/sqsLocationConsumer.js:85-113 | exactly the acceptable messages are accepted, and the pipeline touches only the geo set and their drivers' metadata keys |
| SqsLocationConsumer.ProcessCountsParseErrors | services/driver-service/src/workers/sqsLocationConsumer.js:109-112 | the loop counts one error per message that fails to parse or lacks lat or lng |
| SqsLocationConsumer.PollAndProcess | services/driver-service/src/workers/sqsLocationConsumer.js:64-129 | a failed receive counts an error and backs off 5 s; an empty receive changes nothing; messages are deleted only after the pipeline resolved, and the store changes only then |
| SqsLocationConsumer.DeletesExactlyUpdates | services/driver-service/src/workers/sqsLocationConsumer.js:116-123 | after a resolved pipeline a message is deleted exactly when it was accepted; a rejected pipeline deletes nothing |
| SqsLocationConsumer.TurnCounters | services/driver-service/src/workers/sqsLocationConsumer.js:109-119 | each parse failure adds one error and a resolved pipeline adds the accepted messages to the processed count |
| SqsLocationConsumer.RejectedPipelineKeepsMessages | services/driver-service/src/workers/sqsLocationConsumer.js:116-127 | a rejected pipeline deletes nothing, changes no key, and counts one error on top of the parse failures |
| SqsLocationConsumer.TurnTouchesOnlyAcceptedDrivers | services/driver-service/src/workers/sqsLocationConsumer.js:85-118 | a turn leaves every key other than the geo set and the accepted drivers' metadata keys unchanged |
| SqsLocationConsumer.StartWorker | services/driver-service/src/workers/sqsLocationConsumer.js:32-39 | the worker runs after start exactly when a queue URL is configured (or it already ran), counters unchanged |
| SqsLocationConsumer.StopWorker | services/driver-service/src/workers/sqsLocationConsumer.js:56-59 | stopping clears only the running flag |
| SqsLocationConsumer.Loop | services/driver-service/src/workers/sqsLocationConsumer.js:41-50 | a turn happens exactly while the worker runs |
| SqsLocationConsumer.StopEndsLoop | services/driver-service/src/workers/sqsLocationConsumer.js:41-59 | after stopWorker the loop takes no further turn |
| SqsLocationConsumer.PublishedUpdateConsumed | services/driver-service/src/workers/sqsLocationConsumer.js:87-93 | an update the modules publisher sends with numeric coordinates is accepted and GEOADDs the driver at (lng, lat) |
| SqsLocationConsumer.ForeignTypeNeverConsumed | services/driver-service/src/workers/sqsLocationConsumer.js:89 | a location carrying its own type overrides the message type, so the consumer never deletes that message |
| RedisStream.NextId | modules/driver-service/src/utils/redisStream.js:40 | the generated id is greater than the id of the stream's last entry |
| RedisStream.XAdd | modules/driver-service/src/utils/redisStream.js:37-49 | the new entry goes last; the approximate trim keeps at least min(n + 1, 100000) entries and the stream grows by at most one |
| RedisStream.XAddKeepsNewest | modules/driver-service/src/utils/redisStream.js:39 | the trim removes only the oldest entries: the result is a suffix of the old stream plus the new entry |
| RedisStream.XAddKeepsOrder | modules/driver-service/src/utils/redisStream.js:37-49 | appending keeps the entry ids strictly increasing |
| RedisStream.LastKey | modules/driver-service/src/utils/redisStream.js:101 | the last key of a field list sits at the even position of its last pair |
| RedisStream.Decode | modules/driver-service/src/utils/redisStream.js:99-105 | no fields decode to an empty object, and a trailing key without a value is decoded as undefined |
| RedisStream.DecodeLastWins | modules/driver-service/src/utils/redisStream.js:99-105 | a key is decoded exactly when it appears at an even position, and its value is the one following its last occurrence |
| RedisStream.DecodeSnoc | modules/driver-service/src/utils/redisStream.js:101-103 | appending one pair to whole pairs assigns that key last |
| RedisStream.DecodeFields | modules/driver-service/src/utils/redisStream.js:100-103 | the decoding loop builds the object that maps each key to the value after its last occurrence |
| RedisStream.FieldText | modules/driver-service/src/utils/redisStream.js:44-47 | a nullish field is stored as "" and any other value as its text |
| RedisStream.EventFields | modules/driver-service/src/utils/redisStream.js:41-48 | an event is eight key-value pairs |
| RedisStream.EventRoundTrip | modules/driver-service/src/utils/redisStream.js:41-48 | the published field list decodes back to exactly the event's data: driverId, the coordinates, the optional fields or "", and the time stamp |
| RedisStream.PublishLocationEvent | modules/driver-service/src/utils/redisStream.js:22-56 | it throws exactly when lat or lng is nullish or XADD fails, changing nothing; otherwise it appends the event and returns its time stamp |
| RedisStream.BatchFields | modules/driver-service/src/utils/redisStream.js:66-80 | one field list per location, in order, location i stamped now + i |
| RedisStream.PublishLocationEventsBatch | modules/driver-service/src/utils/redisStream.js:62-89 | it throws, changing nothing, exactly when a coordinate is nullish or the pipeline rejects; otherwise it returns the number of locations |
| RedisStream.XAddNoTrim | modules/driver-service/src/utils/redisStream.js:37-49 | without trimming XADD appends one entry |
| RedisStream.AppendAllKeepsOrder | modules/driver-service/src/utils/redisStream.js:66-83 | the pipeline keeps ids strictly increasing whatever the trims remove |
| RedisStream.AppendAllKeepsPrefix | modules/driver-service/src/utils/redisStream.js:66-83 | without trimming, the entries already there stay in front |
| RedisStream.AppendAllEffect | modules/driver-service/src/utils/redisStream.js:66-83 | without trimming, the pipeline appends one entry per field list, in order |
| RedisStream.BatchAppendsInOrder | modules/driver-service/src/utils/redisStream.js:62-89 | a successful batch without trimming appends the locations' events in order, event i stamped now + i, and ids stay increasing |
| RedisStream.BatchTimestampsDistinct | modules/driver-service/src/utils/redisStream.js:78 | two events of one batch never share a time stamp |
| RedisStream.ReadLocationEvents | modules/driver-service/src/utils/redisStream.js:96-110 | a failed XRANGE is rethrown; otherwise the result is the decoded entries from lastId on, in stream order, the first min(count, available) of them |
| RedisStream.FromId | modules/driver-service/src/utils/redisStream.js:98 | exactly the entries whose id is not below lastId |
| RedisStream.DefaultReadStartsAtOldest | modules/driver-service/src/utils/redisStream.js:96-105 | with the defaults the read returns the oldest min(100, n) events in stream order |
| RedisStream.NothingBelowZero | modules/driver-service/src/utils/redisStream.js:93-98 | no entry id is below 0 |
| RedisStream.Window | modules/driver-service/src/utils/redisStream.js:120 | the newest min(n, length) entries, newest first |
| RedisStream.Matching | modules/driver-service/src/utils/redisStream.js:130 | exactly the events whose driverId is strictly equal to the one asked for |
| RedisStream.HistoryEntries | modules/driver-service/src/utils/redisStream.js:120-131 | the first min(limit, matches) of the driver's events among the newest limit * 10 entries, in newest-first order: a prefix of the matches, each of the driver and in the window |
| RedisStream.GetDriverLocationHistory | modules/driver-service/src/utils/redisStream.js:117-138 | a failed read is rethrown; otherwise at most limit events, all of the driver, exactly the decoded history entries in order |
| RedisStream.HistoryComplete | modules/driver-service/src/utils/redisStream.js:120-131 | when the newest limit * 10 entries hold at most limit of the driver's events, every one of them is returned |
| RedisStream.MatchingKeepsDescending | modules/driver-service/src/utils/redisStream.js:130 | filtering keeps the newest-first order |
| RedisStream.HistoryNewestFirst | modules/driver-service/src/utils/redisStream.js:120-131 | history comes newest first |
| RedisStream.MatchingNone | modules/driver-service/src/utils/redisStream.js:130 | a filter that matches no event returns nothing |
| RedisStream.HistoryMissesOlderEvents | modules/driver-service/src/utils/redisStream.js:120-131 | when none of the newest limit * 10 entries is the driver's, history is empty even if older events of the driver exist |
| RedisStream.NumericIdMatchesNothing | modules/driver-service/src/utils/redisStream.js:130 | stream fields are text and the comparison is strict, so a numeric driver id matches no event |
| RedisStream.GetStreamInfo | modules/driver-service/src/utils/redisStream.js:143-158 | the reply list is decoded like an event; an error is rethrown unless it says "no such key" |
| RedisStream.MissingStreamIsEmpty | modules/driver-service/src/utils/redisStream.js:152-155 | a missing stream is reported as length 0, not existing |
| DriverController.UpdateLocation | modules/driver-service/src/controllers/driverController.js:7-28 | 403 exactly for a caller who is not this driver; then 400 exactly when lat or lng is falsy; success exactly when GEOADD can run, which puts the driver at (lng, lat) and changes no other key; any failure changes nothing |
| DriverController.GetLocation | modules/driver-service/src/controllers/driverController.js:31-44 | 500 exactly when Redis fails; a location exactly when the driver is in the geo set, with lat and lng swapped back from the stored (lng, lat) |
| DriverController.UpdateThenGet | modules/driver-service/src/controllers/driverController.js:7-44 | after a successful update, reading the location gives back the latitude and longitude sent |
| DriverController.UpdateLeavesOthers | modules/driver-service/src/controllers/driverController.js:22-23 | one driver's update leaves every other driver's location as it was |
| DriverController.ZeroLatitudeRejected | modules/driver-service/src/controllers/driverController.js:16-18 | a latitude of 0 is falsy, so a driver on the equator cannot report a position |
| DriverController.UpdateStatus | modules/driver-service/src/controllers/driverController.js:144-175 | 403 exactly for another caller; then 400 exactly for a status other than online or offline; success sets the status key and, for offline, removes the driver from the geo set; no other key changes |
| GeoStore.ZRemEffect | modules/driver-service/src/controllers/driverController.js:166 | ZREM removes exactly that member from the geo set, whatever the key held before |
| DriverController.OfflineRemovesFromGeoSet | modules/driver-service/src/controllers/driverController.js:161-170 | going offline stores the status and removes the driver from the geo set, so its location then reads as not found |
| DriverController.OnlineKeepsGeoSet | modules/driver-service/src/controllers/driverController.js:161-170 | going online writes only the status key and leaves the geo set alone |
| DriverController.NumericTokenIdAuthorised | modules/driver-service/src/controllers/driverController.js:12 | a numeric token id is authorised for its decimal text, since the comparison is loose |
| DriverController.SearchNearbyDrivers | modules/driver-service/src/controllers/driverController.js:47-77 | 400 exactly when lat or lng is falsy; the query sends (lng, lat) and the radius, 5 only when absent; each hit is listed with its id and its coordinates |
| DriverController.EmptyRadiusNotDefaulted | modules/driver-service/src/controllers/driverController.js:48 | an empty radius parameter is sent as is, not replaced by the default |
| SqlBatch.BuildInsert | modules/driver-service/src/workers/scalableLocationConsumer.js:176-194 | the loop numbers the placeholders 1, 2, 3, ... row after row and pushes every row's values in order, so there are width values per row |
| SqlBatch.ParamsMatchValues | modules/driver-service/src/workers/locationBatchWorker.js:26-39 | placeholder k of row i names a value that exists and is exactly field k of row i |
| SqlBatch.ParamsConsecutive | modules/driver-service/src/workers/locationBatchWorker.js:26-39 | read in order, the placeholders are $1 up to $(rows x width) with no gap or repeat |

## Left out

- **Timers and loops.** `setInterval`, `while (true)` polling loops, `sleep` and `Date.now()` are left out. One cycle is one step, and `now` is a parameter.
- **Interleaving.** Concurrency between a flush timer and new samples, or between two poll loops, is not modelled. The only interleavings stated are samples that arrive while a write is pending and that write fails (`ModulesLocationBuffer.FailedFlushRestores`, `ServicesLocationBuffer.FailedFlushRestores`, `ScalableLocationConsumer.RestoredAheadOfNewer`).
- **Numbers.** JSON numbers in request bodies and queue messages are modelled as integers. Coordinates stored in Redis are reals. Floating-point rounding, `toFixed` and the number-to-text rendering of non-integers are not modelled. Text holding a signed or fractional number is read as not-a-number, which gives the wrong outcome in the members listed below.
- **String-to-number parsing.** `parseInt` and JavaScript's `Number()` are modelled on digit strings only. So are Python's `int()` and `float()`. A prefix such as `"12abc"` is not modelled.
- **Timestamps.** Python's `datetime.fromisoformat` is the parameter `isoOk` (which strings it accepts). ISO-8601 text produced by `toISOString` is an opaque parameter.
- **Distance.** Great-circle distance (haversine) is a parameter of `LocationService`. Only the threshold comparison is verified.
- **Redis geo indexing.** The radius query's answer is an input list. Geohash precision, coordinate range checks and GEORADIUS ordering are Redis's, not the source's.
- **Redis client details.** The reconnect `retryStrategy` is left out. A `null` or `undefined` field value is modelled as the empty text ioredis sends for it (`RedisStream.FieldText`).
- **Stream trimming and ids.** The amount an approximate `MAXLEN ~` trim removes is a parameter. So is the server clock behind `*` stream ids.
- **Timestamps within a batch.** `SqsLocationClient` gives every entry of one publish the same parameter `iso`. `sqsLocationClient.js:106` calls `new Date()` per entry, so real timestamps may differ by milliseconds.
- **Outbox row lock.** The lock from `FOR UPDATE SKIP LOCKED` (`outboxPublisher.js:10-12`) is not modelled, since the select runs outside a transaction. Nothing here claims cross-instance exclusion.
- **SQS semantics.** Visibility timeouts, redelivery timing and at-least-once duplication are outside the model. A message is either deleted or not, and an undeleted message is redelivered.
- **`getDriverLocation`** (`services/driver-service/src/services/locationService.js:123-157`) is a read-only hash lookup with no guard logic. It is left out.
- **Driver controller forwarding.** `notifyDriver`, `acceptTrip` and `rejectTrip` in `driverController.js` only emit on a socket or forward over HTTP to the trip service. They are left out.
- **Trip read handlers.** `getTripHandler` and `getReviewsByDriverHandler` in both trip controllers are plain reads. `tripModel.createTrip` (lines 8-16) is not called on the dispatch path. All of these are left out.
- **Statistics and health.** `getStats` percentages, `getWorkerStats`, the HTTP health server and `execute_values` row counts beyond the inserted total are left out. The counters the source increments are modelled.
- **Consumer startup.** Queue URL lookup at driver-consumer startup is left out. The URL is a parameter.
- **SQL text.** Placeholders are modelled as parameter numbers (`SqlBatch.Params`). The SQL text they are rendered into is not.
- DriverController.UpdateLocation: coordinate text with a sign or a fraction (such as "-73" or "10.76") reads as not-a-number, so the model answers 500 where Redis's GEOADD accepts the text. Only numbers and digit-only text are followed.
- LocationBatchWorker.RowOf: a latitude or longitude with a sign or a fraction, as every real GPS entry has, is stored as NaN, while `parseFloat` reads the number (`locationBatchWorker.js:34`). The keep test and the driver-id column are unaffected.
- ScalableLocationConsumer.RecordOf: coordinate text with a sign or a fraction becomes NaN, where `parseFloat` reads the number. Numeric JSON coordinates map as stated.
- SqsLocationConsumer.Commands: coordinate text with a sign or a fraction makes the model leave out the GEOADD, which Redis would accept.
- LocationHistoryHandler.PyNumber: a signed or fractional string is a ValueError here, where Python's `float()` converts it, so such a record is reported as failed instead of inserted.
- LocationService.UpdateDriverLocation: a missing latitude or longitude cannot be expressed, because a location's coordinates are always numbers. The source throws at `lat.toString()` before its try (`services/driver-service/src/services/locationService.js:41`). The socket handler in `services/driver-service/src/app.js:77` refuses a falsy lat or lng before any update.
- LocationService.BatchUpdateLocations: an item with a nullish coordinate throws while the pipeline is built (`locationService.js:94`), and nothing is sent. This cannot be expressed, for the same reason.
- ModulesLocationBuffer.BeginFlush: an entry with a nullish coordinate throws inside the flush's try (`modules/driver-service/src/utils/locationBuffer.js:96`). The catch restores the entry, so every later flush fails the same way. This cannot be expressed, for the same reason.
- ServicesLocationBuffer.FlushAgreesWithModules: the agreement covers the coordinates a location can hold. With a nullish latitude the copies differ. The services flush writes "undefined" through `String()` (`services/driver-service/src/utils/locationBuffer.js:82`), while the modules flush throws and restores.
- **LocationHistoryHandler.Handler.** Its own contract states only the escaping-exception case and the failure list of a 200 answer. The remaining answers are stated by `NoLocationsReportsNothing` and `DbErrorReportsAll`.
- LocationService.ReadingOf: a stored number reads as its whole part. JavaScript writes numbers of magnitude 1e21 or more, or below 1e-6, in exponent notation, and `parseInt` reads such text differently (`"1e21"` as 1). The text of non-integers is not modelled, so neither is that case.
- RedisStream.ReadLocationEvents: a `count` of 0 is modelled as an empty read. Redis answers `COUNT 0` on an existing stream with a null reply, and `events.map` then throws (`modules/driver-service/src/utils/redisStream.js:98`). That reply is the server's behaviour, not the source's, and is left out.
- RedisStream.GetDriverLocationHistory: likewise, a `limit` of 0 sends `COUNT 0` and meets the same null reply (`redisStream.js:120`). The model answers with no events.

=== FILE: buffer_state.dfy ===
/** The state both copies of the driver service's location buffer keep: the
    options with their `||` defaults, the per-driver map of pending entries,
    the counters, and a flush that has drained the map and is waiting for its
    pipeline. */
module BufferState {
  import opened Wrappers
  import OM = OrderedMap
  import GeoStore

  /** The constructor's `options`; an absent field is `undefined`. */
  datatype Options = Options(flushIntervalMs: Option<int>, maxBufferSize: Option<int>, flushThreshold: Option<int>)

  /** `options.x || d`: an absent or zero option takes the default. */
  function OptionOr(o: Option<int>, d: int): int {
    if o.Some? && o.value != 0 then o.value else d
  }

  datatype Config = Config(flushIntervalMs: int, maxBufferSize: int, flushThreshold: int)

  const DEFAULT_FLUSH_INTERVAL_MS: int := 100
  const DEFAULT_MAX_BUFFER_SIZE: int := 10000
  const DEFAULT_FLUSH_THRESHOLD: int := 500

  /** The configuration the constructor derives: defaults 100 ms, 10000 and
      500, each taken when the option is absent or zero. */
  function ConfigOf(o: Options): (c: Config)
    ensures o.flushThreshold.None? || o.flushThreshold == Some(0) ==> c.flushThreshold == DEFAULT_FLUSH_THRESHOLD
    ensures o.flushThreshold.Some? && o.flushThreshold.value != 0 ==> c.flushThreshold == o.flushThreshold.value
    ensures o.flushIntervalMs.None? || o.flushIntervalMs == Some(0) ==> c.flushIntervalMs == DEFAULT_FLUSH_INTERVAL_MS
    ensures o.flushIntervalMs.Some? && o.flushIntervalMs.value != 0 ==> c.flushIntervalMs == o.flushIntervalMs.value
    ensures o.maxBufferSize.None? || o.maxBufferSize == Some(0) ==> c.maxBufferSize == DEFAULT_MAX_BUFFER_SIZE
    ensures o.maxBufferSize.Some? && o.maxBufferSize.value != 0 ==> c.maxBufferSize == o.maxBufferSize.value
  {
    Config(OptionOr(o.flushIntervalMs, DEFAULT_FLUSH_INTERVAL_MS),
           OptionOr(o.maxBufferSize, DEFAULT_MAX_BUFFER_SIZE),
           OptionOr(o.flushThreshold, DEFAULT_FLUSH_THRESHOLD))
  }

  /** A pending update: the location object spread into a fresh one, with the
      driver id and the time it was buffered. */
  datatype Entry = Entry(driverId: string, location: GeoStore.Location, timestamp: int)

  datatype Stats = Stats(
    totalReceived: nat, totalFlushed: nat, totalCoalesced: nat,
    lastFlushTime: int, flushCount: nat, lastFlushDuration: Option<int>)

  /** The buffer: its configuration, the pending entries keyed by driver id
      in insertion order, the counters, and whether the periodic flush timer
      is still set. */
  datatype Buffer = Buffer(config: Config, entries: OM.Pairs<Entry>, stats: Stats, timerActive: bool)

  /** Each driver has at most one pending entry, stored under its own id, and
      coalesced updates are a subset of received ones. */
  predicate Inv(b: Buffer) {
    && OM.Valid(b.entries)
    && Keyed(b.entries)
    && b.stats.totalCoalesced <= b.stats.totalReceived
  }

  /** Every entry is stored under its own driver id. */
  predicate Keyed(m: OM.Pairs<Entry>) {
    forall i :: 0 <= i < |m| ==> m[i].1.driverId == m[i].0
  }

  /** Setting an entry under its own driver id keeps the map keyed. */
  lemma SetKeepsKeyed(m: OM.Pairs<Entry>, k: string, e: Entry)
    requires Keyed(m) && e.driverId == k
    ensures Keyed(OM.Set(m, k, e))
  {
  }

  /** Setting back entries stored under their own ids keeps the map keyed. */
  lemma {:induction false} SetAllKeepsKeyed(m: OM.Pairs<Entry>, ps: OM.Pairs<Entry>)
    requires Keyed(m) && Keyed(ps)
    ensures Keyed(OM.SetAll(m, ps))
    decreases |ps|
  {
    if |ps| > 0 {
      SetKeepsKeyed(m, ps[0].0, ps[0].1);
      SetAllKeepsKeyed(OM.Set(m, ps[0].0, ps[0].1), ps[1..]);
    }
  }

  /** A fresh buffer: empty, counters at zero, timer set. */
  function Create(options: Options, now: int): (b: Buffer)
    ensures Inv(b) && |b.entries| == 0 && b.timerActive
    ensures b.stats.totalReceived == 0 && b.stats.totalFlushed == 0 && b.stats.flushCount == 0
    ensures b.stats.totalCoalesced == 0 && b.stats.lastFlushTime == now && b.stats.lastFlushDuration.None?
    ensures b.config == ConfigOf(options)
  {
    Buffer(ConfigOf(options), [], Stats(0, 0, 0, now, 0, None), true)
  }

  /** A flush whose pipeline has been sent: the drained entries, the commands
      queued for them, and when it started. */
  datatype InFlight = InFlight(drained: seq<Entry>, commands: seq<GeoStore.Command>, startTime: int)

  /** What a flush reports: the drained count and its duration, or the
      rethrown store error. */
  datatype FlushReply = Flushed(flushed: nat, duration: int) | Rethrown

  /** Entries keyed again by their driver id. */
  function PairsOf(es: seq<Entry>): (ps: OM.Pairs<Entry>)
    ensures |ps| == |es|
    ensures forall i :: 0 <= i < |es| ==> ps[i] == (es[i].driverId, es[i])
  {
    seq(|es|, i requires 0 <= i < |es| => (es[i].driverId, es[i]))
  }

  /** The store writes for drained entries: each entry's own timestamp goes
      into its hash. */
  function WritesFor(es: seq<Entry>): (ws: seq<GeoStore.Write>)
    ensures |ws| == |es|
    ensures forall i :: 0 <= i < |es| ==> ws[i] == GeoStore.Write(es[i].driverId, es[i].location, es[i].timestamp)
  {
    seq(|es|, i requires 0 <= i < |es| => GeoStore.Write(es[i].driverId, es[i].location, es[i].timestamp))
  }

  /** The values of a well-formed buffer map, keyed again by driver id, are
      the map itself. */
  lemma PairsOfValues(b: Buffer)
    requires Inv(b)
    ensures PairsOf(OM.Values(b.entries)) == b.entries
    ensures GeoStore.DistinctDrivers(WritesFor(OM.Values(b.entries)))
  {
  }

  /** `Math.round(totalFlushed / flushCount)` when at least one flush
      succeeded, else 0: the nearest whole number, halves rounded up. */
  function AvgFlushSize(s: Stats): (avg: nat)
    ensures s.flushCount > 0 ==> 2 * s.flushCount * avg <= 2 * s.totalFlushed + s.flushCount < 2 * s.flushCount * (avg + 1)
    ensures s.flushCount == 0 ==> avg == 0
  {
    if s.flushCount > 0 then (2 * s.totalFlushed + s.flushCount) / (2 * s.flushCount) else 0
  }
}

=== FILE: driver_controller.dfy ===
/** The modules driver service's HTTP controller for locations and status:
    a driver may move only its own geo member and set only its own status,
    going offline takes the driver out of the geo set, and reads return the
    stored position with latitude and longitude swapped back from the geo
    set's longitude-first order. Request fields are JavaScript values; the
    radius search's answer and Redis connection failures are inputs. */
module DriverController {
  import opened Wrappers
  import opened JsValues
  import opened GeoStore
  import Strings = Text

  /** The caller as the auth middleware decoded it from the token. */
  datatype Caller = Caller(role: string, id: JsVal)

  /** A driver as the radius search lists it. */
  datatype NearbyDriver = NearbyDriver(id: string, lat: real, lng: real)

  /** What a handler sends back. */
  datatype Reply =
    | Message(status: nat, text: string)
    | LocationBody(lat: real, lng: real)
    | DriversBody(drivers: seq<NearbyDriver>)

  const UNAUTHORIZED: Reply := Message(403, "Unauthorized")
  const MISSING_COORDINATES: Reply := Message(400, "Missing location coordinates")
  const SERVER_ERROR: Reply := Message(500, "Internal server error")
  const DEFAULT_RADIUS_KM: int := 5

  /** `req.user.role !== 'driver' || req.user.id != id`, negated: the caller
      is a driver whose token id loosely equals the path id, so a numeric
      token id matches its decimal text. */
  predicate Authorised(caller: Caller, pathId: string) {
    caller.role == "driver" && LooseEq(caller.id, Str(pathId))
  }

  /** A coordinate as Redis reads the argument: a number, or text that
      parses as one; anything else makes the command fail. */
  function Coord(v: JsVal): Option<real> {
    match ParseNumber(v)
    case Some(n) => Some(n as real)
    case None => None
  }

  // ---------------------------------------------------------------------------
  // updateLocation
  // ---------------------------------------------------------------------------

  /** `PUT /drivers/:id/location`. The authorisation check runs first, then
      the coordinate check (`!lat || !lng`, so 0 is missing), then GEOADD,
      which fails on a connection error, on an unreadable coordinate or when
      the geo key holds another type. */
  function UpdateLocation(st: Store, caller: Caller, pathId: string, body: Obj, redisDown: bool): (r: (Store, Reply))
    ensures r.1 == UNAUTHORIZED <==> !Authorised(caller, pathId)
    ensures Authorised(caller, pathId) ==>
      (r.1 == MISSING_COORDINATES <==> !Truthy(Get(body, "lat")) || !Truthy(Get(body, "lng")))
    ensures r.1 == Message(200, "Location updated") <==>
      (Authorised(caller, pathId) && Truthy(Get(body, "lat")) && Truthy(Get(body, "lng"))
       && Coord(Get(body, "lat")).Some? && Coord(Get(body, "lng")).Some?
       && !redisDown && GeoSlot(st, DRIVERS_LOCATIONS))
    ensures r.1 != Message(200, "Location updated") ==> r.0 == st
    ensures forall k :: k != DRIVERS_LOCATIONS ==> At(r.0, k) == At(st, k)
    ensures r.1 == Message(200, "Location updated") ==>
      GeoMembers(r.0, DRIVERS_LOCATIONS)
      == GeoMembers(st, DRIVERS_LOCATIONS)[pathId := Point(Coord(Get(body, "lng")).value, Coord(Get(body, "lat")).value)]
  {
    var lat := Get(body, "lat");
    var lng := Get(body, "lng");
    if !Authorised(caller, pathId) then (st, UNAUTHORIZED)
    else if !Truthy(lat) || !Truthy(lng) then (st, MISSING_COORDINATES)
    else if redisDown || Coord(lat).None? || Coord(lng).None? || !GeoSlot(st, DRIVERS_LOCATIONS) then (st, SERVER_ERROR)
    else
      var c := GeoAdd(DRIVERS_LOCATIONS, pathId, Point(Coord(lng).value, Coord(lat).value));
      assert forall k :: k != DRIVERS_LOCATIONS ==> At(Exec(st, c), k) == At(st, k) by {
        forall k | k != DRIVERS_LOCATIONS ensures At(Exec(st, c), k) == At(st, k) {
          ExecFrame(st, c, k);
        }
      }
      (Exec(st, c), Message(200, "Location updated"))
  }

  // ---------------------------------------------------------------------------
  // getLocation
  // ---------------------------------------------------------------------------

  /** `GET /drivers/:id/location`: GEOPOS of the member, 404 when the driver
      has no position, the position as `{ lat, lng }` otherwise. GEOPOS
      fails when the geo key holds another type. */
  function GetLocation(st: Store, pathId: string, redisDown: bool): (r: Reply)
    ensures r == SERVER_ERROR <==> redisDown || !GeoSlot(st, DRIVERS_LOCATIONS)
    ensures r.LocationBody? <==>
      !redisDown && GeoSlot(st, DRIVERS_LOCATIONS) && pathId in GeoMembers(st, DRIVERS_LOCATIONS)
    ensures r.LocationBody? ==>
      Point(r.lng, r.lat) == GeoMembers(st, DRIVERS_LOCATIONS)[pathId]
  {
    if redisDown || !GeoSlot(st, DRIVERS_LOCATIONS) then SERVER_ERROR
    else
      var members := GeoMembers(st, DRIVERS_LOCATIONS);
      if pathId !in members then Message(404, "Driver location not found")
      else LocationBody(members[pathId].lat, members[pathId].lng)
  }

  /** Round trip: after a successful update, reading the driver's location
      gives back the latitude and longitude that were sent. */
  lemma UpdateThenGet(st: Store, caller: Caller, pathId: string, body: Obj)
    requires UpdateLocation(st, caller, pathId, body, false).1 == Message(200, "Location updated")
    ensures GetLocation(UpdateLocation(st, caller, pathId, body, false).0, pathId, false)
      == LocationBody(Coord(Get(body, "lat")).value, Coord(Get(body, "lng")).value)
  {
  }

  /** A driver's update moves no other driver. */
  lemma UpdateLeavesOthers(st: Store, caller: Caller, pathId: string, body: Obj, redisDown: bool, other: string)
    requires other != pathId
    ensures GetLocation(UpdateLocation(st, caller, pathId, body, redisDown).0, other, false)
      == GetLocation(st, other, false)
  {
  }

  /** A zero coordinate is falsy, so a driver on the equator or the prime
      meridian cannot report a position. */
  lemma ZeroLatitudeRejected(st: Store, caller: Caller, pathId: string, lng: JsVal, redisDown: bool)
    requires Authorised(caller, pathId)
    ensures UpdateLocation(st, caller, pathId, map["lat" := JsVal.Num(0), "lng" := lng], redisDown)
      == (st, MISSING_COORDINATES)
  {
  }

  // ---------------------------------------------------------------------------
  // updateStatus
  // ---------------------------------------------------------------------------

  /** `['online', 'offline'].includes(status)`. */
  predicate ValidStatus(status: JsVal) {
    status == Str("online") || status == Str("offline")
  }

  /** `PUT /drivers/:id/status`: the same authorisation check, then the
      status check, then SET of `driver_status:<id>`, then, for `offline`,
      ZREM of the driver from the geo set. Either command may fail; a
      failed ZREM leaves the status written and still answers 500. ZREM
      fails when the geo key holds another type. */
  function UpdateStatus(st: Store, caller: Caller, pathId: string, status: JsVal, setFails: bool, zremFails: bool)
    : (r: (Store, Reply))
    ensures r.1 == UNAUTHORIZED <==> !Authorised(caller, pathId)
    ensures Authorised(caller, pathId) ==> (r.1 == Message(400, "Invalid status") <==> !ValidStatus(status))
    ensures r.1.Message? && r.1.status == 200 <==>
      (Authorised(caller, pathId) && ValidStatus(status) && !setFails
       && (status == Str("offline") ==> !zremFails && GeoSlot(st, DRIVERS_LOCATIONS)))
    ensures r.1.Message? && r.1.status == 200 ==> r.1.text == "Status updated to " + status.s
    ensures (!Authorised(caller, pathId) || !ValidStatus(status) || setFails) ==> r.0 == st
    ensures forall k :: k != DRIVERS_LOCATIONS && k != StatusKey(pathId) ==> At(r.0, k) == At(st, k)
    ensures r.0 != st ==> GetText(r.0, StatusKey(pathId)) == Some(status.s)
  {
    if !Authorised(caller, pathId) then (st, UNAUTHORIZED)
    else if !ValidStatus(status) then (st, Message(400, "Invalid status"))
    else if setFails then (st, SERVER_ERROR)
    else
      var s1 := Exec(st, Set(StatusKey(pathId), Text(status.s)));
      KeysDistinct(pathId, pathId);
      assert forall k :: k != StatusKey(pathId) ==> At(s1, k) == At(st, k) by {
        forall k | k != StatusKey(pathId) ensures At(s1, k) == At(st, k) {
          ExecFrame(st, Set(StatusKey(pathId), Text(status.s)), k);
        }
      }
      if status == Str("offline") then
        if zremFails || !GeoSlot(s1, DRIVERS_LOCATIONS) then (s1, SERVER_ERROR)
        else
          var s2 := Exec(s1, ZRem(DRIVERS_LOCATIONS, pathId));
          assert forall k :: k != DRIVERS_LOCATIONS ==> At(s2, k) == At(s1, k) by {
            forall k | k != DRIVERS_LOCATIONS ensures At(s2, k) == At(s1, k) {
              ExecFrame(s1, ZRem(DRIVERS_LOCATIONS, pathId), k);
            }
          }
          (s2, Message(200, "Status updated to " + status.s))
      else (s1, Message(200, "Status updated to " + status.s))
  }

  /** Going offline takes the driver out of the geo set, so its location reads
      as not found afterwards, keeps every other driver where it was, and
      records the status. */
  lemma OfflineRemovesFromGeoSet(st: Store, caller: Caller, pathId: string)
    requires Authorised(caller, pathId) && GeoSlot(st, DRIVERS_LOCATIONS)
    ensures var r := UpdateStatus(st, caller, pathId, Str("offline"), false, false);
      && r.1 == Message(200, "Status updated to offline")
      && GeoMembers(r.0, DRIVERS_LOCATIONS) == GeoMembers(st, DRIVERS_LOCATIONS) - {pathId}
      && GetLocation(r.0, pathId, false) == Message(404, "Driver location not found")
      && GetText(r.0, StatusKey(pathId)) == Some("offline")
  {
    KeysDistinct(pathId, pathId);
    var s1 := Exec(st, Set(StatusKey(pathId), Text("offline")));
    ExecFrame(st, Set(StatusKey(pathId), Text("offline")), DRIVERS_LOCATIONS);
    assert GeoSlot(s1, DRIVERS_LOCATIONS) && GeoMembers(s1, DRIVERS_LOCATIONS) == GeoMembers(st, DRIVERS_LOCATIONS);
    var s2 := Exec(s1, ZRem(DRIVERS_LOCATIONS, pathId));
    assert "Status updated to " + "offline" == "Status updated to offline";
    assert UpdateStatus(st, caller, pathId, Str("offline"), false, false) == (s2, Message(200, "Status updated to offline"));
    ZRemEffect(s1, DRIVERS_LOCATIONS, pathId);
    ExecFrame(s1, ZRem(DRIVERS_LOCATIONS, pathId), StatusKey(pathId));
    assert GeoSlot(s2, DRIVERS_LOCATIONS);
  }

  /** Going online writes only the status: the geo set is untouched, so a
      driver that went offline stays invisible until it reports a location. */
  lemma OnlineKeepsGeoSet(st: Store, caller: Caller, pathId: string)
    requires Authorised(caller, pathId)
    ensures var r := UpdateStatus(st, caller, pathId, Str("online"), false, false);
      && r.1 == Message(200, "Status updated to online")
      && At(r.0, DRIVERS_LOCATIONS) == At(st, DRIVERS_LOCATIONS)
      && GetText(r.0, StatusKey(pathId)) == Some("online")
  {
    KeysDistinct(pathId, pathId);
    assert "Status updated to " + "online" == "Status updated to online";
  }

  /** A numeric token id is authorised for its decimal text, as loose
      equality converts the text to a number. */
  lemma NumericTokenIdAuthorised(n: nat)
    ensures Authorised(Caller("driver", JsVal.Num(n)), Strings.NatToString(n))
  {
    NumberAndItsText(n);
  }

  // ---------------------------------------------------------------------------
  // searchNearbyDrivers
  // ---------------------------------------------------------------------------

  /** The GEORADIUS query sent: longitude, latitude and radius in km. */
  datatype RadiusQuery = RadiusQuery(lng: JsVal, lat: JsVal, radius: JsVal)

  /** `GET /drivers/search?lat&lng&radius`: 400 without both coordinates,
      otherwise GEORADIUS ... WITHCOORD with the radius defaulting to 5 when
      absent, each `[id, [lng, lat]]` answer listed as `{ id, lat, lng }`.
      `answer` is Redis's reply, `None` when the command fails. */
  function SearchNearbyDrivers(query: Obj, answer: Option<seq<(string, Point)>>): (r: (Option<RadiusQuery>, Reply))
    ensures r.0.None? <==> !Truthy(Get(query, "lat")) || !Truthy(Get(query, "lng"))
    ensures r.0.None? ==> r.1 == MISSING_COORDINATES
    ensures r.0.Some? ==>
      && r.0.value.lat == Get(query, "lat") && r.0.value.lng == Get(query, "lng")
      && r.0.value.radius == (if Get(query, "radius") == Undefined then JsVal.Num(DEFAULT_RADIUS_KM) else Get(query, "radius"))
    ensures r.0.Some? && answer.None? ==> r.1 == SERVER_ERROR
    ensures r.0.Some? && answer.Some? ==>
      && r.1.DriversBody? && |r.1.drivers| == |answer.value|
      && forall i :: 0 <= i < |answer.value| ==>
           r.1.drivers[i].id == answer.value[i].0
           && Point(r.1.drivers[i].lng, r.1.drivers[i].lat) == answer.value[i].1
  {
    var lat := Get(query, "lat");
    var lng := Get(query, "lng");
    var radius := if Get(query, "radius") == Undefined then JsVal.Num(DEFAULT_RADIUS_KM) else Get(query, "radius");
    if !Truthy(lat) || !Truthy(lng) then (None, MISSING_COORDINATES)
    else
      var q := RadiusQuery(lng, lat, radius);
      match answer
      case None => (Some(q), SERVER_ERROR)
      case Some(hits) =>
        (Some(q), DriversBody(seq(|hits|, (i: int) requires 0 <= i < |hits| => NearbyDriver(hits[i].0, hits[i].1.lat, hits[i].1.lng))))
  }

  /** The radius default applies only to an absent parameter: an empty
      `radius=` is sent as is. */
  lemma EmptyRadiusNotDefaulted(lat: JsVal, lng: JsVal)
    requires Truthy(lat) && Truthy(lng)
    ensures SearchNearbyDrivers(map["lat" := lat, "lng" := lng, "radius" := Str("")], None).0
      == Some(RadiusQuery(lng, lat, Str("")))
  {
  }
}

=== FILE: geo_store.dfy ===
/** The slice of the Redis keyspace the driver services use, as a value: the
    `drivers_locations` geo set, the per-driver metadata hashes with their
    time-to-live, the `lastpos` snapshots and the status strings. A pipeline
    is a sequence of commands applied in order; a command aimed at a key
    holding another type fails alone (Redis's WRONGTYPE) and leaves the store
    as it was, which is how an ioredis pipeline behaves when only some of its
    commands fail. */
module GeoStore {
  import opened Wrappers

  // ---------------------------------------------------------------------------
  // Keys
  // ---------------------------------------------------------------------------

  /** The geo set holding every driver's position. */
  const DRIVERS_LOCATIONS: string := "drivers_locations"
  /** Seconds a metadata hash lives after each write. */
  const LOCATION_TTL: int := 3600

  function LocationKey(driverId: string): string { "driver:location:" + driverId }
  function LastPosKey(driverId: string): string { "driver:lastpos:" + driverId }
  function StatusKey(driverId: string): string { "driver_status:" + driverId }

  /** The four key families never collide, and each family is injective in the
      driver id. */
  lemma KeysDistinct(a: string, b: string)
    ensures LocationKey(a) != DRIVERS_LOCATIONS && LastPosKey(a) != DRIVERS_LOCATIONS
    ensures StatusKey(a) != DRIVERS_LOCATIONS
    ensures LocationKey(a) != LastPosKey(b) && LocationKey(a) != StatusKey(b)
    ensures LastPosKey(a) != StatusKey(b)
    ensures LocationKey(a) == LocationKey(b) ==> a == b
    ensures LastPosKey(a) == LastPosKey(b) ==> a == b
    ensures StatusKey(a) == StatusKey(b) ==> a == b
  {
    assert LocationKey(a)[6] == ':' && DRIVERS_LOCATIONS[6] == 's';
    assert LastPosKey(a)[6] == ':' && StatusKey(a)[6] == '_';
    assert LocationKey(a)[8] == 'o' && LastPosKey(b)[8] == 'a';
    assert StatusKey(b)[6] == '_';
    if LocationKey(a) == LocationKey(b) {
      assert a == LocationKey(a)[16..];
    }
    if LastPosKey(a) == LastPosKey(b) {
      assert a == LastPosKey(a)[15..];
    }
    if StatusKey(a) == StatusKey(b) {
      assert a == StatusKey(a)[14..];
    }
  }

  // ---------------------------------------------------------------------------
  // Values
  // ---------------------------------------------------------------------------

  /** A geo-set position, longitude first as GEOADD takes it. */
  datatype Point = Point(lng: real, lat: real)

  /** A stored string, described by what it renders: `Num(x)` is the text of
      the number x, `Txt(s)` the text s. */
  datatype Scalar = Num(x: real) | Txt(s: string)

  /** `JSON.stringify({ lat, lng, heading })`; an undefined heading is omitted. */
  datatype Position = Position(lat: real, lng: real, heading: Option<real>)

  datatype Value =
    | GeoSet(members: map<string, Point>)
    | Hash(fields: map<string, Scalar>)
    | Text(s: string)
    | Snapshot(pos: Position)

  /** The keyspace and the remaining time-to-live of the keys that have one. */
  datatype Store = Store(data: map<string, Value>, ttl: map<string, int>)

  /** Only existing keys carry a time-to-live. */
  predicate Valid(st: Store) {
    st.ttl.Keys <= st.data.Keys
  }

  const Empty: Store := Store(map[], map[])

  /** Everything the store says about one key. */
  function At(st: Store, k: string): (Option<Value>, Option<int>) {
    (if k in st.data then Some(st.data[k]) else None,
     if k in st.ttl then Some(st.ttl[k]) else None)
  }

  /** The members of the geo set at `k`; none when `k` is absent or holds another type. */
  function GeoMembers(st: Store, k: string): map<string, Point> {
    if k in st.data && st.data[k].GeoSet? then st.data[k].members else map[]
  }

  /** The fields of the hash at `k`; none when `k` is absent or holds another type. */
  function HashFields(st: Store, k: string): map<string, Scalar> {
    if k in st.data && st.data[k].Hash? then st.data[k].fields else map[]
  }

  /** GET: the string at `k`, `None` when absent; a key holding a geo set or a
      hash makes GET fail, which callers here also see as no value. */
  function GetText(st: Store, k: string): Option<string> {
    if k in st.data && st.data[k].Text? then Some(st.data[k].s) else None
  }

  // ---------------------------------------------------------------------------
  // Commands
  // ---------------------------------------------------------------------------

  datatype Command =
    | GeoAdd(key: string, member: string, at: Point)
    | ZRem(key: string, member: string)
    | HSet(key: string, fields: map<string, Scalar>)
    | Expire(key: string, seconds: int)
    | Set(key: string, value: Value)
    | Del(key: string)

  /** The store after one command. Each command touches only its own key; the
      time-to-live survives every write except SET and DEL, and a sorted set
      left empty by ZREM disappears. */
  function Exec(st: Store, c: Command): Store {
    match c
    case GeoAdd(k, m, p) =>
      if k !in st.data then st.(data := st.data[k := GeoSet(map[m := p])])
      else if st.data[k].GeoSet? then st.(data := st.data[k := GeoSet(st.data[k].members[m := p])])
      else st
    case ZRem(k, m) =>
      if k in st.data && st.data[k].GeoSet? then
        var rest := st.data[k].members - {m};
        if |rest| == 0 then Store(st.data - {k}, st.ttl - {k})
        else st.(data := st.data[k := GeoSet(rest)])
      else st
    case HSet(k, fs) =>
      if k !in st.data then st.(data := st.data[k := Hash(fs)])
      else if st.data[k].Hash? then st.(data := st.data[k := Hash(st.data[k].fields + fs)])
      else st
    case Expire(k, secs) =>
      if k !in st.data then st
      else if secs <= 0 then Store(st.data - {k}, st.ttl - {k})
      else st.(ttl := st.ttl[k := secs])
    case Set(k, v) => Store(st.data[k := v], st.ttl - {k})
    case Del(k) => Store(st.data - {k}, st.ttl - {k})
  }

  /** A command leaves every key but its own as it was. */
  lemma ExecFrame(st: Store, c: Command, k: string)
    requires k != c.key
    ensures At(Exec(st, c), k) == At(st, k)
  {
  }

  /** The keys a pipeline touches. */
  predicate Untouched(cs: seq<Command>, k: string) {
    forall i :: 0 <= i < |cs| ==> cs[i].key != k
  }

  /** A pipeline whose `exec` resolves: its commands in order. */
  function ExecAll(st: Store, cs: seq<Command>): Store
    decreases |cs|
  {
    if |cs| == 0 then st else ExecAll(Exec(st, cs[0]), cs[1..])
  }

  /** A command keeps the store well formed: only existing keys have a
      time-to-live. */
  lemma ExecKeepsValid(st: Store, c: Command)
    requires Valid(st)
    ensures Valid(Exec(st, c))
  {
  }

  /** A pipeline keeps the store well formed. */
  lemma {:induction false} ExecAllKeepsValid(st: Store, cs: seq<Command>)
    requires Valid(st)
    ensures Valid(ExecAll(st, cs))
    decreases |cs|
  {
    if |cs| > 0 {
      ExecKeepsValid(st, cs[0]);
      ExecAllKeepsValid(Exec(st, cs[0]), cs[1..]);
    }
  }

  /** A pipeline leaves every key it does not name as it was. */
  lemma {:induction false} ExecAllFrame(st: Store, cs: seq<Command>, k: string)
    requires Untouched(cs, k)
    ensures At(ExecAll(st, cs), k) == At(st, k)
    decreases |cs|
  {
    if |cs| > 0 {
      ExecFrame(st, cs[0], k);
      ExecAllFrame(Exec(st, cs[0]), cs[1..], k);
    }
  }

  /** Running two pipelines back to back is running their concatenation. */
  lemma {:induction false} ExecAllAppend(st: Store, a: seq<Command>, b: seq<Command>)
    ensures ExecAll(st, a + b) == ExecAll(ExecAll(st, a), b)
    decreases |a|
  {
    if |a| == 0 {
      assert a + b == b;
    } else {
      assert (a + b)[0] == a[0];
      assert (a + b)[1..] == a[1..] + b;
      ExecAllAppend(Exec(st, a[0]), a[1..], b);
    }
  }

  // ---------------------------------------------------------------------------
  // The per-driver location write
  // ---------------------------------------------------------------------------

  /** The location fields a writer receives; optional fields may be undefined. */
  datatype Location = Location(
    lat: real, lng: real,
    heading: Option<real>, speed: Option<real>, accuracy: Option<real>,
    tripId: Option<string>)

  /** `(x || 0)`, and equally `x?.toString() || '0'`: an undefined or zero
      number is stored as 0. */
  function OrZero(x: Option<real>): real {
    if x.Some? then x.value else 0.0
  }

  /** The metadata hash written for a driver: missing numbers as 0, a missing
      trip as the empty string, and the write time. */
  function MetaHash(loc: Location, updatedAt: int): (h: map<string, Scalar>)
    ensures h.Keys == {"lat", "lng", "heading", "speed", "accuracy", "tripId", "updatedAt"}
    ensures h["lat"] == Num(loc.lat) && h["lng"] == Num(loc.lng)
    ensures h["heading"] == Num(if loc.heading.Some? then loc.heading.value else 0.0)
    ensures h["speed"] == Num(if loc.speed.Some? then loc.speed.value else 0.0)
    ensures h["accuracy"] == Num(if loc.accuracy.Some? then loc.accuracy.value else 0.0)
    ensures h["tripId"] == Txt(if loc.tripId.Some? then loc.tripId.value else "")
    ensures h["updatedAt"] == Num(updatedAt as real)
  {
    map["lat" := Num(loc.lat), "lng" := Num(loc.lng),
        "heading" := Num(OrZero(loc.heading)), "speed" := Num(OrZero(loc.speed)),
        "accuracy" := Num(OrZero(loc.accuracy)),
        "tripId" := Txt(loc.tripId.GetOr("")),
        "updatedAt" := Num(updatedAt as real)]
  }

  /** The three commands every location writer queues per driver: the geo
      member, the metadata hash, and its time-to-live. */
  function LocationWrites(driverId: string, loc: Location, updatedAt: int): (cs: seq<Command>)
    ensures |cs| == 3
    ensures cs[0] == GeoAdd(DRIVERS_LOCATIONS, driverId, Point(loc.lng, loc.lat))
    ensures cs[1] == HSet(LocationKey(driverId), MetaHash(loc, updatedAt))
    ensures cs[2] == Expire(LocationKey(driverId), LOCATION_TTL)
  {
    [GeoAdd(DRIVERS_LOCATIONS, driverId, Point(loc.lng, loc.lat)),
     HSet(LocationKey(driverId), MetaHash(loc, updatedAt)),
     Expire(LocationKey(driverId), LOCATION_TTL)]
  }

  /** The geo set at `k` is absent or a geo set, so GEOADD and ZREM succeed. */
  predicate GeoSlot(st: Store, k: string) {
    k !in st.data || st.data[k].GeoSet?
  }

  /** The key `k` is absent or a hash, so HSET succeeds. */
  predicate HashSlot(st: Store, k: string) {
    k !in st.data || st.data[k].Hash?
  }

  /** What the store says about one driver's location: its geo member and its
      metadata key. */
  function DriverView(st: Store, driverId: string): (Option<Point>, (Option<Value>, Option<int>)) {
    var ms := GeoMembers(st, DRIVERS_LOCATIONS);
    (if driverId in ms then Some(ms[driverId]) else None, At(st, LocationKey(driverId)))
  }

  /** The effect of one driver's write group: its geo member is the new
      position, its hash holds the new metadata over the old fields, its
      time-to-live is 3600 s; no other key changes, and no other driver's
      member moves. */
  lemma LocationWritesEffect(st: Store, driverId: string, loc: Location, updatedAt: int)
    requires GeoSlot(st, DRIVERS_LOCATIONS) && HashSlot(st, LocationKey(driverId))
    ensures var r := ExecAll(st, LocationWrites(driverId, loc, updatedAt));
      && GeoMembers(r, DRIVERS_LOCATIONS) == GeoMembers(st, DRIVERS_LOCATIONS)[driverId := Point(loc.lng, loc.lat)]
      && HashFields(r, LocationKey(driverId)) == HashFields(st, LocationKey(driverId)) + MetaHash(loc, updatedAt)
      && LocationKey(driverId) in r.ttl && r.ttl[LocationKey(driverId)] == LOCATION_TTL
      && GeoSlot(r, DRIVERS_LOCATIONS) && HashSlot(r, LocationKey(driverId))
      && (forall k :: k != DRIVERS_LOCATIONS && k != LocationKey(driverId) ==> At(r, k) == At(st, k))
  {
    KeysDistinct(driverId, driverId);
    var lk := LocationKey(driverId);
    var cs := LocationWrites(driverId, loc, updatedAt);
    var s1 := Exec(st, cs[0]);
    var s2 := Exec(s1, cs[1]);
    var s3 := Exec(s2, cs[2]);
    ExecAllThree(st, cs);
    GeoAddEffect(st, DRIVERS_LOCATIONS, driverId, Point(loc.lng, loc.lat));
    ExecFrame(st, cs[0], lk);
    HSetEffect(s1, lk, MetaHash(loc, updatedAt));
    ExecFrame(s1, cs[1], DRIVERS_LOCATIONS);
    ExpireEffect(s2, lk, LOCATION_TTL);
    forall k | k != DRIVERS_LOCATIONS && k != lk
      ensures At(s3, k) == At(st, k)
    {
      ExecFrame(st, cs[0], k);
      ExecFrame(s1, cs[1], k);
      ExecFrame(s2, cs[2], k);
    }
  }

  /** A three-command pipeline, one command after another. */
  lemma ExecAllThree(st: Store, cs: seq<Command>)
    requires |cs| == 3
    ensures ExecAll(st, cs) == Exec(Exec(Exec(st, cs[0]), cs[1]), cs[2])
  {
    var s1 := Exec(st, cs[0]);
    var s2 := Exec(s1, cs[1]);
    assert ExecAll(Exec(s2, cs[2]), cs[3..]) == Exec(s2, cs[2]);
    assert ExecAll(s2, cs[2..]) == Exec(s2, cs[2]);
    assert ExecAll(s1, cs[1..]) == ExecAll(s2, cs[2..]);
  }

  /** GEOADD on a geo set (or an absent key) places the member. */
  /** ZREM removes exactly that member; a geo set left empty disappears, and
      a key of another type has no members before or after. */
  lemma ZRemEffect(st: Store, k: string, m: string)
    ensures GeoMembers(Exec(st, ZRem(k, m)), k) == GeoMembers(st, k) - {m}
  {
    if k in st.data && st.data[k].GeoSet? {
      var rest := st.data[k].members - {m};
      if |rest| == 0 {
        assert rest == map[];
      }
    }
  }

  lemma GeoAddEffect(st: Store, k: string, m: string, p: Point)
    requires GeoSlot(st, k)
    ensures GeoSlot(Exec(st, GeoAdd(k, m, p)), k)
    ensures GeoMembers(Exec(st, GeoAdd(k, m, p)), k) == GeoMembers(st, k)[m := p]
  {
  }

  /** HSET on a hash (or an absent key) merges the new fields over the old. */
  lemma HSetEffect(st: Store, k: string, fs: map<string, Scalar>)
    requires HashSlot(st, k)
    ensures k in Exec(st, HSet(k, fs)).data && HashSlot(Exec(st, HSet(k, fs)), k)
    ensures HashFields(Exec(st, HSet(k, fs)), k) == HashFields(st, k) + fs
  {
  }

  /** EXPIRE with a positive time on an existing key sets its time-to-live
      and leaves the data alone. */
  lemma ExpireEffect(st: Store, k: string, secs: int)
    requires k in st.data && secs > 0
    ensures Exec(st, Expire(k, secs)).data == st.data
    ensures k in Exec(st, Expire(k, secs)).ttl && Exec(st, Expire(k, secs)).ttl[k] == secs
  {
  }

  /** Another driver's write group leaves this driver's view untouched. */
  lemma LocationWritesOtherDriver(st: Store, other: string, loc: Location, updatedAt: int, driverId: string)
    requires other != driverId
    requires GeoSlot(st, DRIVERS_LOCATIONS) && HashSlot(st, LocationKey(other))
    ensures DriverView(ExecAll(st, LocationWrites(other, loc, updatedAt)), driverId) == DriverView(st, driverId)
  {
    LocationWritesEffect(st, other, loc, updatedAt);
    KeysDistinct(other, driverId);
    KeysDistinct(driverId, other);
    var r := ExecAll(st, LocationWrites(other, loc, updatedAt));
    assert At(r, LocationKey(driverId)) == At(st, LocationKey(driverId));
  }

  // ---------------------------------------------------------------------------
  // Many drivers in one pipeline
  // ---------------------------------------------------------------------------

  /** One driver's location write with the time stamped into its hash. */
  datatype Write = Write(driverId: string, loc: Location, updatedAt: int)

  /** The pipeline a batch writer builds: one three-command group per write, in order. */
  function WritesOf(ws: seq<Write>): (cs: seq<Command>)
    ensures |cs| == 3 * |ws|
    decreases |ws|
  {
    if |ws| == 0 then []
    else LocationWrites(ws[0].driverId, ws[0].loc, ws[0].updatedAt) + WritesOf(ws[1..])
  }

  /** Write `i`'s group sits at positions `3i`, `3i + 1` and `3i + 2`. */
  lemma {:induction false} WritesOfGroup(ws: seq<Write>, i: nat)
    requires i < |ws|
    ensures WritesOf(ws)[3 * i..3 * i + 3] == LocationWrites(ws[i].driverId, ws[i].loc, ws[i].updatedAt)
    decreases |ws|
  {
    if i == 0 {
      FirstGroupOf(ws);
    } else {
      WritesOfGroup(ws[1..], i - 1);
      LaterGroupOf(ws, i);
    }
  }

  /** The first group of a batch pipeline is the first write's. */
  lemma FirstGroupOf(ws: seq<Write>)
    requires |ws| > 0
    ensures WritesOf(ws)[..3] == LocationWrites(ws[0].driverId, ws[0].loc, ws[0].updatedAt)
  {
    var g := LocationWrites(ws[0].driverId, ws[0].loc, ws[0].updatedAt);
    assert (g + WritesOf(ws[1..]))[..3] == g;
  }

  /** Group `i > 0` of a batch pipeline is group `i - 1` of its tail's. */
  lemma LaterGroupOf(ws: seq<Write>, i: nat)
    requires 0 < i < |ws|
    requires WritesOf(ws[1..])[3 * (i - 1)..3 * i] == LocationWrites(ws[1..][i - 1].driverId, ws[1..][i - 1].loc, ws[1..][i - 1].updatedAt)
    ensures WritesOf(ws)[3 * i..3 * i + 3] == LocationWrites(ws[i].driverId, ws[i].loc, ws[i].updatedAt)
  {
    var g := LocationWrites(ws[0].driverId, ws[0].loc, ws[0].updatedAt);
    var rest := WritesOf(ws[1..]);
    assert ws[1..][i - 1] == ws[i];
    GroupAfterFirst(g, rest, i, LocationWrites(ws[i].driverId, ws[i].loc, ws[i].updatedAt));
  }

  /** Group `i` of a list of three-element groups is group `i - 1` of its tail. */
  lemma GroupAfterFirst<T>(g: seq<T>, rest: seq<T>, i: nat, x: seq<T>)
    requires |g| == 3 && 0 < i && 3 * i <= |rest| && rest[3 * (i - 1)..3 * i] == x
    ensures (g + rest)[3 * i..3 * i + 3] == x
  {
    SliceAfterPrefix(g, rest, 3 * i, 3 * i + 3);
  }

  /** A slice lying past a prefix is a slice of what follows it. */
  lemma SliceAfterPrefix<T>(g: seq<T>, rest: seq<T>, a: nat, b: nat)
    requires |g| <= a <= b <= |g| + |rest|
    ensures (g + rest)[a..b] == rest[a - |g|..b - |g|]
  {
  }

  predicate DistinctDrivers(ws: seq<Write>) {
    forall i, j :: 0 <= i < j < |ws| ==> ws[i].driverId != ws[j].driverId
  }

  /** Every metadata key the batch writes to is free for a hash. */
  predicate HashSlots(st: Store, ws: seq<Write>) {
    forall i :: 0 <= i < |ws| ==> HashSlot(st, LocationKey(ws[i].driverId))
  }

  /** A batch pipeline touches only the geo set and the metadata keys of its drivers. */
  lemma {:induction false} WritesOfKeys(ws: seq<Write>, c: nat)
    requires c < 3 * |ws|
    ensures var k := WritesOf(ws)[c].key;
      k == DRIVERS_LOCATIONS || exists j :: 0 <= j < |ws| && k == LocationKey(ws[j].driverId)
    decreases |ws|
  {
    var w := ws[0];
    var g := LocationWrites(w.driverId, w.loc, w.updatedAt);
    assert WritesOf(ws) == g + WritesOf(ws[1..]);
    if c < 3 {
      assert WritesOf(ws)[c] == g[c];
      assert g[c].key == DRIVERS_LOCATIONS || g[c].key == LocationKey(ws[0].driverId);
    } else {
      assert WritesOf(ws)[c] == WritesOf(ws[1..])[c - 3];
      WritesOfKeys(ws[1..], c - 3);
      var k := WritesOf(ws)[c].key;
      if k != DRIVERS_LOCATIONS {
        var j :| 0 <= j < |ws[1..]| && k == LocationKey(ws[1..][j].driverId);
        assert ws[1..][j] == ws[j + 1];
      }
    }
  }

  /** Write groups for other drivers leave a driver's view untouched. */
  lemma {:induction false} OtherWritesPreserveView(st: Store, ws: seq<Write>, d: string)
    requires forall i :: 0 <= i < |ws| ==> ws[i].driverId != d
    requires GeoSlot(st, DRIVERS_LOCATIONS) && HashSlots(st, ws)
    ensures DriverView(ExecAll(st, WritesOf(ws)), d) == DriverView(st, d)
    decreases |ws|
  {
    if |ws| > 0 {
      var w := ws[0];
      var g := LocationWrites(w.driverId, w.loc, w.updatedAt);
      ExecAllWrites(st, ws);
      var s1 := ExecAll(st, g);
      LocationWritesEffect(st, w.driverId, w.loc, w.updatedAt);
      LocationWritesOtherDriver(st, w.driverId, w.loc, w.updatedAt, d);
      forall i | 0 <= i < |ws[1..]| ensures HashSlot(s1, LocationKey(ws[1..][i].driverId)) {
        KeysDistinct(ws[1..][i].driverId, w.driverId);
        if ws[1..][i].driverId != w.driverId {
          assert At(s1, LocationKey(ws[1..][i].driverId)) == At(st, LocationKey(ws[i + 1].driverId));
        }
      }
      OtherWritesPreserveView(s1, ws[1..], d);
    }
  }

  /** A batch pipeline runs its first write group, then the rest. */
  lemma ExecAllWrites(st: Store, ws: seq<Write>)
    requires |ws| > 0
    ensures ExecAll(st, WritesOf(ws))
         == ExecAll(ExecAll(st, LocationWrites(ws[0].driverId, ws[0].loc, ws[0].updatedAt)), WritesOf(ws[1..]))
  {
    var g := LocationWrites(ws[0].driverId, ws[0].loc, ws[0].updatedAt);
    assert WritesOf(ws) == g + WritesOf(ws[1..]);
    ExecAllAppend(st, g, WritesOf(ws[1..]));
  }

  /** Splitting off a batch's first write group: the rest of the batch runs
      on a store where the first driver is written and every later driver's
      metadata key is as it was. */
  lemma FirstGroup(st: Store, ws: seq<Write>)
    requires DistinctDrivers(ws) && |ws| > 0
    requires GeoSlot(st, DRIVERS_LOCATIONS) && HashSlots(st, ws)
    ensures var s1 := ExecAll(st, LocationWrites(ws[0].driverId, ws[0].loc, ws[0].updatedAt));
      && GeoSlot(s1, DRIVERS_LOCATIONS) && HashSlots(s1, ws[1..])
      && DistinctDrivers(ws[1..])
      && (forall j :: 1 <= j < |ws| ==> At(s1, LocationKey(ws[j].driverId)) == At(st, LocationKey(ws[j].driverId)))
  {
    var w := ws[0];
    var s1 := ExecAll(st, LocationWrites(w.driverId, w.loc, w.updatedAt));
    LocationWritesEffect(st, w.driverId, w.loc, w.updatedAt);
    forall j | 1 <= j < |ws| ensures At(s1, LocationKey(ws[j].driverId)) == At(st, LocationKey(ws[j].driverId)) {
      KeysDistinct(ws[j].driverId, w.driverId);
    }
    forall j | 0 <= j < |ws[1..]| ensures HashSlot(s1, LocationKey(ws[1..][j].driverId)) {
      assert ws[1..][j] == ws[j + 1];
    }
  }

  /** After a batch with distinct drivers, every driver in it has its new
      position in the geo set, its new metadata over its old hash fields, and
      a fresh 3600 s time-to-live. */
  lemma {:induction false} WritesOfEffect(st: Store, ws: seq<Write>, i: nat)
    requires DistinctDrivers(ws) && 0 <= i < |ws|
    requires GeoSlot(st, DRIVERS_LOCATIONS) && HashSlots(st, ws)
    ensures var r := ExecAll(st, WritesOf(ws));
      var w := ws[i];
      && w.driverId in GeoMembers(r, DRIVERS_LOCATIONS)
      && GeoMembers(r, DRIVERS_LOCATIONS)[w.driverId] == Point(w.loc.lng, w.loc.lat)
      && HashFields(r, LocationKey(w.driverId)) == HashFields(st, LocationKey(w.driverId)) + MetaHash(w.loc, w.updatedAt)
      && LocationKey(w.driverId) in r.ttl && r.ttl[LocationKey(w.driverId)] == LOCATION_TTL
    decreases |ws|
  {
    if i == 0 {
      FirstWriteEffect(st, ws);
    } else {
      var w := ws[0];
      var s1 := ExecAll(st, LocationWrites(w.driverId, w.loc, w.updatedAt));
      FirstGroup(st, ws);
      ExecAllWrites(st, ws);
      assert ws[1..][i - 1] == ws[i];
      var k := LocationKey(ws[i].driverId);
      assert At(s1, k) == At(st, k);
      assert HashFields(s1, k) == HashFields(st, k);
      WritesOfEffect(s1, ws[1..], i - 1);
    }
  }

  /** The first write of a batch with distinct drivers survives the rest of
      the batch. */
  lemma FirstWriteEffect(st: Store, ws: seq<Write>)
    requires DistinctDrivers(ws) && 0 < |ws|
    requires GeoSlot(st, DRIVERS_LOCATIONS) && HashSlots(st, ws)
    ensures var r := ExecAll(st, WritesOf(ws));
      var w := ws[0];
      && w.driverId in GeoMembers(r, DRIVERS_LOCATIONS)
      && GeoMembers(r, DRIVERS_LOCATIONS)[w.driverId] == Point(w.loc.lng, w.loc.lat)
      && HashFields(r, LocationKey(w.driverId)) == HashFields(st, LocationKey(w.driverId)) + MetaHash(w.loc, w.updatedAt)
      && LocationKey(w.driverId) in r.ttl && r.ttl[LocationKey(w.driverId)] == LOCATION_TTL
  {
    var w := ws[0];
    var s1 := ExecAll(st, LocationWrites(w.driverId, w.loc, w.updatedAt));
    FirstGroup(st, ws);
    ExecAllWrites(st, ws);
    LocationWritesEffect(st, w.driverId, w.loc, w.updatedAt);
    forall j | 0 <= j < |ws[1..]| ensures ws[1..][j].driverId != w.driverId {
      assert ws[1..][j] == ws[j + 1];
    }
    OtherWritesPreserveView(s1, ws[1..], w.driverId);
    var r := ExecAll(s1, WritesOf(ws[1..]));
    assert DriverView(r, w.driverId) == DriverView(s1, w.driverId);
    assert At(r, LocationKey(w.driverId)) == At(s1, LocationKey(w.driverId));
  }
}

=== FILE: js_values.dfy ===
/** The JavaScript value semantics the controllers depend on: truthiness (`!x`,
    `a || b`), `String(x)`, and loose (`==`) versus strict (`===`) equality
    between identifiers that arrive as numbers (database rows, tokens) or as
    strings (path parameters, headers). */
module JsValues {
  import opened Wrappers
  import Text

  /** The values an identifier or request field can hold. */
  datatype JsVal = Undefined | Null | Num(n: int) | Str(s: string)

  /** JavaScript truthiness: `undefined`, `null`, `0` and `""` are falsy. */
  predicate Truthy(v: JsVal) {
    match v
    case Undefined => false
    case Null => false
    case Num(n) => n != 0
    case Str(s) => s != ""
  }

  /** `a || b`: the first operand when it is truthy, else the second. */
  function Or(a: JsVal, b: JsVal): (r: JsVal)
    ensures Truthy(a) ==> r == a
    ensures !Truthy(a) ==> r == b
    ensures Truthy(r) <==> Truthy(a) || Truthy(b)
  {
    if Truthy(a) then a else b
  }

  /** An optional value as JavaScript sees it: absent is `undefined`. */
  function OfOption(o: Option<JsVal>): JsVal {
    o.GetOr(Undefined)
  }

  /** `String(v)`. */
  function ToStr(v: JsVal): string {
    match v
    case Undefined => "undefined"
    case Null => "null"
    case Num(n) => Text.IntToString(n)
    case Str(s) => s
  }

  /** ToNumber applied to a string, for the strings this model follows: the
      empty string is 0, an all-digit string is its value, and anything else
      is NaN (`None`). */
  function StringToNumber(s: string): Option<int> {
    if s == "" then Some(0)
    else match Text.ParseNat(s)
      case Some(n) => Some(n)
      case None => None
  }

  predicate IsNullish(v: JsVal) {
    v.Undefined? || v.Null?
  }

  /** `a == b`: nullish values equal only each other; a number and a string
      compare after converting the string to a number. */
  predicate LooseEq(a: JsVal, b: JsVal) {
    if IsNullish(a) || IsNullish(b) then IsNullish(a) && IsNullish(b)
    else match (a, b)
      case (Num(x), Num(y)) => x == y
      case (Str(x), Str(y)) => x == y
      case (Num(x), Str(y)) => StringToNumber(y) == Some(x)
      case (Str(x), Num(y)) => StringToNumber(x) == Some(y)
  }

  /** `a === b`: same type and same value. */
  predicate StrictEq(a: JsVal, b: JsVal) {
    a == b
  }

  /** `String(a) === String(b)`: the comparison the newer controllers use. */
  predicate StringEq(a: JsVal, b: JsVal) {
    ToStr(a) == ToStr(b)
  }

  lemma LooseEqSymmetric(a: JsVal, b: JsVal)
    ensures LooseEq(a, b) <==> LooseEq(b, a)
  {
  }

  /** A numeric identifier and its decimal rendering are loosely equal and
      equal as strings, but never strictly equal. */
  lemma NumberAndItsText(n: nat)
    ensures LooseEq(Num(n), Str(Text.NatToString(n)))
    ensures StringEq(Num(n), Str(Text.NatToString(n)))
    ensures !StrictEq(Num(n), Str(Text.NatToString(n)))
  {
    Text.ParseNatOfRendering(n);
    assert Text.NatToString(n) != "";
  }

  /** `process.env.X || d`: an unset or empty variable takes the default. */
  function EnvOr(v: Option<string>, d: string): (r: string)
    ensures v.Some? && v.value != "" ==> r == v.value
    ensures v.None? || v == Some("") ==> r == d
  {
    if v.Some? && v.value != "" then v.value else d
  }

  /** How a value bound to an INTEGER column parameter arrives: `undefined`
      and `null` become SQL NULL, a number is itself, an all-digit string is
      its value, and anything else makes the statement fail. */
  datatype PgInt = PgNull | PgValue(n: int) | PgInvalid

  function PgInteger(v: JsVal): (r: PgInt)
    ensures r.PgNull? <==> IsNullish(v)
    ensures v.Num? ==> r == PgValue(v.n)
    ensures r.PgValue? ==> LooseEq(v, Num(r.n))
  {
    match v
    case Undefined => PgNull
    case Null => PgNull
    case Num(n) => PgValue(n)
    case Str(s) =>
      match Text.ParseNat(s)
      case Some(n) => PgValue(n)
      case None => PgInvalid
  }

  /** `parseInt(v)` and `parseFloat(v)` for the values this model follows: a
      number is itself, a non-empty all-digit string is its value, and
      anything else, `""`, `null` and `undefined` included, is NaN (`None`). */
  function ParseNumber(v: JsVal): (r: Option<int>)
    ensures v.Num? ==> r == Some(v.n)
    ensures IsNullish(v) || v == Str("") ==> r.None?
    ensures r.Some? ==> LooseEq(v, Num(r.value))
  {
    match v
    case Num(n) => Some(n)
    case Str(s) => (match Text.ParseNat(s) case Some(n) => Some(n) case None => None)
    case _ => None
  }

  /** A JSON object as JavaScript holds it; an absent key reads as `undefined`. */
  type Obj = map<string, JsVal>

  /** `o.k`. */
  function Get(o: Obj, k: string): JsVal {
    if k in o then o[k] else Undefined
  }

  /** `JSON.parse(JSON.stringify(o))` for a flat object: keys whose value is
      `undefined` are dropped, every other key keeps its value. */
  function Stringify(o: Obj): (r: Obj)
    ensures forall k :: k in r <==> k in o && o[k] != Undefined
    ensures forall k :: k in r ==> r[k] == o[k]
  {
    map k | k in o && o[k] != Undefined :: o[k]
  }

  /** Every field reads back the same after the round trip through JSON text. */
  lemma StringifyKeepsFields(o: Obj, k: string)
    ensures Get(Stringify(o), k) == Get(o, k)
  {
  }
}

=== FILE: location_batch_worker.dfy ===
/** The modules driver service's location batch worker: each cycle pops up to
    500 `driverId|lat|lng|timestamp` entries off the Redis list the location
    socket handler appends to, and writes the well-formed ones to
    `driver_location_history` in one insert. Popped entries are gone from the
    list whatever the insert does. */
module LocationBatchWorker {
  import opened Wrappers
  import opened Text
  import opened JsValues
  import opened SqlBatch

  const BATCH_SIZE: nat := 500
  const FLUSH_INTERVAL_MS: nat := 3000
  const ERROR_BACKOFF_MS: nat := 5000
  const COLUMNS: nat := 4

  /** Element `i` of `log.split("|")` under array destructuring: `undefined`
      past the end. */
  function Part(parts: seq<string>, i: nat): JsVal {
    if i < |parts| then Str(parts[i]) else Undefined
  }

  /** The row an entry contributes, or `None` when its driver id, latitude or
      longitude is empty or missing and the entry is skipped. */
  function RowOf(log: string): (row: Option<seq<SqlVal>>)
    ensures row.Some? <==> (var parts := Split(log, '|');
      |parts| >= 3 && parts[0] != "" && parts[1] != "" && parts[2] != "")
    ensures row.Some? ==> |row.value| == COLUMNS && row.value[0] == SqlText(Split(log, '|')[0])
  {
    var parts := Split(log, '|');
    var driverId := Part(parts, 0);
    var lat := Part(parts, 1);
    var lng := Part(parts, 2);
    var timestamp := Part(parts, 3);
    if Truthy(driverId) && Truthy(lat) && Truthy(lng) then
      Some([SqlText(driverId.s), Float(ParseNumber(lat)), Float(ParseNumber(lng)), DateOf(ParseNumber(timestamp))])
    else None
  }

  /** The rows of the well-formed entries, in entry order. */
  function RowsOf(logs: seq<string>): (rows: seq<seq<SqlVal>>)
    ensures |rows| <= |logs|
    ensures Uniform(rows, COLUMNS)
    ensures forall l :: l in logs && RowOf(l).Some? ==> RowOf(l).value in rows
    ensures forall r :: r in rows ==> exists l :: l in logs && RowOf(l) == Some(r)
    decreases |logs|
  {
    if |logs| == 0 then []
    else
      var rest := RowsOf(logs[1..]);
      match RowOf(logs[0])
      case Some(row) => [row] + rest
      case None => rest
  }

  /** The insert of one cycle: placeholders in groups of four and the values
      in entry order. */
  datatype Statement = Statement(placeholders: seq<seq<nat>>, values: seq<SqlVal>)

  function InsertFor(rows: seq<seq<SqlVal>>): Statement {
    Statement(Params(|rows|, COLUMNS), Flatten(rows))
  }

  /** The placeholder loop of a cycle: `paramIndex` advances by four per
      kept entry and skipped entries take no numbers. */
  method BuildStatement(logs: seq<string>) returns (st: Statement)
    ensures st == InsertFor(RowsOf(logs))
  {
    var placeholders, values := BuildInsert(RowsOf(logs), COLUMNS);
    st := Statement(placeholders, values);
  }

  /** The list after a cycle, the insert sent (if any), the rows committed,
      and the sleep that follows. */
  datatype Cycle = Cycle(list: seq<string>, statement: Option<Statement>, written: seq<seq<SqlVal>>, sleepMs: nat)

  function Min(a: nat, b: nat): nat { if a < b then a else b }

  /** One turn of the loop. `popFails` is a Redis error on `LPOP`, `insertOk`
      the insert's success. An empty list sleeps 3 s; a batch of only skipped
      entries goes straight to the next turn; any error sleeps 5 s. */
  function RunCycle(list: seq<string>, popFails: bool, insertOk: bool): (c: Cycle)
    ensures popFails ==> c == Cycle(list, None, [], ERROR_BACKOFF_MS)
    ensures !popFails && |list| == 0 ==> c == Cycle(list, None, [], FLUSH_INTERVAL_MS)
    ensures !popFails ==> c.list == list[Min(|list|, BATCH_SIZE)..]
  {
    if popFails then Cycle(list, None, [], ERROR_BACKOFF_MS)
    else if |list| == 0 then Cycle(list, None, [], FLUSH_INTERVAL_MS)
    else
      var n := Min(|list|, BATCH_SIZE);
      var logs := list[..n];
      var rest := list[n..];
      var rows := RowsOf(logs);
      if |rows| == 0 then Cycle(rest, None, [], 0)
      else if insertOk then Cycle(rest, Some(InsertFor(rows)), rows, 0)
      else Cycle(rest, Some(InsertFor(rows)), [], ERROR_BACKOFF_MS)
  }

  /** A cycle takes at most 500 entries, the oldest ones, and writes exactly
      the well-formed ones among them, in order. */
  lemma CycleWritesOldestBatch(list: seq<string>)
    requires |list| > 0
    ensures var c := RunCycle(list, false, true);
      && |list| - |c.list| <= BATCH_SIZE
      && list == list[..|list| - |c.list|] + c.list
      && c.written == RowsOf(list[..Min(|list|, BATCH_SIZE)])
      && c.statement == if |c.written| == 0 then None else Some(InsertFor(c.written))
  {
    var n := Min(|list|, BATCH_SIZE);
    assert list[..n] + list[n..] == list;
  }

  /** A failed insert loses the popped entries: they leave the list and are
      written nowhere. */
  lemma InsertFailureLosesEntries(list: seq<string>)
    requires |list| > 0
    ensures var c := RunCycle(list, false, false);
      && c.written == []
      && c.list == list[Min(|list|, BATCH_SIZE)..]
      && (c.statement.Some? ==> c.sleepMs == ERROR_BACKOFF_MS)
  {
  }

  /** The entry the socket handler appends: `${driverId}|${lat}|${lng}|${Date.now()}`. */
  function LogEntry(driverId: JsVal, lat: JsVal, lng: JsVal, now: nat): string {
    Join([ToStr(driverId), ToStr(lat), ToStr(lng), NatToString(now)], '|')
  }

  /** Round trip: an entry whose fields hold no `|` parses back into its four
      fields, and its timestamp into the same number of milliseconds. */
  lemma LogEntryRoundTrip(driverId: JsVal, lat: JsVal, lng: JsVal, now: nat)
    requires '|' !in ToStr(driverId) && '|' !in ToStr(lat) && '|' !in ToStr(lng)
    ensures Split(LogEntry(driverId, lat, lng, now), '|') == [ToStr(driverId), ToStr(lat), ToStr(lng), NatToString(now)]
    ensures ToStr(driverId) != "" && ToStr(lat) != "" && ToStr(lng) != "" ==>
      RowOf(LogEntry(driverId, lat, lng, now))
      == Some([SqlText(ToStr(driverId)), Float(ParseNumber(Str(ToStr(lat)))), Float(ParseNumber(Str(ToStr(lng)))), DateOf(Some(now))])
  {
    var parts := [ToStr(driverId), ToStr(lat), ToStr(lng), NatToString(now)];
    NatToStringHasOnlyDigits(now, '|');
    SplitJoinRoundTrip(parts, '|');
    ParseNatOfRendering(now);
  }

  /** A location with no latitude is appended as the text `undefined`, which
      is not empty, so the worker keeps the entry with a NaN latitude. The
      socket handler in `services/driver-service/src/app.js:77` refuses a
      falsy latitude before it appends, so such an entry can come only from
      another producer of the list. */
  lemma MissingLatitudeIsKept(driverId: string, lng: JsVal, now: nat)
    requires driverId != "" && '|' !in driverId && '|' !in ToStr(lng) && ToStr(lng) != ""
    ensures RowOf(LogEntry(Str(driverId), Undefined, lng, now)).Some?
    ensures RowOf(LogEntry(Str(driverId), Undefined, lng, now)).value[1] == Float(None)
  {
    LogEntryRoundTrip(Str(driverId), Undefined, lng, now);
    assert !IsDigit('u');
  }
}

=== FILE: location_history_handler.dfy ===
/** The location-history Lambda (Python): it parses a batch of queue records,
    inserts the valid locations with one `execute_values` statement, and
    answers with the partial-batch failure list the queue uses to redeliver
    records. Also the monthly partition naming of `driver_location_history`. */
module LocationHistoryHandler {
  import opened Wrappers
  import opened Text
  import opened JsValues

  /** A queue record; a body `json.loads` rejects is `None`. JSON values are
      `JsVal`s without `Undefined`: a key is present or absent. */
  datatype SqsRecord = SqsRecord(messageId: string, body: Option<Obj>)

  /** Python's `int(v)` / `float(v)` on a JSON value: a number converts, a
      string of digits converts, another string raises ValueError (caught),
      and `None` raises TypeError, which the handler does not catch. */
  datatype Conv = Converted(n: int) | ValueErr | TypeErr

  function PyNumber(v: JsVal): (c: Conv)
    ensures v.Num? ==> c == Converted(v.n)
    ensures IsNullish(v) ==> c == TypeErr
  {
    match v
    case Num(n) => Converted(n)
    case Str(s) => (match ParseNat(s) case Some(n) => Converted(n) case None => ValueErr)
    case _ => TypeErr
  }

  /** The tuple handed to `execute_values`. `recordedAt` is the body's text,
      or `None` for `datetime.utcnow()`. */
  datatype Location = Location(
    driverId: int, lat: int, lng: int, heading: JsVal, speed: JsVal, accuracy: JsVal,
    tripId: JsVal, recordedAt: Option<string>)

  /** What the loop makes of one record: skipped (a required key missing),
      failed (JSON or value error, reported by message id), parsed, or an
      exception that escapes the handler. */
  datatype Parse = Skipped | Failed | Parsed(loc: Location) | Escaped

  /** `body.get(k)`: `None` for an absent key. */
  function PyGet(o: Obj, k: string): JsVal {
    if k in o then o[k] else Null
  }

  /** The body's `recordedAt` when it is truthy: a string goes through
      `fromisoformat` (`isoOk` says which strings it accepts), anything else
      has no `replace` and raises AttributeError. */
  function ParseRecord(r: SqsRecord, isoOk: string -> bool): (p: Parse)
    ensures r.body.None? ==> p == Failed
    ensures r.body.Some? && !("driverId" in r.body.value && "lat" in r.body.value && "lng" in r.body.value) ==> p == Skipped
    ensures p.Parsed? ==> r.body.Some? && LooseEq(PyGet(r.body.value, "driverId"), Num(p.loc.driverId))
  {
    match r.body
    case None => Failed
    case Some(o) =>
      if !("driverId" in o && "lat" in o && "lng" in o) then Skipped
      else
        var recordedAt := PyGet(o, "recordedAt");
        if Truthy(recordedAt) && !recordedAt.Str? then Escaped
        else if Truthy(recordedAt) && !isoOk(recordedAt.s) then Failed
        else
          match (PyNumber(o["driverId"]), PyNumber(o["lat"]), PyNumber(o["lng"]))
          case (Converted(d), Converted(lat), Converted(lng)) =>
            Parsed(Location(d, lat, lng, PyGet(o, "heading"), PyGet(o, "speed"), PyGet(o, "accuracy"), PyGet(o, "tripId"),
                            if Truthy(recordedAt) then Some(recordedAt.s) else None))
          case (TypeErr, _, _) => Escaped
          case (Converted(_), TypeErr, _) => Escaped
          case (Converted(_), Converted(_), TypeErr) => Escaped
          case _ => Failed
  }

  /** The parsing loop: the valid locations and the failed message ids, both
      in record order, or `None` when an exception escapes. */
  function ParseAll(rs: seq<SqsRecord>, isoOk: string -> bool): (r: Option<(seq<Location>, seq<string>)>)
    ensures r.Some? <==> forall i :: 0 <= i < |rs| ==> !ParseRecord(rs[i], isoOk).Escaped?
    ensures r.Some? ==> |r.value.0| + |r.value.1| <= |rs|
    decreases |rs|
  {
    if |rs| == 0 then Some(([], []))
    else
      var rest := ParseAll(rs[1..], isoOk);
      match ParseRecord(rs[0], isoOk)
      case Escaped => None
      case Skipped => rest
      case Failed => if rest.None? then None else Some((rest.value.0, [rs[0].messageId] + rest.value.1))
      case Parsed(loc) => if rest.None? then None else Some(([loc] + rest.value.0, rest.value.1))
  }

  /** The message ids of the records that fail to parse, in order. */
  function FailedIds(rs: seq<SqsRecord>, isoOk: string -> bool): (ids: seq<string>)
    decreases |rs|
  {
    if |rs| == 0 then []
    else if ParseRecord(rs[0], isoOk) == Failed then [rs[0].messageId] + FailedIds(rs[1..], isoOk)
    else FailedIds(rs[1..], isoOk)
  }

  /** The failed ids the loop collects are exactly the records that fail to
      parse; skipped records are not among them. */
  lemma {:induction false} ParseAllFailures(rs: seq<SqsRecord>, isoOk: string -> bool)
    requires ParseAll(rs, isoOk).Some?
    ensures ParseAll(rs, isoOk).value.1 == FailedIds(rs, isoOk)
    decreases |rs|
  {
    if |rs| > 0 {
      ParseAllFailures(rs[1..], isoOk);
    }
  }

  function MessageIds(rs: seq<SqsRecord>): (ids: seq<string>)
    ensures |ids| == |rs|
    ensures forall i :: 0 <= i < |rs| ==> ids[i] == rs[i].messageId
  {
    seq(|rs|, (i: int) requires 0 <= i < |rs| => rs[i].messageId)
  }

  /** How the insert ends: `rowcount` rows inserted and committed, a
      `psycopg2.Error` (connection or statement), or another exception. */
  datatype DbReply = InsertedRows(rowcount: int) | DbError | OtherError

  datatype Body = Counts(inserted: int, failed: nat) | ErrorBody

  /** The handler's return value, or an exception escaping it. `sent` is the
      rows handed to `execute_values` (empty when none was called). */
  datatype Outcome = Raised | Response(statusCode: int, body: Body, batchItemFailures: Option<seq<string>>, sent: seq<Location>)

  function Handler(rs: seq<SqsRecord>, isoOk: string -> bool, db: DbReply): (o: Outcome)
    ensures ParseAll(rs, isoOk).None? ==> o == Raised
    ensures o.Response? && o.statusCode == 200 && o.batchItemFailures.Some? ==> o.batchItemFailures.value == FailedIds(rs, isoOk)
  {
    match ParseAll(rs, isoOk)
    case None => Raised
    case Some((locations, failed)) =>
      ParseAllFailures(rs, isoOk);
      if |locations| == 0 then Response(200, Counts(0, |failed|), None, [])
      else
        match db
        case InsertedRows(n) => Response(200, Counts(n, |failed|), Some(failed), locations)
        case DbError => Response(500, ErrorBody, Some(MessageIds(rs)), locations)
        case OtherError => Raised
  }

  /** A record lacking `driverId`, `lat` or `lng` is neither inserted nor
      reported after a successful insert: the queue deletes it silently. */
  lemma SkippedRecordDropped(rs: seq<SqsRecord>, isoOk: string -> bool, n: int, i: nat)
    requires i < |rs| && ParseRecord(rs[i], isoOk) == Skipped
    requires Handler(rs, isoOk, InsertedRows(n)).Response?
    ensures rs[i].messageId !in FailedIds(rs, isoOk) || exists j :: 0 <= j < |rs| && j != i && rs[j].messageId == rs[i].messageId
  {
    FailedIdsFrom(rs, isoOk, rs[i].messageId);
  }

  /** An id among the failures belongs to a record that failed to parse. */
  lemma {:induction false} FailedIdsFrom(rs: seq<SqsRecord>, isoOk: string -> bool, id: string)
    ensures id in FailedIds(rs, isoOk) ==> exists j :: 0 <= j < |rs| && rs[j].messageId == id && ParseRecord(rs[j], isoOk) == Failed
    decreases |rs|
  {
    if |rs| > 0 {
      FailedIdsFrom(rs[1..], isoOk, id);
      if id in FailedIds(rs[1..], isoOk) {
        var j :| 0 <= j < |rs[1..]| && rs[1..][j].messageId == id && ParseRecord(rs[1..][j], isoOk) == Failed;
        assert rs[j + 1] == rs[1..][j];
      }
    }
  }

  /** When no record yields a location the handler answers 200 without any
      `batchItemFailures` and makes no database call, so records that failed
      to parse are not reported for redelivery. */
  lemma NoLocationsReportsNothing(rs: seq<SqsRecord>, isoOk: string -> bool, db: DbReply)
    requires ParseAll(rs, isoOk).Some? && |ParseAll(rs, isoOk).value.0| == 0
    ensures Handler(rs, isoOk, db) == Response(200, Counts(0, |FailedIds(rs, isoOk)|), None, [])
  {
    ParseAllFailures(rs, isoOk);
  }

  /** A database error reports every record of the batch, skipped and valid
      ones included, so the whole batch is redelivered. */
  lemma DbErrorReportsAll(rs: seq<SqsRecord>, isoOk: string -> bool)
    requires ParseAll(rs, isoOk).Some? && |ParseAll(rs, isoOk).value.0| > 0
    ensures Handler(rs, isoOk, DbError).statusCode == 500
    ensures Handler(rs, isoOk, DbError).batchItemFailures == Some(MessageIds(rs))
  {
  }

  /** A present but null `lat` makes `float(None)` raise TypeError, which
      escapes the handler: the whole invocation fails. */
  lemma NullLatitudeEscapes(r: SqsRecord, isoOk: string -> bool)
    requires r.body.Some? && "driverId" in r.body.value && "lng" in r.body.value
    requires "lat" in r.body.value && r.body.value["lat"] == Null
    requires !Truthy(PyGet(r.body.value, "recordedAt"))
    requires PyNumber(r.body.value["driverId"]).Converted?
    ensures ParseRecord(r, isoOk) == Escaped
    ensures Handler([r], isoOk, InsertedRows(0)) == Raised
  {
  }

  // ---------------------------------------------------------------------------
  // Monthly partitions
  // ---------------------------------------------------------------------------

  /** `f"{month:02d}"` for a month: two digits, a leading zero below ten. */
  function Pad2(m: nat): (s: string)
    requires m < 100
    ensures |s| == 2 && AllDigits(s)
  {
    [DigitChar(m / 10), DigitChar(m % 10)]
  }

  lemma Pad2RoundTrip(m: nat)
    requires m < 100
    ensures ParseNat(Pad2(m)) == Some(m)
  {
    var s := Pad2(m);
    assert s[..1][..0] == [];
    assert DigitsValue(s[..1]) == m / 10;
  }

  const PARTITION_PREFIX: string := "driver_location_history_"

  /** `driver_location_history_{year}_{month:02d}`. */
  function PartitionName(year: nat, month: nat): string
    requires 1 <= month <= 12
  {
    PARTITION_PREFIX + NatToString(year) + "_" + Pad2(month)
  }

  /** Distinct months have distinct partition names. */
  lemma PartitionNamesDistinct(y1: nat, m1: nat, y2: nat, m2: nat)
    requires 1 <= m1 <= 12 && 1 <= m2 <= 12
    requires PartitionName(y1, m1) == PartitionName(y2, m2)
    ensures y1 == y2 && m1 == m2
  {
    var n1 := NatToString(y1);
    var n2 := NatToString(y2);
    SameTail(PARTITION_PREFIX + n1 + "_", Pad2(m1), PARTITION_PREFIX + n2 + "_", Pad2(m2));
    Pad2RoundTrip(m1);
    Pad2RoundTrip(m2);
    SameTail(PARTITION_PREFIX + n1, "_", PARTITION_PREFIX + n2, "_");
    SameHead(PARTITION_PREFIX, n1, n2);
    NatToStringInjective(y1, y2);
  }

  /** The month after `(year, month)`: December rolls over to January of the
      next year. */
  function NextMonth(year: nat, month: nat): (r: (nat, nat))
    requires 1 <= month <= 12
    ensures 1 <= r.1 <= 12
    ensures 12 * r.0 + r.1 == 12 * year + month + 1
  {
    if month == 12 then (year + 1, 1) else (year, month + 1)
  }

  /** `'{year}-{month:02d}-01'`. */
  function Bound(year: nat, month: nat): string
    requires 1 <= month <= 12
  {
    NatToString(year) + "-" + Pad2(month) + "-01"
  }

  datatype Partition = Partition(name: string, from: string, to: string)

  /** `create_partition_if_needed`: nothing when the partition exists;
      otherwise the partition for the month, from its first day to the first
      day of the next month. */
  function CreatePartitionIfNeeded(year: nat, month: nat, exists_: bool): (p: Option<Partition>)
    requires 1 <= month <= 12
    ensures exists_ <==> p.None?
    ensures p.Some? ==> p.value.name == PartitionName(year, month) && p.value.from == Bound(year, month)
    ensures p.Some? ==> p.value.to == Bound(NextMonth(year, month).0, NextMonth(year, month).1)
  {
    if exists_ then None
    else
      var (ny, nm) := NextMonth(year, month);
      Some(Partition(PartitionName(year, month), Bound(year, month), Bound(ny, nm)))
  }

  /** Consecutive monthly partitions meet: each one ends where the next
      month's begins. */
  lemma PartitionsTile(year: nat, month: nat)
    requires 1 <= month <= 12
    ensures var (ny, nm) := NextMonth(year, month);
      CreatePartitionIfNeeded(year, month, false).value.to == CreatePartitionIfNeeded(ny, nm, false).value.from
  {
  }
}

=== FILE: location_service.dfy ===
/** The services driver service's location operations over the Redis
    keyspace: the single and batch writes, the online-only nearby search, the
    three-key removal, and the delta filter that skips updates too close to
    the last stored position. Great-circle distance is a parameter: only its
    comparison with the threshold is modelled. */
module LocationService {
  import opened Wrappers
  import GeoStore
  import Text

  const DELTA_DISTANCE_THRESHOLD: real := 10.0
  const DELTA_HEADING_THRESHOLD: real := 15.0
  const DEFAULT_RADIUS_KM: real := 5.0
  const DEFAULT_LIMIT: int := 20

  // ---------------------------------------------------------------------------
  // updateDriverLocation
  // ---------------------------------------------------------------------------

  /** The `lastpos` snapshot: `JSON.stringify({ lat, lng, heading })`. */
  function SnapshotOf(loc: GeoStore.Location): GeoStore.Value {
    GeoStore.Snapshot(GeoStore.Position(loc.lat, loc.lng, loc.heading))
  }

  /** The pipeline of `updateDriverLocation`: the location write group stamped
      with `now`, then the snapshot the delta filter reads. */
  function UpdateCommands(driverId: string, loc: GeoStore.Location, now: int): (cs: seq<GeoStore.Command>)
    ensures |cs| == 4
    ensures cs[..3] == GeoStore.LocationWrites(driverId, loc, now)
    ensures cs[3] == GeoStore.Set(GeoStore.LastPosKey(driverId), SnapshotOf(loc))
  {
    GeoStore.LocationWrites(driverId, loc, now) + [GeoStore.Set(GeoStore.LastPosKey(driverId), SnapshotOf(loc))]
  }

  datatype UpdateReply = UpdateReply(success: bool, timestamp: int, driverId: string)

  /** `updateDriverLocation(driverId, locationData)` at time `now`. A rejected
      pipeline is rethrown; the model then leaves the store as it was. */
  function UpdateDriverLocation(st: GeoStore.Store, driverId: string, loc: GeoStore.Location, now: int, execRejects: bool)
    : (r: (GeoStore.Store, Outcome<UpdateReply>))
    ensures execRejects ==> r == (st, Thrown)
    ensures !execRejects ==> r.1 == Done(UpdateReply(true, now, driverId))
  {
    if execRejects then (st, Thrown)
    else (GeoStore.ExecAll(st, UpdateCommands(driverId, loc, now)), Done(UpdateReply(true, now, driverId)))
  }

  /** A resolved update writes four things: the geo member at the new
      position, the metadata hash (missing numbers as 0, a missing trip as
      ""), its 3600 s time-to-live, and the snapshot, which carries no
      time-to-live. Nothing else changes. */
  lemma UpdateEffect(st: GeoStore.Store, d: string, loc: GeoStore.Location, now: int)
    requires GeoStore.GeoSlot(st, GeoStore.DRIVERS_LOCATIONS) && GeoStore.HashSlot(st, GeoStore.LocationKey(d))
    ensures var r := UpdateDriverLocation(st, d, loc, now, false).0;
      && GeoStore.GeoMembers(r, GeoStore.DRIVERS_LOCATIONS)
         == GeoStore.GeoMembers(st, GeoStore.DRIVERS_LOCATIONS)[d := GeoStore.Point(loc.lng, loc.lat)]
      && GeoStore.HashFields(r, GeoStore.LocationKey(d))
         == GeoStore.HashFields(st, GeoStore.LocationKey(d)) + GeoStore.MetaHash(loc, now)
      && GeoStore.LocationKey(d) in r.ttl && r.ttl[GeoStore.LocationKey(d)] == GeoStore.LOCATION_TTL
      && GeoStore.At(r, GeoStore.LastPosKey(d)) == (Some(SnapshotOf(loc)), None)
      && (forall k :: k != GeoStore.DRIVERS_LOCATIONS && k != GeoStore.LocationKey(d) && k != GeoStore.LastPosKey(d)
            ==> GeoStore.At(r, k) == GeoStore.At(st, k))
  {
    var g := GeoStore.LocationWrites(d, loc, now);
    var last := [GeoStore.Set(GeoStore.LastPosKey(d), SnapshotOf(loc))];
    assert UpdateCommands(d, loc, now) == g + last;
    GeoStore.ExecAllAppend(st, g, last);
    GeoStore.LocationWritesEffect(st, d, loc, now);
    GeoStore.KeysDistinct(d, d);
    SnapshotWriteEffect(GeoStore.ExecAll(st, g), d, SnapshotOf(loc));
  }

  /** Writing the snapshot sets it without a time-to-live and changes no other key. */
  lemma SnapshotWriteEffect(s1: GeoStore.Store, d: string, v: GeoStore.Value)
    ensures var s2 := GeoStore.ExecAll(s1, [GeoStore.Set(GeoStore.LastPosKey(d), v)]);
      && GeoStore.At(s2, GeoStore.LastPosKey(d)) == (Some(v), None)
      && forall k :: k != GeoStore.LastPosKey(d) ==> GeoStore.At(s2, k) == GeoStore.At(s1, k)
  {
    var c := GeoStore.Set(GeoStore.LastPosKey(d), v);
    assert GeoStore.ExecAll(s1, [c]) == GeoStore.Exec(s1, c);
    forall k | k != GeoStore.LastPosKey(d) ensures GeoStore.At(GeoStore.Exec(s1, c), k) == GeoStore.At(s1, k) {
      GeoStore.ExecFrame(s1, c, k);
    }
  }

  // ---------------------------------------------------------------------------
  // batchUpdateLocations
  // ---------------------------------------------------------------------------

  datatype BatchItem = BatchItem(driverId: string, loc: GeoStore.Location)

  /** `{ success, count, timestamp }`; the empty-batch reply has no timestamp. */
  datatype BatchReply = BatchReply(success: bool, count: nat, timestamp: Option<int>)

  /** The writes of a batch: item i is stamped `timestamp + i`. */
  function BatchWrites(items: seq<BatchItem>, timestamp: int): (ws: seq<GeoStore.Write>)
    ensures |ws| == |items|
    ensures forall i :: 0 <= i < |items| ==>
      ws[i] == GeoStore.Write(items[i].driverId, items[i].loc, timestamp + i)
  {
    seq(|items|, i requires 0 <= i < |items| => GeoStore.Write(items[i].driverId, items[i].loc, timestamp + i))
  }

  /** `batchUpdateLocations(locations)`: `null` or an empty list answers
      `count: 0` without touching the store; otherwise one write group per
      item goes out in one pipeline, `count` is the number of items and the
      reply carries the batch's time stamp. */
  function BatchUpdateLocations(st: GeoStore.Store, items: Option<seq<BatchItem>>, timestamp: int, execRejects: bool)
    : (r: (GeoStore.Store, Outcome<BatchReply>))
    ensures items.None? || |items.value| == 0 ==> r == (st, Done(BatchReply(true, 0, None)))
    ensures items.Some? && |items.value| > 0 && !execRejects ==> r.1 == Done(BatchReply(true, |items.value|, Some(timestamp)))
    ensures items.Some? && |items.value| > 0 && execRejects ==> r == (st, Thrown)
  {
    if items.None? || |items.value| == 0 then (st, Done(BatchReply(true, 0, None)))
    else if execRejects then (st, Thrown)
    else (GeoStore.ExecAll(st, GeoStore.WritesOf(BatchWrites(items.value, timestamp))),
          Done(BatchReply(true, |items.value|, Some(timestamp))))
  }

  /** Every item of a batch carries its own `updatedAt`: the stamps are
      pairwise distinct, even for the same driver. */
  lemma BatchStampsDistinct(items: seq<BatchItem>, timestamp: int, i: nat, j: nat)
    requires i < j < |items|
    ensures BatchWrites(items, timestamp)[i].updatedAt != BatchWrites(items, timestamp)[j].updatedAt
    ensures GeoStore.MetaHash(items[i].loc, timestamp + i)["updatedAt"]
         != GeoStore.MetaHash(items[j].loc, timestamp + j)["updatedAt"]
  {
  }

  /** After a resolved batch over distinct drivers, item i's driver is at its
      new position with `updatedAt = timestamp + i` in its hash. */
  lemma BatchEffect(st: GeoStore.Store, items: seq<BatchItem>, timestamp: int, i: nat)
    requires i < |items|
    requires forall a, b :: 0 <= a < b < |items| ==> items[a].driverId != items[b].driverId
    requires GeoStore.GeoSlot(st, GeoStore.DRIVERS_LOCATIONS)
    requires forall a :: 0 <= a < |items| ==> GeoStore.HashSlot(st, GeoStore.LocationKey(items[a].driverId))
    ensures var r := BatchUpdateLocations(st, Some(items), timestamp, false).0;
      var d := items[i].driverId;
      && d in GeoStore.GeoMembers(r, GeoStore.DRIVERS_LOCATIONS)
      && GeoStore.GeoMembers(r, GeoStore.DRIVERS_LOCATIONS)[d] == GeoStore.Point(items[i].loc.lng, items[i].loc.lat)
      && "updatedAt" in GeoStore.HashFields(r, GeoStore.LocationKey(d))
      && GeoStore.HashFields(r, GeoStore.LocationKey(d))["updatedAt"] == GeoStore.Num((timestamp + i) as real)
  {
    var ws := BatchWrites(items, timestamp);
    assert GeoStore.DistinctDrivers(ws);
    assert GeoStore.HashSlots(st, ws);
    GeoStore.WritesOfEffect(st, ws, i);
    assert ws[i] == GeoStore.Write(items[i].driverId, items[i].loc, timestamp + i);
  }

  /** A batch writes no `lastpos` snapshot, so the delta filter keeps reading
      the position of the last single update. */
  lemma BatchLeavesSnapshots(st: GeoStore.Store, items: seq<BatchItem>, timestamp: int, d: string)
    ensures GeoStore.At(BatchUpdateLocations(st, Some(items), timestamp, false).0, GeoStore.LastPosKey(d))
         == GeoStore.At(st, GeoStore.LastPosKey(d))
  {
    if |items| > 0 {
      var ws := BatchWrites(items, timestamp);
      var cs := GeoStore.WritesOf(ws);
      forall c | 0 <= c < |cs| ensures cs[c].key != GeoStore.LastPosKey(d) {
        GeoStore.WritesOfKeys(ws, c);
        GeoStore.KeysDistinct(d, d);
        if cs[c].key != GeoStore.DRIVERS_LOCATIONS {
          var j :| 0 <= j < |ws| && cs[c].key == GeoStore.LocationKey(ws[j].driverId);
          GeoStore.KeysDistinct(ws[j].driverId, d);
        }
      }
      GeoStore.ExecAllFrame(st, cs, GeoStore.LastPosKey(d));
    }
  }

  // ---------------------------------------------------------------------------
  // findNearbyDrivers
  // ---------------------------------------------------------------------------

  /** One GEORADIUS hit: member, distance in km, coordinates. */
  datatype Hit = Hit(driverId: string, distance: real, at: GeoStore.Point)

  /** `metadata?.heading ? parseInt(metadata.heading) : null`: null, a whole
      number, or NaN. */
  datatype Reading = NoReading | Whole(n: int) | NotANumber

  /** A driver in the answer of `findNearbyDrivers`. */
  datatype NearbyDriver = NearbyDriver(
    id: string, lat: real, lng: real, distance: real, status: string,
    heading: Reading, speed: Reading, tripId: Option<string>)

  /** `status || 'unknown'`: the stored status string, or "unknown" when the
      key is missing, empty or not a string. */
  function StatusOf(st: GeoStore.Store, driverId: string): (s: string)
    ensures s != ""
  {
    match GeoStore.GetText(st, GeoStore.StatusKey(driverId))
    case Some(t) => if t != "" then t else "unknown"
    case None => "unknown"
  }

  /** `metadata?.tripId || null`. */
  function TripIdOf(st: GeoStore.Store, driverId: string): Option<string> {
    var h := GeoStore.HashFields(st, GeoStore.LocationKey(driverId));
    if "tripId" in h && h["tripId"].Txt? && h["tripId"].s != "" then Some(h["tripId"].s) else None
  }

  /** The whole part of a number, toward zero: what `parseInt` reads from
      the number's text (`Text.ParseIntReadsWholePart`). */
  function Truncate(x: real): (n: int)
    ensures 0.0 <= x ==> n as real <= x < n as real + 1.0
    ensures x < 0.0 ==> n as real - 1.0 < x <= n as real
  {
    if x >= 0.0 then x.Floor else -((-x).Floor)
  }

  /** A numeric field of the driver's metadata hash, read as the search
      reads it: a missing or empty field is falsy and gives null; a stored
      number is non-empty text, so truthy even when it is 0, and reads as its
      whole part; other text goes through `parseInt`. */
  function ReadingOf(st: GeoStore.Store, driverId: string, field: string): (r: Reading)
    ensures var h := GeoStore.HashFields(st, GeoStore.LocationKey(driverId));
      && (r == NoReading <==> field !in h || h[field] == GeoStore.Txt(""))
      && (r == NotANumber ==> field in h && h[field].Txt? && Text.ParseInt(h[field].s).None?)
      && (field in h && h[field].Num? ==> r == Whole(Truncate(h[field].x)))
  {
    var h := GeoStore.HashFields(st, GeoStore.LocationKey(driverId));
    if field !in h then NoReading
    else match h[field]
      case Num(x) => Whole(Truncate(x))
      case Txt(s) =>
        if s == "" then NoReading
        else match Text.ParseInt(s)
          case Some(n) => Whole(n)
          case None => NotANumber
  }

  function Describe(st: GeoStore.Store, h: Hit): NearbyDriver {
    NearbyDriver(h.driverId, h.at.lat, h.at.lng, h.distance, StatusOf(st, h.driverId),
                 ReadingOf(st, h.driverId, "heading"), ReadingOf(st, h.driverId, "speed"),
                 TripIdOf(st, h.driverId))
  }

  /** What a location writer stores reads back in the search: the heading
      and speed it was given, whole part only, and 0 rather than null when
      they were missing, since the writer stores `'0'` for them. */
  lemma WrittenReadingsReadBack(st: GeoStore.Store, driverId: string, loc: GeoStore.Location, updatedAt: int)
    requires GeoStore.GeoSlot(st, GeoStore.DRIVERS_LOCATIONS) && GeoStore.HashSlot(st, GeoStore.LocationKey(driverId))
    ensures var r := GeoStore.ExecAll(st, GeoStore.LocationWrites(driverId, loc, updatedAt));
      && ReadingOf(r, driverId, "heading") == Whole(Truncate(GeoStore.OrZero(loc.heading)))
      && ReadingOf(r, driverId, "speed") == Whole(Truncate(GeoStore.OrZero(loc.speed)))
      && (loc.heading.None? ==> ReadingOf(r, driverId, "heading") == Whole(0))
  {
    GeoStore.LocationWritesEffect(st, driverId, loc, updatedAt);
  }

  /** `drivers.filter(d => d.status === 'online')` over the described hits. */
  function OnlineOnly(st: GeoStore.Store, hits: seq<Hit>): (ds: seq<NearbyDriver>)
    ensures |ds| <= |hits|
    ensures forall i :: 0 <= i < |ds| ==> ds[i].status == "online"
    ensures forall i :: 0 <= i < |ds| ==> GeoStore.GetText(st, GeoStore.StatusKey(ds[i].id)) == Some("online")
    ensures forall d :: d in ds ==> exists i :: 0 <= i < |hits| && d == Describe(st, hits[i])
    decreases |hits|
  {
    if |hits| == 0 then []
    else
      var rest := OnlineOnly(st, hits[1..]);
      assert forall j :: 0 <= j < |hits| - 1 ==> hits[1..][j] == hits[j + 1];
      var d := Describe(st, hits[0]);
      if d.status == "online" then [d] + rest else rest
  }

  /** Every hit whose stored status is "online" is kept. */
  lemma {:induction false} OnlineOnlyKeepsOnline(st: GeoStore.Store, hits: seq<Hit>, i: nat)
    requires i < |hits| && StatusOf(st, hits[i].driverId) == "online"
    ensures Describe(st, hits[i]) in OnlineOnly(st, hits)
    decreases |hits|
  {
    if i > 0 {
      assert hits[1..][i - 1] == hits[i];
      OnlineOnlyKeepsOnline(st, hits[1..], i - 1);
    }
  }

  predicate Ascending(ds: seq<real>) {
    forall i, j :: 0 <= i < j < |ds| ==> ds[i] <= ds[j]
  }

  function HitDistances(hits: seq<Hit>): seq<real> {
    seq(|hits|, i requires 0 <= i < |hits| => hits[i].distance)
  }

  function DriverDistances(ds: seq<NearbyDriver>): seq<real> {
    seq(|ds|, i requires 0 <= i < |ds| => ds[i].distance)
  }

  /** A lower bound on the hits' distances bounds the kept drivers' distances. */
  lemma {:induction false} OnlineOnlyLowerBound(st: GeoStore.Store, hits: seq<Hit>, x: real)
    requires forall i :: 0 <= i < |hits| ==> x <= hits[i].distance
    ensures forall i :: 0 <= i < |OnlineOnly(st, hits)| ==> x <= OnlineOnly(st, hits)[i].distance
    decreases |hits|
  {
    if |hits| > 0 {
      assert forall i :: 0 <= i < |hits[1..]| ==> hits[1..][i] == hits[i + 1];
      OnlineOnlyLowerBound(st, hits[1..], x);
    }
  }

  /** The tail of an ascending run of hits is ascending and bounded below by the head. */
  lemma AscendingTail(hits: seq<Hit>)
    requires |hits| > 0 && Ascending(HitDistances(hits))
    ensures Ascending(HitDistances(hits[1..]))
    ensures forall i :: 0 <= i < |hits[1..]| ==> hits[0].distance <= hits[1..][i].distance
  {
    var tail := hits[1..];
    forall i | 0 <= i < |tail| ensures HitDistances(tail)[i] == HitDistances(hits)[i + 1] {
    }
    forall i | 0 <= i < |tail| ensures hits[0].distance <= tail[i].distance {
      assert HitDistances(hits)[0] <= HitDistances(hits)[i + 1];
    }
  }

  /** A driver no farther than any of an ascending answer extends it in front. */
  lemma AscendingCons(d: NearbyDriver, rest: seq<NearbyDriver>)
    requires Ascending(DriverDistances(rest))
    requires forall i :: 0 <= i < |rest| ==> d.distance <= rest[i].distance
    ensures Ascending(DriverDistances([d] + rest))
  {
    var ds := DriverDistances([d] + rest);
    forall i | 1 <= i < |ds| ensures ds[i] == DriverDistances(rest)[i - 1] {
      assert ([d] + rest)[i] == rest[i - 1];
    }
  }

  /** Filtering keeps the order of the hits, so an ascending answer stays ascending. */
  lemma {:induction false} OnlineOnlyKeepsOrder(st: GeoStore.Store, hits: seq<Hit>)
    requires Ascending(HitDistances(hits))
    ensures Ascending(DriverDistances(OnlineOnly(st, hits)))
    decreases |hits|
  {
    if |hits| > 0 {
      AscendingTail(hits);
      OnlineOnlyKeepsOrder(st, hits[1..]);
      OnlineOnlyLowerBound(st, hits[1..], hits[0].distance);
      var d := Describe(st, hits[0]);
      if d.status == "online" {
        AscendingCons(d, OnlineOnly(st, hits[1..]));
      }
    }
  }

  /** What the search returns, and how many per-driver lookups it queued. */
  datatype Search = Search(drivers: seq<NearbyDriver>, lookups: nat)

  /** `findNearbyDrivers(lat, lng, radiusKm, limit)`. `inRadius` is every
      member within the radius, nearest first, as the store knows them;
      `COUNT limit` keeps the first `limit` of them, and a non-positive count
      is refused by Redis. A failing GEORADIUS (`radiusFails`) or a rejected
      lookup pipeline (`execRejects`) is rethrown. An empty answer returns
      `[]` without lookups; otherwise a status and a metadata lookup per hit
      are queued and only drivers whose status is exactly "online" are kept. */
  function FindNearbyDrivers(st: GeoStore.Store, inRadius: seq<Hit>, limit: Option<int>,
                             radiusFails: bool, execRejects: bool): (r: Outcome<Search>)
    ensures var n := limit.GetOr(DEFAULT_LIMIT);
      && (radiusFails || n <= 0 ==> r == Thrown)
      && (!radiusFails && n > 0 && |inRadius| > 0 && execRejects ==> r == Thrown)
      && (!radiusFails && n > 0 && (|inRadius| == 0 || !execRejects) ==> r.Done?)
    ensures r.Done? ==> forall i :: 0 <= i < |r.value.drivers| ==> r.value.drivers[i].status == "online"
    ensures r.Done? ==> forall i :: 0 <= i < |r.value.drivers| ==>
      GeoStore.GetText(st, GeoStore.StatusKey(r.value.drivers[i].id)) == Some("online")
    ensures r.Done? ==> |r.value.drivers| <= limit.GetOr(DEFAULT_LIMIT)
    ensures r.Done? && |inRadius| == 0 ==> r.value == Search([], 0)
    ensures r.Done? ==> forall d :: d in r.value.drivers ==>
      exists i :: 0 <= i < |inRadius| && i < limit.GetOr(DEFAULT_LIMIT) && d == Describe(st, inRadius[i])
  {
    var n := limit.GetOr(DEFAULT_LIMIT);
    if radiusFails || n <= 0 then Thrown
    else
      var nearby := if |inRadius| <= n then inRadius else inRadius[..n];
      assert forall j :: 0 <= j < |nearby| ==> nearby[j] == inRadius[j];
      if |nearby| == 0 then Done(Search([], 0))
      else if execRejects then Thrown
      else Done(Search(OnlineOnly(st, nearby), 2 * |nearby|))
  }

  /** Every one of the first `limit` hits whose stored status is "online" is
      returned, and the answer keeps the store's ascending distance order. */
  lemma FindNearbyKeepsOnlineHits(st: GeoStore.Store, inRadius: seq<Hit>, n: int, i: nat)
    requires n > 0 && i < |inRadius| && i < n
    requires StatusOf(st, inRadius[i].driverId) == "online"
    ensures Describe(st, inRadius[i]) in FindNearbyDrivers(st, inRadius, Some(n), false, false).value.drivers
  {
    var nearby := if |inRadius| <= n then inRadius else inRadius[..n];
    assert inRadius[i] == nearby[i];
    OnlineOnlyKeepsOnline(st, nearby, i);
  }

  /** The answer keeps the store's ascending distance order. */
  lemma FindNearbyAscending(st: GeoStore.Store, inRadius: seq<Hit>, n: int)
    requires n > 0 && Ascending(HitDistances(inRadius))
    ensures Ascending(DriverDistances(FindNearbyDrivers(st, inRadius, Some(n), false, false).value.drivers))
  {
    var nearby := if |inRadius| <= n then inRadius else inRadius[..n];
    assert forall a :: 0 <= a < |nearby| ==> HitDistances(nearby)[a] == HitDistances(inRadius)[a];
    assert Ascending(HitDistances(nearby));
    OnlineOnlyKeepsOrder(st, nearby);
  }

  // ---------------------------------------------------------------------------
  // removeDriverLocation
  // ---------------------------------------------------------------------------

  function RemoveCommands(driverId: string): seq<GeoStore.Command> {
    [GeoStore.ZRem(GeoStore.DRIVERS_LOCATIONS, driverId),
     GeoStore.Del(GeoStore.LocationKey(driverId)),
     GeoStore.Del(GeoStore.LastPosKey(driverId))]
  }

  function RemoveDriverLocation(st: GeoStore.Store, driverId: string, execRejects: bool): (r: (GeoStore.Store, Outcome<bool>))
    ensures execRejects ==> r == (st, Thrown)
    ensures !execRejects ==> r.1 == Done(true)
  {
    if execRejects then (st, Thrown) else (GeoStore.ExecAll(st, RemoveCommands(driverId)), Done(true))
  }

  /** Removal takes the driver out of the geo set and deletes its metadata
      hash and its snapshot; every other driver keeps its position and every
      other key is as it was. */
  lemma RemoveEffect(st: GeoStore.Store, d: string)
    requires GeoStore.Valid(st)
    ensures var r := RemoveDriverLocation(st, d, false).0;
      && GeoStore.GeoMembers(r, GeoStore.DRIVERS_LOCATIONS) == GeoStore.GeoMembers(st, GeoStore.DRIVERS_LOCATIONS) - {d}
      && GeoStore.At(r, GeoStore.LocationKey(d)) == (None, None)
      && GeoStore.At(r, GeoStore.LastPosKey(d)) == (None, None)
      && (forall k :: k != GeoStore.DRIVERS_LOCATIONS && k != GeoStore.LocationKey(d) && k != GeoStore.LastPosKey(d)
            ==> GeoStore.At(r, k) == GeoStore.At(st, k))
  {
    GeoStore.ExecAllThree(st, RemoveCommands(d));
    RemoveGeoMember(st, d);
    RemoveDeletesKeys(st, d);
    forall k | k != GeoStore.DRIVERS_LOCATIONS && k != GeoStore.LocationKey(d) && k != GeoStore.LastPosKey(d)
      ensures GeoStore.At(RemoveSteps(st, d), k) == GeoStore.At(st, k)
    {
      RemoveFrame(st, d, k);
    }
  }

  /** The three removal commands applied one after another. */
  function RemoveSteps(st: GeoStore.Store, d: string): GeoStore.Store {
    var cs := RemoveCommands(d);
    GeoStore.Exec(GeoStore.Exec(GeoStore.Exec(st, cs[0]), cs[1]), cs[2])
  }

  /** Removal takes the driver out of the geo set. */
  lemma RemoveGeoMember(st: GeoStore.Store, d: string)
    ensures GeoStore.GeoMembers(RemoveSteps(st, d), GeoStore.DRIVERS_LOCATIONS)
      == GeoStore.GeoMembers(st, GeoStore.DRIVERS_LOCATIONS) - {d}
  {
    GeoStore.KeysDistinct(d, d);
    var cs := RemoveCommands(d);
    var s1 := GeoStore.Exec(st, cs[0]);
    var s2 := GeoStore.Exec(s1, cs[1]);
    GeoStore.ZRemEffect(st, GeoStore.DRIVERS_LOCATIONS, d);
    GeoStore.ExecFrame(s1, cs[1], GeoStore.DRIVERS_LOCATIONS);
    GeoStore.ExecFrame(s2, cs[2], GeoStore.DRIVERS_LOCATIONS);
  }

  /** Removal deletes the driver's metadata hash and snapshot keys. */
  lemma RemoveDeletesKeys(st: GeoStore.Store, d: string)
    ensures GeoStore.At(RemoveSteps(st, d), GeoStore.LocationKey(d)) == (None, None)
    ensures GeoStore.At(RemoveSteps(st, d), GeoStore.LastPosKey(d)) == (None, None)
  {
    GeoStore.KeysDistinct(d, d);
    var cs := RemoveCommands(d);
    var s1 := GeoStore.Exec(st, cs[0]);
    var s2 := GeoStore.Exec(s1, cs[1]);
    GeoStore.ExecFrame(s2, cs[2], GeoStore.LocationKey(d));
  }

  /** Removal leaves every other key alone. */
  lemma RemoveFrame(st: GeoStore.Store, d: string, k: string)
    requires k != GeoStore.DRIVERS_LOCATIONS && k != GeoStore.LocationKey(d) && k != GeoStore.LastPosKey(d)
    ensures GeoStore.At(RemoveSteps(st, d), k) == GeoStore.At(st, k)
  {
    var cs := RemoveCommands(d);
    var s1 := GeoStore.Exec(st, cs[0]);
    var s2 := GeoStore.Exec(s1, cs[1]);
    GeoStore.ExecFrame(st, cs[0], k);
    GeoStore.ExecFrame(s1, cs[1], k);
    GeoStore.ExecFrame(s2, cs[2], k);
  }

  // ---------------------------------------------------------------------------
  // shouldProcessUpdate
  // ---------------------------------------------------------------------------

  /** `Math.abs(a - b)`. */
  function Abs(x: real): real {
    if x < 0.0 then -x else x
  }

  /** The heading change between two headings, missing ones read as 0, folded
      onto the shorter way round. */
  function HeadingDelta(newHeading: Option<real>, oldHeading: Option<real>): real {
    var d := Abs(GeoStore.OrZero(newHeading) - GeoStore.OrZero(oldHeading));
    if d > 180.0 then 360.0 - d else d
  }

  /** For headings in [0, 360] the delta is `min(d, 360 - d)` with
      `d = |new - old|`, and it lies in [0, 180]. */
  lemma HeadingDeltaIsShortestArc(a: real, b: real)
    requires 0.0 <= a <= 360.0 && 0.0 <= b <= 360.0
    ensures var d := Abs(a - b);
      && HeadingDelta(Some(a), Some(b)) == (if d <= 360.0 - d then d else 360.0 - d)
      && 0.0 <= HeadingDelta(Some(a), Some(b)) <= 180.0
      && HeadingDelta(Some(a), Some(b)) == HeadingDelta(Some(b), Some(a))
  {
  }

  /** Haversine distance in metres between (lat1, lng1) and (lat2, lng2). */
  type Distance = (real, real, real, real) -> real

  /** `shouldProcessUpdate`: with no stored snapshot the update goes through;
      a failed read, a value that is not a snapshot, or any other error also
      lets it through; otherwise it goes through when the driver moved at
      least 10 m or turned at least 15 degrees. */
  function ShouldProcessUpdate(st: GeoStore.Store, driverId: string, newLat: real, newLng: real,
                               newHeading: Option<real>, readFails: bool, distance: Distance): (ok: bool)
    ensures var k := GeoStore.LastPosKey(driverId);
      readFails || k !in st.data || !st.data[k].Snapshot? ==> ok
    ensures !ok ==>
      var k := GeoStore.LastPosKey(driverId);
      && k in st.data && st.data[k].Snapshot?
      && distance(st.data[k].pos.lat, st.data[k].pos.lng, newLat, newLng) < DELTA_DISTANCE_THRESHOLD
      && HeadingDelta(newHeading, st.data[k].pos.heading) < DELTA_HEADING_THRESHOLD
  {
    var k := GeoStore.LastPosKey(driverId);
    if readFails || k !in st.data || !st.data[k].Snapshot? then true
    else
      var last := st.data[k].pos;
      distance(last.lat, last.lng, newLat, newLng) >= DELTA_DISTANCE_THRESHOLD
      || HeadingDelta(newHeading, last.heading) >= DELTA_HEADING_THRESHOLD
  }

  /** The filter fails open, and otherwise accepts exactly the updates that
      cross one of the two thresholds. */
  lemma ShouldProcessUpdateCases(st: GeoStore.Store, d: string, lat: real, lng: real, h: Option<real>,
                                 readFails: bool, distance: Distance)
    ensures var k := GeoStore.LastPosKey(d);
      && (readFails || k !in st.data ==> ShouldProcessUpdate(st, d, lat, lng, h, readFails, distance))
      && (!readFails && k in st.data && st.data[k].Snapshot? ==>
            var last := st.data[k].pos;
            (ShouldProcessUpdate(st, d, lat, lng, h, readFails, distance) <==>
               distance(last.lat, last.lng, lat, lng) >= 10.0 || HeadingDelta(h, last.heading) >= 15.0))
  {
  }

  /** Repeating the last written update is filtered out when the distance
      from a point to itself is below the threshold. */
  lemma RepeatUpdateFiltered(st: GeoStore.Store, d: string, loc: GeoStore.Location, now: int, distance: Distance)
    requires distance(loc.lat, loc.lng, loc.lat, loc.lng) < DELTA_DISTANCE_THRESHOLD
    ensures var r := UpdateDriverLocation(st, d, loc, now, false).0;
      !ShouldProcessUpdate(r, d, loc.lat, loc.lng, loc.heading, false, distance)
  {
    var g := GeoStore.LocationWrites(d, loc, now);
    var last := [GeoStore.Set(GeoStore.LastPosKey(d), SnapshotOf(loc))];
    assert UpdateCommands(d, loc, now) == g + last;
    GeoStore.ExecAllAppend(st, g, last);
    var s1 := GeoStore.ExecAll(st, g);
    assert GeoStore.ExecAll(s1, last) == GeoStore.Exec(s1, last[0]);
  }

  /** After the driver's location is removed, its next update always goes through. */
  lemma UpdateAcceptedAfterRemoval(st: GeoStore.Store, d: string, lat: real, lng: real, h: Option<real>, distance: Distance)
    requires GeoStore.Valid(st)
    ensures ShouldProcessUpdate(RemoveDriverLocation(st, d, false).0, d, lat, lng, h, false, distance)
  {
    RemoveEffect(st, d);
  }
}

=== FILE: modules_driver_consumer.dfy ===
/** The trip-offer consumer of the modules driver service: it has no expiry.
    Each parsed message with both pickup coordinates is searched within 5 km
    and offered to every driver found; a message without them is skipped but
    still deleted. A message whose processing throws stays in the queue. */
module ModulesDriverConsumer {
  import opened Wrappers
  import opened JsValues
  import opened TripOffer
  import Services = ServicesDriverConsumer

  /** `{ ...body.data, msg }`. */
  datatype Offer = Offer(trip: TripPayload, msg: string)

  /** An emit to one driver's room; this copy never broadcasts. */
  datatype Emit = ToDriver(room: string, offer: Offer)

  datatype Decision = Decision(query: Option<GeoQuery>, emits: seq<Emit>, deleted: bool)

  function Offers(ids: seq<string>, trip: TripPayload): (es: seq<Emit>)
    ensures |es| == |ids|
    ensures forall i :: 0 <= i < |ids| ==> es[i] == ToDriver(DriverRoom(ids[i]), Offer(trip, "New trip nearby!"))
  {
    seq(|ids|, i requires 0 <= i < |ids| => ToDriver(DriverRoom(ids[i]), Offer(trip, "New trip nearby!")))
  }

  /** Processing one message: a parse failure, a missing `data` or a failing
      search throw, and the message stays. Otherwise the message is searched
      and offered when both coordinates are truthy, and then deleted. */
  function Process(m: Delivery): (d: Decision)
    ensures d.deleted ==> m.deleteSucceeds && m.body.Parsed? && m.body.data.Some?
    ensures d.query.Some? <==> m.body.Parsed? && m.body.data.Some? && HasPickup(m.body.data.value)
    ensures d.query.Some? ==> d.query.value.radiusKm == SEARCH_RADIUS_KM
    ensures |d.emits| > 0 ==> d.query.Some? && m.nearby.Some? && |d.emits| == |m.nearby.value|
  {
    match m.body
    case Unparsable => Decision(None, [], false)
    case Parsed(data, _) =>
      if data.None? then Decision(None, [], false)
      else
        var trip := data.value;
        if !HasPickup(trip) then Decision(None, [], m.deleteSucceeds)
        else
          var q := Some(GeoQuery(trip.pickupLat, trip.pickupLng, SEARCH_RADIUS_KM));
          match m.nearby
          case None => Decision(q, [], false)
          case Some(ids) => Decision(q, Offers(ids, trip), m.deleteSucceeds)
  }

  /** The age of the message plays no part: the decision is the same at any
      time and for any envelope time. */
  lemma NoExpiry(m: Delivery, now: int, timestamp: Option<int>)
    requires m.body.Parsed?
    ensures Process(m) == Process(m.(now := now, body := m.body.(timestamp := timestamp)))
  {
  }

  /** Without both pickup coordinates nothing is searched or emitted, yet the
      message is deleted when the delete call succeeds. */
  lemma MissingPickupStillDeleted(m: Delivery)
    requires m.body.Parsed? && m.body.data.Some? && !HasPickup(m.body.data.value)
    ensures Process(m) == Decision(None, [], m.deleteSucceeds)
  {
  }

  /** With a pickup and a search answer `ids`: one offer of the trip data to
      each returned driver's room, in order, and then the delete. */
  lemma FanOut(m: Delivery, ids: seq<string>)
    requires m.body.Parsed? && m.body.data.Some? && HasPickup(m.body.data.value) && m.nearby == Some(ids)
    ensures var d := Process(m);
      && |d.emits| == |ids|
      && (forall i :: 0 <= i < |ids| ==> d.emits[i] == ToDriver(DriverRoom(ids[i]), Offer(m.body.data.value, "New trip nearby!")))
      && d.deleted == m.deleteSucceeds
  {
  }

  /** For an offer the services copy still considers live, the two copies
      issue the same search, reach the same driver rooms with the same trip,
      and delete alike; the services copy adds one broadcast. */
  lemma AgreesWithServicesOnLiveOffers(m: Delivery)
    requires m.body.Parsed? && m.body.data.Some?
    requires !Services.Expired(Services.Elapsed(m.body.timestamp, m.now))
    ensures var d := Process(m);
      var s := Services.Process(m);
      && d.query == s.query && d.deleted == s.deleted
      && (|s.emits| > 0 ==> |s.emits| == |d.emits| + 1 && s.emits[|d.emits|].Broadcast?)
      && (forall i :: 0 <= i < |d.emits| ==>
            s.emits[i].ToDriver? && s.emits[i].room == d.emits[i].room && s.emits[i].offer.trip == d.emits[i].offer.trip)
  {
  }

  /** One poll: a failing receive backs off 5 s; otherwise each message is
      processed on its own. */
  datatype Cycle = Cycle(decisions: seq<Decision>, sleepMs: nat)

  function Poll(r: Receive): (c: Cycle)
    ensures r.ReceiveFailed? ==> c == Cycle([], POLL_ERROR_BACKOFF_MS)
    ensures r.Received? ==> c.sleepMs == 0 && |c.decisions| == |r.messages|
    ensures r.Received? ==> forall i :: 0 <= i < |r.messages| ==> c.decisions[i] == Process(r.messages[i])
  {
    match r
    case ReceiveFailed => Cycle([], POLL_ERROR_BACKOFF_MS)
    case Received(ms) => Cycle(seq(|ms|, i requires 0 <= i < |ms| => Process(ms[i])), 0)
  }
}

=== FILE: modules_location_buffer.dfy ===
/** The location write-coalescing buffer of the modules driver service: each
    driver's newest update waits in a map until a flush drains the map into
    one Redis pipeline. Timers and the awaited pipeline are split into steps:
    `BeginFlush` is the synchronous part of `flush()` (drain, clear, queue the
    commands), `FinishFlush` is what happens once `exec()` settles. */
module ModulesLocationBuffer {
  import opened Wrappers
  import OM = OrderedMap
  import GeoStore
  import opened BufferState

  /** The value `add` returns. */
  datatype AddReply = AddReply(buffered: bool, coalesced: bool, bufferSize: nat)

  /** The buffer after `add`, its reply, and the flush it started, if any. */
  datatype AddStep = AddStep(buffer: Buffer, reply: AddReply, flush: Option<InFlight>)

  /** The buffer after the synchronous part of `flush()`, and the flush sent,
      or `None` for the `{ flushed: 0 }` return on an empty buffer. */
  datatype BeginStep = BeginStep(buffer: Buffer, flight: Option<InFlight>)

  datatype FinishStep = FinishStep(buffer: Buffer, reply: FlushReply)

  /** `flush()` up to its `await`: an empty buffer returns at once; otherwise
      the values are drained in insertion order, the map is cleared, and one
      location write group per drained entry is queued. */
  function BeginFlush(b: Buffer, now: int): (r: BeginStep)
    ensures r.buffer.stats == b.stats && r.buffer.config == b.config
    ensures |b.entries| == 0 <==> r.flight.None?
    ensures r.flight.None? ==> r.buffer == b
    ensures r.flight.Some? ==> |r.buffer.entries| == 0
    ensures r.flight.Some? ==>
      && |r.flight.value.drained| == |b.entries|
      && (forall i :: 0 <= i < |b.entries| ==> r.flight.value.drained[i] == b.entries[i].1)
    ensures r.flight.Some? ==> r.flight.value.commands == GeoStore.WritesOf(WritesFor(r.flight.value.drained))
    ensures r.flight.Some? ==> |r.flight.value.commands| == 3 * |b.entries|
  {
    if |b.entries| == 0 then BeginStep(b, None)
    else
      var drained := OM.Values(b.entries);
      BeginStep(b.(entries := []), Some(InFlight(drained, GeoStore.WritesOf(WritesFor(drained)), now)))
  }

  /** `add(driverId, location)`: count it, store `{...location, driverId,
      timestamp: now}` as the driver's only entry, count a coalescing when an
      entry was already pending, and start a flush once the map holds
      `flushThreshold` drivers. `maxBufferSize` plays no part. */
  function Add(b: Buffer, driverId: string, location: GeoStore.Location, now: int): (r: AddStep)
    ensures r.reply.buffered
    ensures r.reply.coalesced <==> OM.Has(b.entries, driverId)
    ensures r.buffer.stats.totalReceived == b.stats.totalReceived + 1
    ensures r.buffer.stats.totalCoalesced == b.stats.totalCoalesced + (if r.reply.coalesced then 1 else 0)
    ensures r.buffer.stats.totalFlushed == b.stats.totalFlushed && r.buffer.stats.flushCount == b.stats.flushCount
    ensures r.reply.bufferSize == |r.buffer.entries|
    ensures r.buffer.config == b.config && r.buffer.timerActive == b.timerActive
  {
    var existing := OM.Get(b.entries, driverId);
    var entries := OM.Set(b.entries, driverId, Entry(driverId, location, now));
    var stats := b.stats.(totalReceived := b.stats.totalReceived + 1,
                          totalCoalesced := b.stats.totalCoalesced + (if existing.Some? then 1 else 0));
    var b1 := b.(entries := entries, stats := stats);
    if |entries| >= b.config.flushThreshold then
      var f := BeginFlush(b1, now);
      AddStep(f.buffer, AddReply(true, existing.Some?, |f.buffer.entries|), f.flight)
    else
      AddStep(b1, AddReply(true, existing.Some?, |entries|), None)
  }

  /** The entries still waiting to be written after an `add`: the map, or
      what the flush it started drained. */
  function Pending(r: AddStep): OM.Pairs<Entry> {
    if r.flush.Some? then PairsOf(r.flush.value.drained) else r.buffer.entries
  }

  /** After `add(d, loc)` exactly one pending entry belongs to `d`: `loc` with
      `driverId = d` and the current time; every other driver's pending entry
      is as it was. A flush starts exactly when the map reached the threshold,
      and then the map is left empty. */
  lemma AddEffect(b: Buffer, d: string, loc: GeoStore.Location, now: int)
    requires Inv(b)
    ensures var r := Add(b, d, loc, now);
      && Inv(r.buffer)
      && OM.Valid(Pending(r))
      && OM.Get(Pending(r), d) == Some(Entry(d, loc, now))
      && (forall k :: k != d ==> OM.Get(Pending(r), k) == OM.Get(b.entries, k))
      && (r.flush.Some? <==> |Pending(r)| >= b.config.flushThreshold)
      && (r.flush.Some? ==> |r.buffer.entries| == 0 && r.reply.bufferSize == 0)
  {
    var entries := OM.Set(b.entries, d, Entry(d, loc, now));
    OM.SetEffect(b.entries, d, Entry(d, loc, now));
    var r := Add(b, d, loc, now);
    assert forall i :: 0 <= i < |entries| ==> entries[i].1.driverId == entries[i].0;
    if r.flush.Some? {
      assert |entries| > 0;
      assert PairsOf(r.flush.value.drained) == entries;
    }
  }

  /** `maxBufferSize` is stored but never consulted: `add` behaves the same
      whatever it is. */
  lemma AddIgnoresMaxBufferSize(b: Buffer, m: int, d: string, loc: GeoStore.Location, now: int)
    ensures var r1 := Add(b, d, loc, now);
      var r2 := Add(b.(config := b.config.(maxBufferSize := m)), d, loc, now);
      && r1.reply == r2.reply && r1.flush == r2.flush
      && r1.buffer.entries == r2.buffer.entries && r1.buffer.stats == r2.buffer.stats
  {
  }

  /** So the map can hold more drivers than `maxBufferSize`. */
  lemma BufferNotCapped()
    ensures var loc := GeoStore.Location(10.0, 106.0, None, None, None, None);
      var b := Buffer(Config(100, 1, 500), [("a", Entry("a", loc, 0))], Stats(1, 0, 0, 0, 0, None), true);
      var r := Add(b, "b", loc, 1);
      |r.buffer.entries| == 2 > b.config.maxBufferSize
  {
    var loc := GeoStore.Location(10.0, 106.0, None, None, None, None);
    assert OM.IndexOf([("a", Entry("a", loc, 0))], "b") == None;
  }

  /** When `exec()` settles. On success the counters take the drained count
      and the time; on failure every drained entry is set back under its
      driver id and the error is rethrown. */
  function FinishFlush(b: Buffer, f: InFlight, execSucceeded: bool, now: int): (r: FinishStep)
    ensures execSucceeded ==> r.reply == Flushed(|f.drained|, now - f.startTime)
    ensures execSucceeded ==> r.buffer.entries == b.entries
    ensures execSucceeded ==>
      && r.buffer.stats.totalFlushed == b.stats.totalFlushed + |f.drained|
      && r.buffer.stats.flushCount == b.stats.flushCount + 1
      && r.buffer.stats.totalReceived == b.stats.totalReceived
      && r.buffer.stats.totalCoalesced == b.stats.totalCoalesced
      && r.buffer.stats.lastFlushTime == now
    ensures !execSucceeded ==> r.reply == Rethrown && r.buffer.stats == b.stats
    ensures r.buffer.config == b.config && r.buffer.timerActive == b.timerActive
  {
    if execSucceeded then
      var stats := b.stats.(totalFlushed := b.stats.totalFlushed + |f.drained|,
                            flushCount := b.stats.flushCount + 1,
                            lastFlushTime := now,
                            lastFlushDuration := Some(now - f.startTime));
      FinishStep(b.(stats := stats), Flushed(|f.drained|, now - f.startTime))
    else
      FinishStep(b.(entries := OM.SetAll(b.entries, PairsOf(f.drained))), Rethrown)
  }

  /** A failed write puts every drained entry back under its driver, over any
      newer entry added while the pipeline was in flight; drivers not in the
      failed flush keep their pending entry. */
  lemma FailedFlushRestores(b: Buffer, f: InFlight, now: int, k: string)
    requires Inv(b) && OM.Valid(PairsOf(f.drained))
    ensures var r := FinishFlush(b, f, false, now);
      && Inv(r.buffer)
      && (OM.Has(PairsOf(f.drained), k) ==> OM.Get(r.buffer.entries, k) == OM.Get(PairsOf(f.drained), k))
      && (!OM.Has(PairsOf(f.drained), k) ==> OM.Get(r.buffer.entries, k) == OM.Get(b.entries, k))
  {
    var ps := PairsOf(f.drained);
    OM.SetAllEffect(b.entries, ps, k);
    SetAllKeepsKeyed(b.entries, ps);
  }

  /** A flush of a well-formed buffer whose pipeline succeeds leaves, for every
      drained driver, its position in the geo set, its metadata hash with the
      entry's timestamp, and a 3600 s time-to-live. */
  lemma FlushWritesEveryEntry(b: Buffer, now: int, st: GeoStore.Store, i: nat)
    requires Inv(b) && i < |b.entries|
    requires GeoStore.GeoSlot(st, GeoStore.DRIVERS_LOCATIONS)
    requires forall j :: 0 <= j < |b.entries| ==> GeoStore.HashSlot(st, GeoStore.LocationKey(b.entries[j].0))
    ensures var f := BeginFlush(b, now).flight.value;
      var e := b.entries[i].1;
      var r := GeoStore.ExecAll(st, f.commands);
      && e.driverId in GeoStore.GeoMembers(r, GeoStore.DRIVERS_LOCATIONS)
      && GeoStore.GeoMembers(r, GeoStore.DRIVERS_LOCATIONS)[e.driverId] == GeoStore.Point(e.location.lng, e.location.lat)
      && GeoStore.HashFields(r, GeoStore.LocationKey(e.driverId))
         == GeoStore.HashFields(st, GeoStore.LocationKey(e.driverId)) + GeoStore.MetaHash(e.location, e.timestamp)
      && GeoStore.LocationKey(e.driverId) in r.ttl
      && r.ttl[GeoStore.LocationKey(e.driverId)] == GeoStore.LOCATION_TTL
  {
    var f := BeginFlush(b, now).flight.value;
    PairsOfValues(b);
    GeoStore.WritesOfEffect(st, WritesFor(f.drained), i);
  }

  /** `shutdown()`: the timer is cleared, and a flush is started exactly when
      entries are pending. */
  function Shutdown(b: Buffer, now: int): (r: BeginStep)
    ensures !r.buffer.timerActive
    ensures r.flight.Some? <==> |b.entries| > 0
    ensures r.flight.Some? ==> |r.flight.value.drained| == |b.entries| && |r.buffer.entries| == 0
    ensures r.buffer.stats == b.stats
  {
    var b1 := b.(timerActive := false);
    if |b1.entries| > 0 then BeginFlush(b1, now) else BeginStep(b1, None)
  }

  /** What `getStats()` reports besides the percentage string. */
  datatype StatsReport = StatsReport(stats: Stats, currentBufferSize: nat, avgFlushSize: nat)

  function GetStats(b: Buffer): (r: StatsReport)
    ensures r.stats == b.stats && r.currentBufferSize == |b.entries|
    ensures b.stats.flushCount == 0 ==> r.avgFlushSize == 0
    ensures b.stats.flushCount > 0 ==>
      2 * b.stats.flushCount * r.avgFlushSize <= 2 * b.stats.totalFlushed + b.stats.flushCount
      < 2 * b.stats.flushCount * (r.avgFlushSize + 1)
  {
    StatsReport(b.stats, |b.entries|, AvgFlushSize(b.stats))
  }
}

=== FILE: modules_trip_controller.dfy ===
/** The modules trip controller, the older copy: creation goes through the
    outbox transaction only, cancel and complete check no identity, and the
    review compares the passenger id strictly. */
module ModulesTripController {
  import opened Wrappers
  import opened JsValues
  import opened TripModel
  import opened TripRequests
  import Services = ServicesTripController

  /** `req.body` of a creation; the passenger id may come from the body. */
  datatype CreateRequest = CreateRequest(pickup: JsVal, destination: JsVal, pickupLat: JsVal, pickupLng: JsVal, passengerId: JsVal)

  datatype CreateStep = CreateStep(db: Db, code: int, trip: Option<Trip>)

  /** `createTripHandler`: 400 without pickup or destination, or when neither
      the `x-user-id` header nor the body gives a passenger id; otherwise the
      outbox transaction, a 500 on failure. Nothing is pushed directly. */
  function CreateTrip(db: Db, req: CreateRequest, header: JsVal, failAt: Option<TxStep>): (r: CreateStep)
    ensures !Truthy(req.pickup) || !Truthy(req.destination) || !Truthy(Or(header, req.passengerId)) ==>
      r == CreateStep(db, 400, None)
    ensures r.code == 201 <==>
      Truthy(req.pickup) && Truthy(req.destination) && Truthy(Or(header, req.passengerId))
      && CreateTripWithOutbox(db, TripData(Or(header, req.passengerId), req.pickup, req.destination, FARE, SEARCHING,
                                           req.pickupLat, req.pickupLng), failAt).outcome.Done?
    ensures r.code == 201 ==> r.trip.Some? && r.trip.value.status == SEARCHING && r.trip.value.fare == FARE
  {
    if !Truthy(req.pickup) || !Truthy(req.destination) then CreateStep(db, 400, None)
    else
      var passengerId := Or(header, req.passengerId);
      if !Truthy(passengerId) then CreateStep(db, 400, None)
      else
        var tx := CreateTripWithOutbox(db, TripData(passengerId, req.pickup, req.destination, FARE, SEARCHING,
                                                    req.pickupLat, req.pickupLng), failAt);
        if tx.outcome.Thrown? then CreateStep(tx.db, 500, None)
        else CreateStep(tx.db, 201, Some(tx.outcome.value))
  }

  /** A successful creation publishes the offer once, through the outbox row
      it commits. */
  lemma CreateUsesOutboxOnly(db: Db, req: CreateRequest, header: JsVal)
    requires Inv(db)
    requires CreateTrip(db, req, header, None).code == 201
    ensures var r := CreateTrip(db, req, header, None);
      && |r.db.outbox| == |db.outbox| + 1
      && r.db.outbox[|db.outbox|].eventType == TripOffer.TRIP_OFFER
      && r.db.outbox[|db.outbox|].payload.tripId == r.trip.value.id
  {
    var data := TripData(Or(header, req.passengerId), req.pickup, req.destination, FARE, SEARCHING, req.pickupLat, req.pickupLng);
    CreateCommitsBoth(db, data);
  }

  datatype Op =
    | Cancel(id: nat)
    | Complete(id: nat)
    | Review(id: nat, user: JsVal, rating: JsVal, comment: JsVal)
    | Accept(id: nat, driverId: JsVal)
    | Reject(id: nat, driverId: JsVal)

  /** `cancelTripHandler`: 404 for a missing trip, 400 for a completed one,
      and anyone may cancel any other trip. */
  function CancelTrip(db: Db, id: nat): (r: Step)
    ensures id !in db.trips ==> r == Step(db, Reply(404, None))
    ensures r.reply.code == 200 <==> id in db.trips && db.trips[id].status != COMPLETED
    ensures r.reply.code == 200 ==> r.db == UpdateTripStatus(db, id, CANCELED).0
    ensures r.reply.code != 200 ==> r.db == db
  {
    match GetTripById(db, id)
    case None => Step(db, Reply(404, None))
    case Some(trip) =>
      if trip.status == COMPLETED then Step(db, Reply(400, None))
      else
        var u := UpdateTripStatus(db, id, CANCELED);
        Step(u.0, Reply(200, u.1))
  }

  /** `completeTripHandler`: 404, then only an accepted or in-progress trip
      becomes completed; there is no requester check. */
  function CompleteTrip(db: Db, id: nat): (r: Step)
    ensures id !in db.trips ==> r == Step(db, Reply(404, None))
    ensures r.reply.code == 200 <==> id in db.trips && (db.trips[id].status == ACCEPTED || db.trips[id].status == IN_PROGRESS)
    ensures r.reply.code == 200 ==> r.db == UpdateTripStatus(db, id, COMPLETED).0
    ensures r.reply.code != 200 ==> r.db == db
  {
    match GetTripById(db, id)
    case None => Step(db, Reply(404, None))
    case Some(trip) =>
      if trip.status != ACCEPTED && trip.status != IN_PROGRESS then Step(db, Reply(400, None))
      else
        var u := UpdateTripStatus(db, id, COMPLETED);
        Step(u.0, Reply(200, u.1))
  }

  /** `reviewTripHandler`: the rating guard, the lookup, status exactly
      `'completed'`, and `trip.passenger_id !== req.user?.id`, a strict
      comparison against the stored number. */
  function ReviewTrip(db: Db, id: nat, user: JsVal, rating: JsVal, comment: JsVal): (r: Step)
    ensures RatingRefused(rating) ==> r == Step(db, Reply(400, None))
    ensures !RatingRefused(rating) && id !in db.trips ==> r == Step(db, Reply(404, None))
    ensures r.reply.code == 201 ==>
      id in db.trips && db.trips[id].status == "completed" && user == Num(db.trips[id].passengerId)
    ensures r.reply.code != 201 ==> r.db == db
    ensures r.db.outbox == db.outbox
  {
    if RatingRefused(rating) then Step(db, Reply(400, None))
    else
      match GetTripById(db, id)
      case None => Step(db, Reply(404, None))
      case Some(trip) =>
        if trip.status != "completed" then Step(db, Reply(400, None))
        else if !StrictEq(Num(trip.passengerId), user) then Step(db, Reply(403, None))
        else
          var u := UpdateTripReview(db, trip.id, rating, ToStr(Or(comment, Str(""))));
          if u.1.Thrown? then Step(db, Reply(500, None)) else Step(u.0, Reply(201, u.1.value))
  }

  /** `acceptTripHandler`, as in the services copy. */
  function AcceptTrip(db: Db, id: nat, driverId: JsVal): (r: Step)
    ensures id !in db.trips ==> r == Step(db, Reply(404, None))
    ensures id in db.trips && db.trips[id].status != SEARCHING ==> r == Step(db, Reply(400, None))
    ensures r.reply.code == 200 ==>
      && id in db.trips && db.trips[id].status == SEARCHING
      && r.db == AssignDriver(db, id, driverId).0
      && id in r.db.trips && r.db.trips[id].status == ACCEPTED
    ensures r.reply.code != 200 ==> r.db == db
  {
    match GetTripById(db, id)
    case None => Step(db, Reply(404, None))
    case Some(trip) =>
      if trip.status != SEARCHING then Step(db, Reply(400, None))
      else
        var a := AssignDriver(db, id, driverId);
        if a.1.Thrown? then Step(db, Reply(500, None))
        else
          AssignThenAcceptIsAssign(db, id, driverId);
          var u := UpdateTripStatus(a.0, id, ACCEPTED);
          Step(u.0, Reply(200, a.1.value))
  }

  /** `rejectTripHandler`, as in the services copy. */
  function RejectTrip(db: Db, id: nat): (r: Step)
    ensures r.db == db
    ensures r.reply.code == 200 <==> id in db.trips && db.trips[id].status == SEARCHING
  {
    match GetTripById(db, id)
    case None => Step(db, Reply(404, None))
    case Some(trip) =>
      if trip.status != SEARCHING then Step(db, Reply(400, None)) else Step(db, Reply(200, None))
  }

  function Handle(db: Db, op: Op): Step {
    match op
    case Cancel(id) => CancelTrip(db, id)
    case Complete(id) => CompleteTrip(db, id)
    case Review(id, user, rating, comment) => ReviewTrip(db, id, user, rating, comment)
    case Accept(id, driverId) => AcceptTrip(db, id, driverId)
    case Reject(id, _) => RejectTrip(db, id)
  }

  /** The same status machine as the services copy: no trip is removed and
      every status change is an allowed move. */
  lemma HandlersMoveLegally(db: Db, op: Op)
    ensures StatusesMoveLegally(db, Handle(db, op).db)
  {
    match op
    case Review(id, user, rating, comment) =>
      var r := Handle(db, op);
      if r.reply.code == 201 {
        var trip := db.trips[id];
        var u := UpdateTripReview(db, trip.id, rating, ToStr(Or(comment, Str(""))));
        assert r.db == u.0;
      }
    case _ =>
  }

  /** The weaker checks: anyone may cancel a trip the services copy would
      refuse to a different caller, and anyone may complete a trip assigned
      to another driver. */
  lemma WeakerThanServices(db: Db, id: nat, caller: Services.Caller)
    ensures Services.CancelTrip(db, id, caller).reply.code == 200 ==> CancelTrip(db, id).reply.code == 200
    ensures Services.CompleteTrip(db, id, caller).reply.code == 200 ==> CompleteTrip(db, id).reply.code == 200
    ensures CancelTrip(db, id).reply.code != 403 && CompleteTrip(db, id).reply.code != 403
  {
  }

  /** The strict comparison refuses a passenger id given as text, which the
      services copy accepts. */
  lemma ReviewRefusesTextualId(db: Db, id: nat, rating: int, s: string)
    requires id in db.trips && db.trips[id].status == COMPLETED
    requires 1 <= rating <= 5
    ensures ReviewTrip(db, id, Str(s), Num(rating), Undefined).reply.code == 403
  {
  }
}

=== FILE: modules_trip_sqs.dfy ===
/** The modules trip service's queue helper: it builds the queue URL from
    the endpoint without a network call, wraps a trip in the offer envelope,
    and swallows every send failure, returning `null` instead. */
module ModulesTripSqs {
  import opened Wrappers
  import opened Text
  import opened JsValues
  import opened TripOffer

  const DEFAULT_ENDPOINT: string := "http://localstack:4566"
  const DEFAULT_QUEUE_NAME: string := "trip-events"
  const ACCOUNT_PATH: string := "/000000000000/"

  /** `SQS_ENDPOINT` and `SQS_TRIP_QUEUE_NAME`, unset as `None`. */
  datatype Env = Env(sqsEndpoint: Option<string>, queueName: Option<string>)

  function Endpoint(env: Env): string {
    EnvOr(env.sqsEndpoint, DEFAULT_ENDPOINT)
  }

  function QueueName(env: Env): string {
    EnvOr(env.queueName, DEFAULT_QUEUE_NAME)
  }

  /** The base URL: the first `localstack` becomes `localhost`, but only in
      an endpoint that already mentions `localhost`. */
  function BaseUrl(endpoint: string): (b: string)
    ensures !Contains(endpoint, "localhost") ==> b == endpoint
    ensures Contains(endpoint, "localhost") ==> b == ReplaceFirst(endpoint, "localstack", "localhost")
  {
    if Contains(endpoint, "localhost") then ReplaceFirst(endpoint, "localstack", "localhost") else endpoint
  }

  /** `getQueueUrl()`: the base URL with one trailing slash removed, then the
      fixed account path and the queue name. */
  function QueueUrl(env: Env): (url: string)
    ensures exists base :: url == base + ACCOUNT_PATH + QueueName(env)
                          && (base == BaseUrl(Endpoint(env)) || base + "/" == BaseUrl(Endpoint(env)))
  {
    var base := BaseUrl(Endpoint(env));
    var stripped := StripTrailingSlash(base);
    assert stripped == base || stripped + "/" == base;
    stripped + ACCOUNT_PATH + QueueName(env)
  }

  /** The default endpoint names `localstack` only, so the replacement never
      applies to it. */
  lemma DefaultEndpointHasNoLocalhost()
    ensures !Contains(DEFAULT_ENDPOINT, "localhost")
  {
    var s := DEFAULT_ENDPOINT;
    var pat := "localhost";
    forall i | 0 <= i <= |s| - |pat| ensures s[i] != pat[0] || s[i + 5] != pat[5] {
    }
    forall i | 0 <= i <= |s| ensures !MatchAt(s, pat, i) {
      if i <= |s| - |pat| {
        assert s[i..i + |pat|][0] == s[i] && s[i..i + |pat|][5] == s[i + 5];
      }
    }
  }

  /** With nothing configured the queue is `trip-events` on LocalStack's
      default account. */
  lemma DefaultQueueUrl()
    ensures QueueUrl(Env(None, None)) == "http://localstack:4566/000000000000/trip-events"
  {
    DefaultEndpointHasNoLocalhost();
  }

  /** The replacement is a no-op unless the endpoint holds both `localhost`
      and `localstack`: for any endpoint lacking `localstack` the URL is the
      endpoint itself, less a trailing slash. */
  lemma ReplacementNeedsBothHosts(env: Env)
    requires !Contains(Endpoint(env), "localstack")
    ensures QueueUrl(env) == StripTrailingSlash(Endpoint(env)) + ACCOUNT_PATH + QueueName(env)
  {
  }

  /** A send attempt: the URL and the message body. */
  datatype Attempt = Attempt(queueUrl: string, body: Envelope)

  /** What `pushTripOfferJob` does with a send whose answer is `sent`
      (`None` when it throws). */
  datatype Push = Push(attempt: Attempt, reply: PushReply)

  /** `pushTripOfferJob(tripData)`: the envelope `{ type: "TRIP_OFFER", data,
      timestamp: now }` goes to the queue URL; the send result is returned,
      and a failed send returns `null` rather than throwing. */
  function PushTripOfferJob(env: Env, data: TripPayload, now: int, sent: Option<SendResult>): (p: Push)
    ensures p.reply.Returned?
    ensures p.reply.result == sent
    ensures p.attempt.body.msgType == TRIP_OFFER && p.attempt.body.data == data && p.attempt.body.timestamp == now
    ensures p.attempt.queueUrl == QueueUrl(env)
  {
    Push(Attempt(QueueUrl(env), OfferEnvelope(data, now)), Returned(sent))
  }
}

=== FILE: ordered_map.dfy ===
/** JavaScript's `Map` keyed by driver id as the location buffers use it: keys
    in insertion order, `set` on a present key replacing the value in place,
    `set` on a new key appending, and `Array.from(map.values())` listing the
    values in that order. */
module OrderedMap {
  import opened Wrappers

  /** The entries of a map in insertion order. */
  type Pairs<V> = seq<(string, V)>

  /** No key appears twice. */
  predicate Valid<V>(m: Pairs<V>) {
    forall i, j :: 0 <= i < j < |m| ==> m[i].0 != m[j].0
  }

  /** The position of key `k`, if it is present. */
  function IndexOf<V>(m: Pairs<V>, k: string): (r: Option<nat>)
    ensures r.Some? ==> r.value < |m| && m[r.value].0 == k
    ensures r.None? ==> forall i :: 0 <= i < |m| ==> m[i].0 != k
    ensures Valid(m) && r.Some? ==> forall i :: 0 <= i < |m| && i != r.value ==> m[i].0 != k
    decreases |m|
  {
    if |m| == 0 then None
    else if m[|m| - 1].0 == k then Some(|m| - 1)
    else IndexOf(m[..|m| - 1], k)
  }

  predicate Has<V>(m: Pairs<V>, k: string) {
    IndexOf(m, k).Some?
  }

  /** `map.get(k)`. */
  function Get<V>(m: Pairs<V>, k: string): Option<V> {
    match IndexOf(m, k)
    case Some(i) => Some(m[i].1)
    case None => None
  }

  /** `map.set(k, v)`: a present key keeps its place and takes the new value;
      a new key goes last. */
  function Set<V>(m: Pairs<V>, k: string, v: V): (r: Pairs<V>)
    ensures Has(m, k) ==> r == m[IndexOf(m, k).value := (k, v)]
    ensures !Has(m, k) ==> r == m + [(k, v)]
  {
    match IndexOf(m, k)
    case Some(i) => m[i := (k, v)]
    case None => m + [(k, v)]
  }

  /** `set` keeps keys distinct, gives `k` the value `v`, leaves every other key
      as it was, and grows the map exactly when `k` was new. */
  lemma SetEffect<V>(m: Pairs<V>, k: string, v: V)
    requires Valid(m)
    ensures Valid(Set(m, k, v))
    ensures Get(Set(m, k, v), k) == Some(v)
    ensures forall k' :: k' != k ==> Get(Set(m, k, v), k') == Get(m, k')
    ensures |Set(m, k, v)| == if Has(m, k) then |m| else |m| + 1
  {
    var r := Set(m, k, v);
    assert Valid(r);
    var j := if Has(m, k) then IndexOf(m, k).value else |m|;
    assert r[j] == (k, v);
    forall k' | k' != k ensures Get(r, k') == Get(m, k') {
      match IndexOf(m, k')
      case Some(i) =>
        assert r[i] == m[i];
      case None =>
        assert forall i :: 0 <= i < |r| ==> r[i].0 != k';
    }
  }

  /** `for (const [k, v] of pairs) map.set(k, v)`. */
  function SetAll<V>(m: Pairs<V>, pairs: Pairs<V>): Pairs<V>
    decreases |pairs|
  {
    if |pairs| == 0 then m else SetAll(Set(m, pairs[0].0, pairs[0].1), pairs[1..])
  }

  /** In a map with distinct keys, the first key reads its own value and is
      absent from the rest. */
  lemma HeadLookup<V>(pairs: Pairs<V>)
    requires Valid(pairs) && |pairs| > 0
    ensures Get(pairs, pairs[0].0) == Some(pairs[0].1)
    ensures !Has(pairs[1..], pairs[0].0)
  {
  }

  /** In a map with distinct keys, any other key reads the same with the
      first entry dropped. */
  lemma TailLookup<V>(pairs: Pairs<V>, k: string)
    requires Valid(pairs) && |pairs| > 0 && k != pairs[0].0
    ensures Has(pairs, k) == Has(pairs[1..], k)
    ensures Get(pairs, k) == Get(pairs[1..], k)
  {
    var rest := pairs[1..];
    assert Valid(rest);
    match IndexOf(rest, k)
    case Some(i) =>
      assert rest[i] == pairs[i + 1];
    case None =>
      assert forall i :: 0 < i < |pairs| ==> pairs[i] == rest[i - 1];
  }

  /** Setting back a list of pairs with distinct keys: the map stays valid, each
      of their keys ends up with the listed value whatever it held before, and
      every other key is as it was. */
  lemma {:induction false} SetAllEffect<V>(m: Pairs<V>, pairs: Pairs<V>, k: string)
    requires Valid(m) && Valid(pairs)
    ensures Valid(SetAll(m, pairs))
    ensures Has(pairs, k) ==> Get(SetAll(m, pairs), k) == Get(pairs, k)
    ensures !Has(pairs, k) ==> Get(SetAll(m, pairs), k) == Get(m, k)
    decreases |pairs|
  {
    if |pairs| > 0 {
      var m1 := Set(m, pairs[0].0, pairs[0].1);
      var rest := pairs[1..];
      SetEffect(m, pairs[0].0, pairs[0].1);
      assert Valid(rest);
      SetAllEffect(m1, rest, k);
      if k == pairs[0].0 {
        HeadLookup(pairs);
      } else {
        TailLookup(pairs, k);
      }
    }
  }

  /** `Array.from(map.values())`. */
  function Values<V>(m: Pairs<V>): (vs: seq<V>)
    ensures |vs| == |m|
    ensures forall i :: 0 <= i < |m| ==> vs[i] == m[i].1
  {
    seq(|m|, i requires 0 <= i < |m| => m[i].1)
  }
}

=== FILE: outbox_publisher.dfy ===
/** One tick of the modules trip service's outbox worker: select up to 50
    PENDING outbox rows, publish each TRIP_OFFER row's payload with the
    modules `pushTripOfferJob`, and delete each row once its publish call has
    returned. Because that push swallows send failures, a row whose send
    failed is deleted all the same. */
module OutboxPublisher {
  import opened Wrappers
  import opened TripOffer
  import opened TripModel
  import ModulesTripSqs

  const BATCH_SIZE: nat := 50
  const POLL_INTERVAL_MS: nat := 2000

  /** The PENDING rows in table order. */
  function PendingRows(o: seq<OutboxRow>): (ps: seq<OutboxRow>)
    ensures |ps| <= |o|
    ensures forall r :: r in ps <==> r in o && r.status == "PENDING"
  {
    if |o| == 0 then []
    else if o[0].status == "PENDING" then [o[0]] + PendingRows(o[1..])
    else PendingRows(o[1..])
  }

  /** `SELECT * ... WHERE status = 'PENDING' LIMIT 50`. The query has no
      `ORDER BY`, so which pending rows come back is up to the database: the
      body fixes one choice, table order; the ensures state what holds for
      any choice of up to 50 pending rows. */
  function Select(o: seq<OutboxRow>): (rows: seq<OutboxRow>)
    ensures |rows| <= BATCH_SIZE
    ensures forall r :: r in rows ==> r in o && r.status == "PENDING"
    ensures |rows| == if |PendingRows(o)| < BATCH_SIZE then |PendingRows(o)| else BATCH_SIZE
  {
    var ps := PendingRows(o);
    if |ps| <= BATCH_SIZE then ps else ps[..BATCH_SIZE]
  }

  /** `DELETE FROM outbox_events WHERE id = ...` for every id in `ids`. */
  function RemoveIds(o: seq<OutboxRow>, ids: set<nat>): (r: seq<OutboxRow>)
    ensures |r| <= |o|
    ensures forall x :: x in r <==> x in o && x.id !in ids
  {
    if |o| == 0 then []
    else if o[0].id in ids then RemoveIds(o[1..], ids)
    else [o[0]] + RemoveIds(o[1..], ids)
  }

  /** Deleting two id sets one after the other deletes their union. */
  lemma {:induction false} RemoveIdsTwice(o: seq<OutboxRow>, a: set<nat>, b: set<nat>)
    ensures RemoveIds(RemoveIds(o, a), b) == RemoveIds(o, a + b)
    decreases |o|
  {
    if |o| > 0 {
      RemoveIdsTwice(o[1..], a, b);
      if o[0].id !in a {
        assert RemoveIds(o, a) == [o[0]] + RemoveIds(o[1..], a);
        assert RemoveIds(o, a)[1..] == RemoveIds(o[1..], a);
      }
    }
  }

  /** What the send of a row's offer answers: a message id when the row is
      among those whose send succeeds. */
  function SendAnswer(id: nat, sendOk: set<nat>): Option<SendResult> {
    if id in sendOk then Some(SendResult("")) else None
  }

  /** One row of the loop. `reply` is the publish call's ending, `None` for a
      row that is not a TRIP_OFFER and is not published; a publish that throws
      skips the delete, and a failed delete is logged and skipped. */
  function RowStep(db: Db, row: OutboxRow, reply: Option<PushReply>, deleteOk: bool): (r: Db)
    ensures r.trips == db.trips
    ensures reply == Some(Threw) || !deleteOk ==> r == db
    ensures reply != Some(Threw) && deleteOk ==> r.outbox == RemoveIds(db.outbox, {row.id})
  {
    if reply == Some(Threw) || !deleteOk then db
    else db.(outbox := RemoveIds(db.outbox, {row.id}))
  }

  /** A publish that throws leaves its row PENDING, whatever the delete would
      have done. */
  lemma RethrowingPublishKeepsRow(db: Db, row: OutboxRow, deleteOk: bool)
    requires row in db.outbox
    ensures row in RowStep(db, row, Some(Threw), deleteOk).outbox
  {
  }

  /** The TRIP_OFFER rows of a selection, in order. */
  function Offers(rows: seq<OutboxRow>): (os: seq<OutboxRow>)
    ensures forall r :: r in os <==> r in rows && r.eventType == TRIP_OFFER
  {
    if |rows| == 0 then []
    else if rows[0].eventType == TRIP_OFFER then [rows[0]] + Offers(rows[1..])
    else Offers(rows[1..])
  }

  /** The push calls for the offer rows, in order. */
  function PushesFor(env: ModulesTripSqs.Env, offers: seq<OutboxRow>, now: int, sendOk: set<nat>): (ps: seq<ModulesTripSqs.Push>)
    ensures |ps| == |offers|
    ensures forall i :: 0 <= i < |offers| ==>
      ps[i] == ModulesTripSqs.PushTripOfferJob(env, offers[i].payload, now, SendAnswer(offers[i].id, sendOk))
  {
    if |offers| == 0 then []
    else [ModulesTripSqs.PushTripOfferJob(env, offers[0].payload, now, SendAnswer(offers[0].id, sendOk))]
         + PushesFor(env, offers[1..], now, sendOk)
  }

  /** The loop over the selected rows: the database afterwards and the push
      calls made. */
  function Publish(db: Db, rows: seq<OutboxRow>, env: ModulesTripSqs.Env, now: int,
                   sendOk: set<nat>, deleteOk: set<nat>): (r: (Db, seq<ModulesTripSqs.Push>))
    ensures r.0.trips == db.trips
    ensures forall x :: x in r.0.outbox ==> x in db.outbox
    ensures |r.1| <= |rows|
    decreases |rows|
  {
    if |rows| == 0 then (db, [])
    else
      var row := rows[0];
      var push := if row.eventType == TRIP_OFFER
        then [ModulesTripSqs.PushTripOfferJob(env, row.payload, now, SendAnswer(row.id, sendOk))] else [];
      var reply := if |push| == 1 then Some(push[0].reply) else None;
      var db1 := RowStep(db, row, reply, row.id in deleteOk);
      var rest := Publish(db1, rows[1..], env, now, sendOk, deleteOk);
      (rest.0, push + rest.1)
  }

  /** The ids of a selection. */
  function IdsOf(rows: seq<OutboxRow>): set<nat> {
    set r | r in rows :: r.id
  }

  /** Over a whole selection: the outbox loses exactly the selected rows
      whose delete succeeded, send failures included, and one push is made
      per TRIP_OFFER row, in order, with that row's payload. */
  lemma PublishEffect(db: Db, rows: seq<OutboxRow>, env: ModulesTripSqs.Env, now: int,
                      sendOk: set<nat>, deleteOk: set<nat>)
    ensures Publish(db, rows, env, now, sendOk, deleteOk).0.outbox == RemoveIds(db.outbox, IdsOf(rows) * deleteOk)
    ensures Publish(db, rows, env, now, sendOk, deleteOk).1 == PushesFor(env, Offers(rows), now, sendOk)
  {
    PublishOutbox(db, rows, env, now, sendOk, deleteOk);
    PublishPushes(db, rows, env, now, sendOk, deleteOk);
  }

  lemma IdsOfCons(rows: seq<OutboxRow>)
    requires |rows| > 0
    ensures IdsOf(rows) == {rows[0].id} + IdsOf(rows[1..])
  {
    assert forall r :: r in rows <==> r == rows[0] || r in rows[1..];
  }

  /** The outbox half of `PublishEffect`. */
  lemma {:induction false} PublishOutbox(db: Db, rows: seq<OutboxRow>, env: ModulesTripSqs.Env, now: int,
                                         sendOk: set<nat>, deleteOk: set<nat>)
    ensures Publish(db, rows, env, now, sendOk, deleteOk).0.outbox == RemoveIds(db.outbox, IdsOf(rows) * deleteOk)
    decreases |rows|
  {
    if |rows| == 0 {
      assert IdsOf(rows) * deleteOk == {};
      RemoveNothing(db.outbox);
    } else {
      var row := rows[0];
      var reply := if row.eventType == TRIP_OFFER
        then Some(ModulesTripSqs.PushTripOfferJob(env, row.payload, now, SendAnswer(row.id, sendOk)).reply) else None;
      assert reply != Some(Threw);
      var db1 := RowStep(db, row, reply, row.id in deleteOk);
      assert Publish(db, rows, env, now, sendOk, deleteOk).0 == Publish(db1, rows[1..], env, now, sendOk, deleteOk).0;
      PublishOutbox(db1, rows[1..], env, now, sendOk, deleteOk);
      IdsOfCons(rows);
      var later := IdsOf(rows[1..]) * deleteOk;
      if row.id in deleteOk {
        RemoveIdsTwice(db.outbox, {row.id}, later);
        assert {row.id} + later == IdsOf(rows) * deleteOk;
      } else {
        assert later == IdsOf(rows) * deleteOk;
      }
    }
  }

  /** The push half of `PublishEffect`. */
  lemma {:induction false} PublishPushes(db: Db, rows: seq<OutboxRow>, env: ModulesTripSqs.Env, now: int,
                                         sendOk: set<nat>, deleteOk: set<nat>)
    ensures Publish(db, rows, env, now, sendOk, deleteOk).1 == PushesFor(env, Offers(rows), now, sendOk)
    decreases |rows|
  {
    if |rows| > 0 {
      var row := rows[0];
      var push := if row.eventType == TRIP_OFFER
        then [ModulesTripSqs.PushTripOfferJob(env, row.payload, now, SendAnswer(row.id, sendOk))] else [];
      var reply := if |push| == 1 then Some(push[0].reply) else None;
      var db1 := RowStep(db, row, reply, row.id in deleteOk);
      assert Publish(db, rows, env, now, sendOk, deleteOk).1 == push + Publish(db1, rows[1..], env, now, sendOk, deleteOk).1;
      PublishPushes(db1, rows[1..], env, now, sendOk, deleteOk);
      if row.eventType == TRIP_OFFER {
        assert Offers(rows) == [row] + Offers(rows[1..]);
        assert Offers(rows)[1..] == Offers(rows[1..]);
      } else {
        assert Offers(rows) == Offers(rows[1..]);
      }
    }
  }

  lemma {:induction false} RemoveNothing(o: seq<OutboxRow>)
    ensures RemoveIds(o, {}) == o
    decreases |o|
  {
    if |o| > 0 {
      RemoveNothing(o[1..]);
      assert o == [o[0]] + o[1..];
    }
  }

  /** The outcome of one tick: the database afterwards and the pushes made. */
  datatype Tick = Tick(db: Db, pushes: seq<ModulesTripSqs.Push>)

  /** One tick. A failing select is logged and the tick ends; an empty
      selection does nothing. */
  function Cycle(db: Db, selectFails: bool, env: ModulesTripSqs.Env, now: int,
                 sendOk: set<nat>, deleteOk: set<nat>): (t: Tick)
    ensures t.db.trips == db.trips
    ensures selectFails || |Select(db.outbox)| == 0 ==> t == Tick(db, [])
  {
    if selectFails then Tick(db, [])
    else
      var rows := Select(db.outbox);
      if |rows| == 0 then Tick(db, [])
      else
        var r := Publish(db, rows, env, now, sendOk, deleteOk);
        Tick(r.0, r.1)
  }

  /** Every selected row whose delete succeeds is gone after the tick, even a
      TRIP_OFFER row whose send failed: its offer is never sent again. Rows
      not selected, or whose delete failed, stay. */
  lemma SendFailureStillDeletes(db: Db, env: ModulesTripSqs.Env, now: int,
                                sendOk: set<nat>, deleteOk: set<nat>, row: OutboxRow)
    requires row in Select(db.outbox) && row.eventType == TRIP_OFFER
    requires row.id !in sendOk && row.id in deleteOk
    ensures var t := Cycle(db, false, env, now, sendOk, deleteOk);
      && row !in t.db.outbox
      && exists i :: 0 <= i < |t.pushes| && t.pushes[i].attempt.body.data == row.payload && t.pushes[i].reply == Returned(None)
  {
    var rows := Select(db.outbox);
    PublishEffect(db, rows, env, now, sendOk, deleteOk);
    var offers := Offers(rows);
    assert row in offers;
    var i :| 0 <= i < |offers| && offers[i] == row;
    var t := Cycle(db, false, env, now, sendOk, deleteOk);
    assert t.pushes[i].attempt.body.data == row.payload;
  }

  /** A row survives a tick exactly when it was not selected or its delete
      failed; the trips table is untouched. */
  lemma CycleDeletes(db: Db, env: ModulesTripSqs.Env, now: int, sendOk: set<nat>, deleteOk: set<nat>, row: OutboxRow)
    requires row in db.outbox
    ensures var t := Cycle(db, false, env, now, sendOk, deleteOk);
      row in t.db.outbox <==> row.id !in IdsOf(Select(db.outbox)) * deleteOk
  {
    var rows := Select(db.outbox);
    if |rows| > 0 {
      PublishEffect(db, rows, env, now, sendOk, deleteOk);
    }
  }
}

=== FILE: redis_stream.dfy ===
/** The modules driver service's location event stream: events appended to
    `stream:driver:locations` with approximate trimming to 100000 entries,
    read back as objects decoded from Redis's flat field lists, and filtered
    per driver. The stream is a sequence of entries in id order; the server
    clock that `*` ids come from and the amount an approximate trim removes
    are parameters. */
module RedisStream {
  import opened Wrappers
  import opened Text
  import opened JsValues

  const STREAM_KEY: string := "stream:driver:locations"
  const MAX_STREAM_LENGTH: nat := 100000
  const DEFAULT_READ_COUNT: nat := 100
  const DEFAULT_HISTORY_LIMIT: nat := 50
  /** `getDriverLocationHistory` scans ten events per event it may return. */
  const SCAN_FACTOR: nat := 10

  // ---------------------------------------------------------------------------
  // Stream ids and entries
  // ---------------------------------------------------------------------------

  /** A stream id `<ms>-<seq>`. */
  datatype StreamId = StreamId(ms: nat, sq: nat)

  predicate Less(a: StreamId, b: StreamId) {
    a.ms < b.ms || (a.ms == b.ms && a.sq < b.sq)
  }

  function IdText(id: StreamId): string {
    NatToString(id.ms) + "-" + NatToString(id.sq)
  }

  /** An entry: its id and its flat field list `[k1, v1, k2, v2, ...]`. */
  datatype Entry = Entry(id: StreamId, fields: seq<JsVal>)

  datatype Stream = Stream(entries: seq<Entry>)

  /** Entry ids strictly increase along the stream. */
  predicate Sorted(s: Stream) {
    forall i, j :: 0 <= i < j < |s.entries| ==> Less(s.entries[i].id, s.entries[j].id)
  }

  /** The id `*` generates at server time `serverMs`: that millisecond with
      sequence 0, or, when the clock has not passed the last entry, the last
      id's millisecond with the next sequence. */
  function NextId(s: Stream, serverMs: nat): (id: StreamId)
    ensures |s.entries| > 0 ==> Less(s.entries[|s.entries| - 1].id, id)
  {
    if |s.entries| == 0 then StreamId(serverMs, 0)
    else
      var last := s.entries[|s.entries| - 1].id;
      if serverMs > last.ms then StreamId(serverMs, 0) else StreamId(last.ms, last.sq + 1)
  }

  function Max(a: int, b: int): int { if a < b then b else a }
  function Min(a: int, b: int): int { if a < b then a else b }

  /** `XADD key MAXLEN ~ 100000 * fields...`: the entry goes last; the
      approximate trim removes up to `drop` of the oldest entries but never
      leaves fewer than 100000. */
  function XAdd(s: Stream, fields: seq<JsVal>, serverMs: nat, drop: nat): (r: Stream)
    ensures |r.entries| > 0 && r.entries[|r.entries| - 1] == Entry(NextId(s, serverMs), fields)
    ensures |r.entries| >= Min(|s.entries| + 1, MAX_STREAM_LENGTH)
    ensures |r.entries| <= |s.entries| + 1
  {
    var appended := s.entries + [Entry(NextId(s, serverMs), fields)];
    var k := Min(drop, Max(0, |appended| - MAX_STREAM_LENGTH));
    Stream(appended[k..])
  }

  /** The trim removes only the oldest entries: the stream after XADD is a
      suffix of the old stream with the new entry appended. */
  lemma XAddKeepsNewest(s: Stream, fields: seq<JsVal>, serverMs: nat, drop: nat)
    ensures var r := XAdd(s, fields, serverMs, drop);
      r.entries == (s.entries + [Entry(NextId(s, serverMs), fields)])[|s.entries| + 1 - |r.entries|..]
  {
  }

  /** Appending keeps the ids increasing. */
  lemma XAddKeepsOrder(s: Stream, fields: seq<JsVal>, serverMs: nat, drop: nat)
    requires Sorted(s)
    ensures Sorted(XAdd(s, fields, serverMs, drop))
  {
    var appended := s.entries + [Entry(NextId(s, serverMs), fields)];
    assert forall i, j :: 0 <= i < j < |appended| ==> Less(appended[i].id, appended[j].id) by {
      forall i, j | 0 <= i < j < |appended|
        ensures Less(appended[i].id, appended[j].id)
      {
        if j == |s.entries| && i < j - 1 {
          assert Less(s.entries[i].id, s.entries[j - 1].id);
        }
      }
    }
  }

  // ---------------------------------------------------------------------------
  // Decoding a flat field list
  // ---------------------------------------------------------------------------

  /** `fields[j]`, `undefined` past the end. */
  function ValAt(fs: seq<JsVal>, j: nat): JsVal {
    if j < |fs| then fs[j] else Undefined
  }

  /** `for (i = 0; i < fields.length; i += 2) data[fields[i]] = fields[i + 1]`,
      defined by its last step: the keys before the last pair, then the last
      pair's assignment. */
  function Decode(fs: seq<JsVal>): (r: Obj)
    ensures |fs| == 0 ==> r == map[]
    ensures |fs| % 2 == 1 ==> ToStr(fs[|fs| - 1]) in r && r[ToStr(fs[|fs| - 1])] == Undefined
    decreases |fs|
  {
    if |fs| == 0 then map[]
    else
      var i := LastKey(fs);
      Decode(fs[..i])[ToStr(fs[i]) := ValAt(fs, i + 1)]
  }

  /** The position of the last key: the last pair's first element, or the
      final element when the list has odd length. */
  function LastKey(fs: seq<JsVal>): (i: nat)
    requires |fs| > 0
    ensures i % 2 == 0 && |fs| - 2 <= i < |fs|
  {
    if |fs| % 2 == 0 then |fs| - 2 else |fs| - 1
  }

  /** Position `i` holds a key (an even position) whose text is `k`. */
  predicate KeyAt(fs: seq<JsVal>, i: int, k: string) {
    0 <= i < |fs| && i % 2 == 0 && ToStr(fs[i]) == k
  }

  /** Position `i` holds the last occurrence of key `k`. */
  predicate LastKeyAt(fs: seq<JsVal>, i: int, k: string) {
    KeyAt(fs, i, k) && forall j :: i < j < |fs| ==> !KeyAt(fs, j, k)
  }

  /** The keys of a list are those of the part before its last key, plus
      that last key. */
  lemma KeysOfPrefix(fs: seq<JsVal>, k: string, i: int)
    requires |fs| > 0
    ensures KeyAt(fs, i, k) <==> KeyAt(fs[..LastKey(fs)], i, k) || (i == LastKey(fs) && ToStr(fs[i]) == k)
  {
  }

  /** A key is decoded exactly when it appears at an even position, and it
      takes the value after its last appearance: a later duplicate wins. */
  lemma {:induction false} DecodeLastWins(fs: seq<JsVal>, k: string)
    ensures k in Decode(fs) <==> exists i :: KeyAt(fs, i, k)
    ensures forall i :: LastKeyAt(fs, i, k) ==> Decode(fs)[k] == ValAt(fs, i + 1)
    decreases |fs|
  {
    if |fs| > 0 {
      var i0 := LastKey(fs);
      var p := fs[..i0];
      DecodeLastWins(p, k);
      assert Decode(fs) == Decode(p)[ToStr(fs[i0]) := ValAt(fs, i0 + 1)];
      if ToStr(fs[i0]) == k {
        assert KeyAt(fs, i0, k);
        forall i | LastKeyAt(fs, i, k) ensures Decode(fs)[k] == ValAt(fs, i + 1) {
          assert i == i0;
        }
      } else {
        forall i ensures KeyAt(fs, i, k) <==> KeyAt(p, i, k) {
          KeysOfPrefix(fs, k, i);
        }
        forall i | LastKeyAt(fs, i, k) ensures Decode(fs)[k] == ValAt(fs, i + 1) {
          assert LastKeyAt(p, i, k);
          assert ValAt(p, i + 1) == ValAt(fs, i + 1);
        }
      }
    }
  }

  /** Appending one pair to a list of whole pairs assigns that key last. */
  lemma DecodeSnoc(p: seq<JsVal>, a: JsVal, b: JsVal)
    requires |p| % 2 == 0
    ensures Decode(p + [a, b]) == Decode(p)[ToStr(a) := b]
  {
    SnocParts(p, a, b);
    DecodeStep(p + [a, b], p, a, b);
  }

  /** The last key of a list of whole pairs with one pair appended is that
      pair's key. */
  lemma SnocParts(p: seq<JsVal>, a: JsVal, b: JsVal)
    requires |p| % 2 == 0
    ensures var fs := p + [a, b];
      LastKey(fs) == |p| && fs[..|p|] == p && fs[|p|] == a && ValAt(fs, |p| + 1) == b
  {
    assert |p + [a, b]| == |p| + 2;
  }

  /** One unfolding of `Decode` at the last key. */
  lemma DecodeStep(fs: seq<JsVal>, p: seq<JsVal>, a: JsVal, b: JsVal)
    requires |fs| > 0 && LastKey(fs) == |p|
    requires fs[..|p|] == p && fs[|p|] == a && ValAt(fs, |p| + 1) == b
    ensures Decode(fs) == Decode(p)[ToStr(a) := b]
  {
  }

  /** The decoding loop as the source writes it. */
  method DecodeFields(fs: seq<JsVal>) returns (data: Obj)
    ensures data == Decode(fs)
  {
    data := map[];
    var i := 0;
    while i < |fs|
      invariant 0 <= i <= |fs| + 1 && i % 2 == 0
      invariant data == Decode(fs[..Min(i, |fs|)])
    {
      var q := fs[..Min(i + 2, |fs|)];
      assert LastKey(q) == i;
      assert q[..i] == fs[..i];
      assert ValAt(q, i + 1) == ValAt(fs, i + 1);
      data := data[ToStr(fs[i]) := ValAt(fs, i + 1)];
      i := i + 2;
    }
    assert fs[..Min(i, |fs|)] == fs;
  }

  /** `{ id, ...data }`: the event object of an entry. */
  function EventOf(e: Entry): Obj {
    map["id" := Str(IdText(e.id))] + Decode(e.fields)
  }

  // ---------------------------------------------------------------------------
  // Publishing
  // ---------------------------------------------------------------------------

  /** A field value as it reaches Redis: `v?.toString() || ''`, which is
      also how the client sends an argument, nullish ones as empty text. */
  function FieldText(v: JsVal): (s: string)
    ensures IsNullish(v) ==> s == ""
    ensures !IsNullish(v) ==> s == ToStr(v)
  {
    if IsNullish(v) then "" else ToStr(v)
  }

  function Pair(k: string, v: string): seq<JsVal> {
    [Str(k), Str(v)]
  }

  /** The flat field list of one event, `timestamp` being its time in ms. */
  function EventFields(loc: Obj, timestamp: nat): (fs: seq<JsVal>)
    ensures |fs| == 16
  {
    Pair("driverId", FieldText(Get(loc, "driverId")))
    + Pair("lat", ToStr(Get(loc, "lat")))
    + Pair("lng", ToStr(Get(loc, "lng")))
    + Pair("heading", FieldText(Get(loc, "heading")))
    + Pair("speed", FieldText(Get(loc, "speed")))
    + Pair("accuracy", FieldText(Get(loc, "accuracy")))
    + Pair("tripId", FieldText(Or(Get(loc, "tripId"), Str(""))))
    + Pair("timestamp", NatToString(timestamp))
  }

  /** The object an event decodes to. */
  function EventData(loc: Obj, timestamp: nat): Obj {
    map["driverId" := Str(FieldText(Get(loc, "driverId"))),
        "lat" := Str(ToStr(Get(loc, "lat"))),
        "lng" := Str(ToStr(Get(loc, "lng"))),
        "heading" := Str(FieldText(Get(loc, "heading"))),
        "speed" := Str(FieldText(Get(loc, "speed"))),
        "accuracy" := Str(FieldText(Get(loc, "accuracy"))),
        "tripId" := Str(FieldText(Or(Get(loc, "tripId"), Str("")))),
        "timestamp" := Str(NatToString(timestamp))]
  }

  /** Round trip: the published field list decodes to exactly the event's
      fields, the driver id and coordinates as text, missing optional fields
      as empty text, and the time stamp. */
  lemma EventRoundTrip(loc: Obj, timestamp: nat)
    ensures Decode(EventFields(loc, timestamp)) == EventData(loc, timestamp)
  {
    var p0 := Pair("driverId", FieldText(Get(loc, "driverId")));
    var p1 := p0 + Pair("lat", ToStr(Get(loc, "lat")));
    var p2 := p1 + Pair("lng", ToStr(Get(loc, "lng")));
    var p3 := p2 + Pair("heading", FieldText(Get(loc, "heading")));
    var p4 := p3 + Pair("speed", FieldText(Get(loc, "speed")));
    var p5 := p4 + Pair("accuracy", FieldText(Get(loc, "accuracy")));
    var p6 := p5 + Pair("tripId", FieldText(Or(Get(loc, "tripId"), Str(""))));
    assert p0 == [] + p0;
    DecodeSnoc([], p0[0], p0[1]);
    DecodeSnoc(p0, Str("lat"), Str(ToStr(Get(loc, "lat"))));
    DecodeSnoc(p1, Str("lng"), Str(ToStr(Get(loc, "lng"))));
    DecodeSnoc(p2, Str("heading"), Str(FieldText(Get(loc, "heading"))));
    DecodeSnoc(p3, Str("speed"), Str(FieldText(Get(loc, "speed"))));
    DecodeSnoc(p4, Str("accuracy"), Str(FieldText(Get(loc, "accuracy"))));
    DecodeSnoc(p5, Str("tripId"), Str(FieldText(Or(Get(loc, "tripId"), Str("")))));
    DecodeSnoc(p6, Str("timestamp"), Str(NatToString(timestamp)));
  }

  /** `publishLocationEvent`: `lat.toString()` or `lng.toString()` throws on
      a missing coordinate and nothing is added; a Redis error is rethrown;
      otherwise the event is appended and its time returned. */
  function PublishLocationEvent(s: Stream, loc: Obj, now: nat, serverMs: nat, drop: nat, fails: bool): (r: (Stream, Outcome<nat>))
    ensures r.1.Thrown? <==> IsNullish(Get(loc, "lat")) || IsNullish(Get(loc, "lng")) || fails
    ensures r.1.Thrown? ==> r.0 == s
    ensures r.1.Done? ==> r.1.value == now && r.0 == XAdd(s, EventFields(loc, now), serverMs, drop)
  {
    if IsNullish(Get(loc, "lat")) || IsNullish(Get(loc, "lng")) || fails then (s, Thrown)
    else (XAdd(s, EventFields(loc, now), serverMs, drop), Done(now))
  }

  /** The field lists of a batch in order: event `i` stamped `now + i`. */
  function BatchFields(locs: seq<Obj>, now: nat): (r: seq<seq<JsVal>>)
    ensures |r| == |locs|
    ensures forall i :: 0 <= i < |locs| ==> r[i] == EventFields(locs[i], now + i)
  {
    seq(|locs|, (i: int) requires 0 <= i < |locs| => EventFields(locs[i], now + i))
  }

  /** The pipeline's `XADD`s, from the `i`-th on, with `drops(i)` the
      amount the `i`-th approximate trim removes. */
  function AppendAll(s: Stream, batch: seq<seq<JsVal>>, i: nat, serverMs: nat, drops: nat -> nat): (r: Stream)
    requires i <= |batch|
    decreases |batch| - i
  {
    if i == |batch| then s
    else AppendAll(XAdd(s, batch[i], serverMs, drops(i)), batch, i + 1, serverMs, drops)
  }

  /** `publishLocationEventsBatch`: a missing coordinate throws while the
      pipeline is being built, before anything is sent; a rejected `exec`
      is rethrown; otherwise every event is appended and `count` is the
      number of locations. */
  function PublishLocationEventsBatch(s: Stream, locs: seq<Obj>, now: nat, serverMs: nat, drops: nat -> nat, execRejects: bool)
    : (r: (Stream, Outcome<nat>))
    ensures r.1.Thrown? ==> r.0 == s
    ensures r.1.Done? ==> r.1.value == |locs|
    ensures r.1.Done? <==> (!execRejects &&
      forall i :: 0 <= i < |locs| ==> !IsNullish(Get(locs[i], "lat")) && !IsNullish(Get(locs[i], "lng")))
  {
    if exists i :: 0 <= i < |locs| && (IsNullish(Get(locs[i], "lat")) || IsNullish(Get(locs[i], "lng"))) then (s, Thrown)
    else if execRejects then (s, Thrown)
    else (AppendAll(s, BatchFields(locs, now), 0, serverMs, drops), Done(|locs|))
  }

  /** Without trimming, XADD appends. */
  lemma XAddNoTrim(s: Stream, fields: seq<JsVal>, serverMs: nat)
    ensures XAdd(s, fields, serverMs, 0).entries == s.entries + [Entry(NextId(s, serverMs), fields)]
  {
  }

  /** The pipeline keeps the ids increasing, whatever the trims remove. */
  lemma {:induction false} AppendAllKeepsOrder(s: Stream, batch: seq<seq<JsVal>>, i: nat, serverMs: nat, drops: nat -> nat)
    requires i <= |batch| && Sorted(s)
    ensures Sorted(AppendAll(s, batch, i, serverMs, drops))
    decreases |batch| - i
  {
    if i < |batch| {
      XAddKeepsOrder(s, batch[i], serverMs, drops(i));
      AppendAllKeepsOrder(XAdd(s, batch[i], serverMs, drops(i)), batch, i + 1, serverMs, drops);
    }
  }

  /** The field lists of a run of entries. */
  function FieldsOf(es: seq<Entry>): (r: seq<seq<JsVal>>)
    ensures |r| == |es|
    decreases |es|
  {
    if |es| == 0 then [] else [es[0].fields] + FieldsOf(es[1..])
  }

  /** A list that starts with `a + [e]` starts with `a`, then `e`. */
  lemma PrefixStep(a: seq<Entry>, e: Entry, r: seq<Entry>)
    requires |r| >= |a| + 1 && r[..|a| + 1] == a + [e]
    ensures r[..|a|] == a && r[|a|] == e
  {
    assert r[..|a|] == r[..|a| + 1][..|a|];
  }

  /** The field lists from position `n` on: the one at `n`, then the rest. */
  lemma FieldsStep(r: seq<Entry>, n: nat)
    requires n < |r|
    ensures FieldsOf(r[n..]) == [r[n].fields] + FieldsOf(r[n + 1..])
  {
    assert r[n..][1..] == r[n + 1..];
  }

  /** The pipeline when no trim removes anything: plain appends. */
  function AppendPlain(s: Stream, batch: seq<seq<JsVal>>, i: nat, serverMs: nat): Stream
    requires i <= |batch|
    decreases |batch| - i
  {
    if i == |batch| then s
    else AppendPlain(Stream(s.entries + [Entry(NextId(s, serverMs), batch[i])]), batch, i + 1, serverMs)
  }

  /** With every trim removing nothing, the pipeline is plain appending. */
  lemma {:induction false} AppendAllNoTrim(s: Stream, batch: seq<seq<JsVal>>, i: nat, serverMs: nat, drops: nat -> nat)
    requires i <= |batch|
    requires forall j :: 0 <= j < |batch| ==> drops(j) == 0
    ensures AppendAll(s, batch, i, serverMs, drops) == AppendPlain(s, batch, i, serverMs)
    decreases |batch| - i
  {
    if i < |batch| {
      XAddNoTrim(s, batch[i], serverMs);
      AppendAllNoTrim(XAdd(s, batch[i], serverMs, drops(i)), batch, i + 1, serverMs, drops);
    }
  }

  /** Plain appending keeps the entries already there and adds one per
      field list, in order. */
  lemma {:induction false} AppendPlainEffect(s: Stream, batch: seq<seq<JsVal>>, i: nat, serverMs: nat)
    requires i <= |batch|
    ensures var r := AppendPlain(s, batch, i, serverMs).entries;
      && |r| == |s.entries| + |batch| - i
      && r[..|s.entries|] == s.entries
      && FieldsOf(r[|s.entries|..]) == batch[i..]
    decreases |batch| - i
  {
    if i < |batch| {
      var e := Entry(NextId(s, serverMs), batch[i]);
      var s1 := Stream(s.entries + [e]);
      AppendPlainEffect(s1, batch, i + 1, serverMs);
      var r := AppendPlain(s1, batch, i + 1, serverMs).entries;
      PrefixStep(s.entries, e, r);
      FieldsStep(r, |s.entries|);
      assert batch[i..] == [batch[i]] + batch[i + 1..];
    } else {
      assert s.entries[|s.entries|..] == [];
    }
  }

  /** Without trimming, the pipeline keeps every entry already there. */
  lemma AppendAllKeepsPrefix(s: Stream, batch: seq<seq<JsVal>>, i: nat, serverMs: nat, drops: nat -> nat)
    requires i <= |batch|
    requires forall j :: 0 <= j < |batch| ==> drops(j) == 0
    ensures var r := AppendAll(s, batch, i, serverMs, drops);
      && |r.entries| == |s.entries| + |batch| - i
      && r.entries[..|s.entries|] == s.entries
  {
    AppendAllNoTrim(s, batch, i, serverMs, drops);
    AppendPlainEffect(s, batch, i, serverMs);
  }

  /** Without trimming, the pipeline appends one entry per field list, in
      order. */
  lemma AppendAllEffect(s: Stream, batch: seq<seq<JsVal>>, i: nat, serverMs: nat, drops: nat -> nat)
    requires i <= |batch|
    requires forall j :: 0 <= j < |batch| ==> drops(j) == 0
    ensures var r := AppendAll(s, batch, i, serverMs, drops);
      |r.entries| >= |s.entries| && FieldsOf(r.entries[|s.entries|..]) == batch[i..]
  {
    AppendAllNoTrim(s, batch, i, serverMs, drops);
    AppendPlainEffect(s, batch, i, serverMs);
  }

  /** A successful batch without trimming appends the locations' events in
      order, event `i` stamped `now + i`. */
  lemma BatchAppendsInOrder(s: Stream, locs: seq<Obj>, now: nat, serverMs: nat, drops: nat -> nat)
    requires Sorted(s)
    requires forall j :: 0 <= j < |locs| ==> drops(j) == 0
    requires forall i :: 0 <= i < |locs| ==> !IsNullish(Get(locs[i], "lat")) && !IsNullish(Get(locs[i], "lng"))
    ensures var r := PublishLocationEventsBatch(s, locs, now, serverMs, drops, false).0;
      && Sorted(r)
      && |r.entries| == |s.entries| + |locs|
      && r.entries[..|s.entries|] == s.entries
      && FieldsOf(r.entries[|s.entries|..]) == BatchFields(locs, now)
  {
    AppendAllKeepsOrder(s, BatchFields(locs, now), 0, serverMs, drops);
    AppendAllKeepsPrefix(s, BatchFields(locs, now), 0, serverMs, drops);
    AppendAllEffect(s, BatchFields(locs, now), 0, serverMs, drops);
    assert BatchFields(locs, now)[0..] == BatchFields(locs, now);
  }

  /** The batch's time stamps are pairwise distinct. */
  lemma BatchTimestampsDistinct(locs: seq<Obj>, now: nat, i: nat, j: nat)
    requires i < |locs| && j < |locs| && i != j
    ensures EventFields(locs[i], now + i)[15] != EventFields(locs[j], now + j)[15]
  {
    if NatToString(now + i) == NatToString(now + j) {
      NatToStringInjective(now + i, now + j);
    }
  }

  // ---------------------------------------------------------------------------
  // Reading
  // ---------------------------------------------------------------------------

  /** `XRANGE key lastId + COUNT count`: the oldest `count` entries from
      `lastId` on, decoded. */
  function ReadLocationEvents(s: Stream, lastId: StreamId, count: nat, fails: bool): (r: Outcome<seq<Obj>>)
    ensures fails <==> r.Thrown?
    ensures r.Done? ==> |r.value| <= count
    ensures r.Done? ==> var from := FromId(s.entries, lastId);
      && |r.value| == Min(count, |from|)
      && forall i :: 0 <= i < |r.value| ==> r.value[i] == EventOf(from[i])
  {
    if fails then Thrown
    else
      var from := FromId(s.entries, lastId);
      var taken := from[..Min(count, |from|)];
      Done(seq(|taken|, (i: int) requires 0 <= i < |taken| => EventOf(taken[i])))
  }

  /** The entries whose id is not below `lastId`, in order. */
  function FromId(es: seq<Entry>, lastId: StreamId): (r: seq<Entry>)
    ensures forall e :: e in r <==> e in es && !Less(e.id, lastId)
    decreases |es|
  {
    if |es| == 0 then []
    else (if Less(es[0].id, lastId) then [] else [es[0]]) + FromId(es[1..], lastId)
  }

  /** With the default start `0`, the read returns the oldest entries. */
  lemma DefaultReadStartsAtOldest(s: Stream)
    ensures ReadLocationEvents(s, StreamId(0, 0), DEFAULT_READ_COUNT, false).Done?
    ensures var r := ReadLocationEvents(s, StreamId(0, 0), DEFAULT_READ_COUNT, false).value;
      |r| == Min(DEFAULT_READ_COUNT, |s.entries|) && forall i :: 0 <= i < |r| ==> r[i] == EventOf(s.entries[i])
  {
    NothingBelowZero(s.entries);
  }

  lemma {:induction false} NothingBelowZero(es: seq<Entry>)
    ensures FromId(es, StreamId(0, 0)) == es
    decreases |es|
  {
    if |es| > 0 {
      NothingBelowZero(es[1..]);
      assert [es[0]] + es[1..] == es;
    }
  }

  /** `XREVRANGE key + - COUNT n`: the newest `n` entries, newest first. */
  function Window(es: seq<Entry>, n: nat): (r: seq<Entry>)
    ensures |r| == Min(n, |es|)
    ensures forall i :: 0 <= i < |r| ==> r[i] == es[|es| - 1 - i]
    decreases n
  {
    if n == 0 || |es| == 0 then []
    else [es[|es| - 1]] + Window(es[..|es| - 1], n - 1)
  }

  /** `.filter(event => event.driverId === driverId)` over the entries'
      events, keeping their order. */
  function Matching(es: seq<Entry>, driverId: JsVal): (r: seq<Entry>)
    ensures forall e :: e in r <==> e in es && Get(EventOf(e), "driverId") == driverId
    ensures |r| <= |es|
    decreases |es|
  {
    if |es| == 0 then []
    else (if Get(EventOf(es[0]), "driverId") == driverId then [es[0]] else []) + Matching(es[1..], driverId)
  }

  /** The entries `getDriverLocationHistory` returns: the first `limit`
      matches among the newest `limit * 10` entries. */
  function HistoryEntries(s: Stream, driverId: JsVal, limit: nat): (r: seq<Entry>)
    ensures |r| <= limit
    ensures forall e :: e in r ==> e in Window(s.entries, limit * SCAN_FACTOR) && Get(EventOf(e), "driverId") == driverId
    ensures var m := Matching(Window(s.entries, limit * SCAN_FACTOR), driverId);
      |r| == Min(limit, |m|) && r <= m
  {
    var m := Matching(Window(s.entries, limit * SCAN_FACTOR), driverId);
    m[..Min(limit, |m|)]
  }

  function GetDriverLocationHistory(s: Stream, driverId: JsVal, limit: nat, fails: bool): (r: Outcome<seq<Obj>>)
    ensures fails <==> r.Thrown?
    ensures r.Done? ==> |r.value| <= limit
    ensures r.Done? ==> forall i :: 0 <= i < |r.value| ==> Get(r.value[i], "driverId") == driverId
    ensures r.Done? ==> var es := HistoryEntries(s, driverId, limit);
      |r.value| == |es| && forall i :: 0 <= i < |es| ==> r.value[i] == EventOf(es[i])
  {
    if fails then Thrown
    else
      var es := HistoryEntries(s, driverId, limit);
      assert forall i :: 0 <= i < |es| ==> es[i] in es;
      Done(seq(|es|, (i: int) requires 0 <= i < |es| => EventOf(es[i])))
  }

  /** When the newest `limit * 10` entries hold at most `limit` of the
      driver's events, every one of them is returned. */
  lemma HistoryComplete(s: Stream, driverId: JsVal, limit: nat, e: Entry)
    requires e in Window(s.entries, limit * SCAN_FACTOR) && Get(EventOf(e), "driverId") == driverId
    requires |Matching(Window(s.entries, limit * SCAN_FACTOR), driverId)| <= limit
    ensures EventOf(e) in GetDriverLocationHistory(s, driverId, limit, false).value
  {
    var m := Matching(Window(s.entries, limit * SCAN_FACTOR), driverId);
    assert m[..Min(limit, |m|)] == m;
    var es := HistoryEntries(s, driverId, limit);
    var i :| 0 <= i < |es| && es[i] == e;
    assert GetDriverLocationHistory(s, driverId, limit, false).value[i] == EventOf(e);
  }

  /** Ids strictly decrease along a sequence. */
  predicate Descending(es: seq<Entry>) {
    forall i, j :: 0 <= i < j < |es| ==> Less(es[j].id, es[i].id)
  }

  lemma {:induction false} MatchingKeepsDescending(es: seq<Entry>, driverId: JsVal)
    requires Descending(es)
    ensures Descending(Matching(es, driverId))
    decreases |es|
  {
    if |es| > 0 {
      MatchingKeepsDescending(es[1..], driverId);
      var rest := Matching(es[1..], driverId);
      forall j | 0 <= j < |rest|
        ensures Less(rest[j].id, es[0].id)
      {
        assert rest[j] in es[1..];
      }
    }
  }

  /** History comes newest first: the ids of the returned events decrease. */
  lemma HistoryNewestFirst(s: Stream, driverId: JsVal, limit: nat)
    requires Sorted(s)
    ensures Descending(HistoryEntries(s, driverId, limit))
  {
    var w := Window(s.entries, limit * SCAN_FACTOR);
    assert Descending(w);
    MatchingKeepsDescending(w, driverId);
  }

  lemma {:induction false} MatchingNone(es: seq<Entry>, driverId: JsVal)
    requires forall e :: e in es ==> Get(EventOf(e), "driverId") != driverId
    ensures Matching(es, driverId) == []
    decreases |es|
  {
    if |es| > 0 {
      assert es[0] in es;
      assert forall e :: e in es[1..] ==> e in es;
      MatchingNone(es[1..], driverId);
    }
  }

  /** The scan window bounds what history can find: when none of the newest
      `limit * 10` entries is the driver's, the answer is empty however many
      older events the driver has. */
  lemma HistoryMissesOlderEvents(s: Stream, driverId: JsVal, limit: nat)
    requires forall e :: e in Window(s.entries, limit * SCAN_FACTOR) ==> Get(EventOf(e), "driverId") != driverId
    ensures HistoryEntries(s, driverId, limit) == []
  {
    MatchingNone(Window(s.entries, limit * SCAN_FACTOR), driverId);
  }

  /** The comparison is strict and stream fields are text, so a numeric
      driver id matches no published event. */
  lemma NumericIdMatchesNothing(loc: Obj, timestamp: nat, id: StreamId, n: int)
    ensures Get(EventOf(Entry(id, EventFields(loc, timestamp))), "driverId") != Num(n)
  {
    EventRoundTrip(loc, timestamp);
    var ev := EventData(loc, timestamp);
    assert "driverId" in ev && ev["driverId"].Str?;
    var m := map["id" := Str(IdText(id))] + ev;
    assert m["driverId"] == ev["driverId"];
  }

  // ---------------------------------------------------------------------------
  // getStreamInfo
  // ---------------------------------------------------------------------------

  /** The reply to `XINFO STREAM`: a flat list, or an error message. */
  datatype InfoReply = InfoList(items: seq<JsVal>) | InfoError(message: string)

  /** The decoded info object, or `{ length: 0, exists: false }`. */
  datatype StreamInfo = InfoFields(fields: Obj) | NoStream

  function GetStreamInfo(reply: InfoReply): (r: Outcome<StreamInfo>)
    ensures reply.InfoList? ==> r == Done(InfoFields(Decode(reply.items)))
    ensures r.Thrown? <==> reply.InfoError? && !Contains(reply.message, "no such key")
  {
    match reply
    case InfoList(items) => Done(InfoFields(Decode(items)))
    case InfoError(m) => if Contains(m, "no such key") then Done(NoStream) else Thrown
  }

  /** Redis's error for a missing stream is reported as an empty stream. */
  lemma MissingStreamIsEmpty()
    ensures GetStreamInfo(InfoError("ERR no such key")) == Done(NoStream)
  {
    assert MatchAt("ERR no such key", "no such key", 4);
  }
}

=== FILE: scalable_location_consumer.dfy ===
/** The modules driver service's `ScalableLocationConsumer`: it receives
    location-history messages from a queue, appends one record per parsable
    message to a FIFO insert buffer, and flushes the buffer's oldest records
    into `driver_location_history` with one multi-row insert. Each `await` is
    a point where an outcome enters as a parameter: the receive, the pool
    connection, the insert. */
module ScalableLocationConsumer {
  import opened Wrappers
  import opened JsValues
  import opened SqlBatch

  const DEFAULT_MAX_BATCH_INSERT: nat := 100
  const COLUMNS: nat := 8
  const FLUSH_INTERVAL_MS: nat := 5000
  const PAUSED_SLEEP_MS: nat := 1000
  const POLL_ERROR_BACKOFF_MS: nat := 5000
  const STALE_AFTER_MS: int := 300000

  /** A received message; a body that `JSON.parse` rejects, or that parses to
      `null`, is `None`. */
  datatype Message = Message(receipt: string, body: Option<Obj>)

  /** One buffered row, column by column. */
  datatype Record = Record(
    driverId: SqlVal, lat: SqlVal, lng: SqlVal, heading: SqlVal, speed: SqlVal,
    accuracy: SqlVal, tripId: SqlVal, recordedAt: SqlVal)

  /** `x ? parseInt(x) : null`. */
  function IntOrNull(v: JsVal): (r: SqlVal)
    ensures !Truthy(v) <==> r == SqlNull
  {
    if Truthy(v) then Int(ParseNumber(v)) else SqlNull
  }

  /** The record a parsed body yields; `nowIso` stands for the current time
      as an ISO string, used when the body has no `recordedAt`. */
  function RecordOf(o: Obj, nowIso: string): (r: Record)
    ensures r.driverId == Int(ParseNumber(Get(o, "driverId")))
    ensures r.lat == Float(ParseNumber(Get(o, "lat"))) && r.lng == Float(ParseNumber(Get(o, "lng")))
    ensures r.heading == SqlNull <==> !Truthy(Get(o, "heading"))
    ensures r.tripId == SqlNull <==> !Truthy(Get(o, "tripId"))
    ensures Truthy(Get(o, "recordedAt")) ==> r.recordedAt == SqlText(ToStr(Get(o, "recordedAt")))
    ensures !Truthy(Get(o, "recordedAt")) ==> r.recordedAt == SqlText(nowIso)
  {
    Record(
      Int(ParseNumber(Get(o, "driverId"))),
      Float(ParseNumber(Get(o, "lat"))),
      Float(ParseNumber(Get(o, "lng"))),
      IntOrNull(Get(o, "heading")),
      IntOrNull(Get(o, "speed")),
      IntOrNull(Get(o, "accuracy")),
      IntOrNull(Get(o, "tripId")),
      SqlText(ToStr(Or(Get(o, "recordedAt"), Str(nowIso)))))
  }

  /** A heading of 0 is falsy and so is stored as NULL, not as 0. */
  lemma ZeroHeadingStoredAsNull(o: Obj, nowIso: string)
    requires Get(o, "heading") == Num(0)
    ensures RecordOf(o, nowIso).heading == SqlNull
  {
  }

  /** The values of a record in the insert's column order
      `(driver_id, lat, lng, heading, speed, accuracy, trip_id, recorded_at)`. */
  function Row(r: Record): (vs: seq<SqlVal>)
    ensures |vs| == COLUMNS
  {
    [r.driverId, r.lat, r.lng, r.heading, r.speed, r.accuracy, r.tripId, r.recordedAt]
  }

  function Rows(rs: seq<Record>): (rows: seq<seq<SqlVal>>)
    ensures |rows| == |rs|
    ensures Uniform(rows, COLUMNS)
    ensures forall i :: 0 <= i < |rs| ==> rows[i] == Row(rs[i])
  {
    seq(|rs|, (i: int) requires 0 <= i < |rs| => Row(rs[i]))
  }

  /** The insert statement for a batch: its placeholder tuples and values. */
  datatype Statement = Statement(placeholders: seq<seq<nat>>, values: seq<SqlVal>)

  function InsertFor(records: seq<Record>): Statement {
    Statement(Params(|records|, COLUMNS), Flatten(Rows(records)))
  }

  /** The statement numbers its parameters `$1..$8n` and each tuple names its
      own record's values, in column order. */
  lemma InsertNumbering(records: seq<Record>, i: nat, k: nat)
    requires i < |records| && k < COLUMNS
    ensures var st := InsertFor(records);
      && |st.placeholders| == |records| && |st.values| == COLUMNS * |records|
      && st.placeholders[i][k] == COLUMNS * i + k + 1
      && st.values[st.placeholders[i][k] - 1] == Row(records[i])[k]
  {
    FlattenLength(Rows(records), COLUMNS);
    ParamsMatchValues(Rows(records), COLUMNS, i, k);
  }

  /** The building loop of `flushBuffer` produces that statement. */
  method BuildStatement(records: seq<Record>) returns (st: Statement)
    ensures st == InsertFor(records)
  {
    var placeholders, values := BuildInsert(Rows(records), COLUMNS);
    st := Statement(placeholders, values);
  }

  datatype Stats = Stats(
    messagesReceived: nat, messagesProcessed: nat, messagesFailed: nat,
    batchesInserted: nat, totalRecordsInserted: nat, errors: nat,
    lastProcessedAt: Option<int>, startedAt: Option<int>)

  datatype Consumer = Consumer(maxBatchInsert: nat, buffer: seq<Record>, stats: Stats, isRunning: bool, isPaused: bool)

  /** The batch limit is positive, and every received message was counted
      either as processed or as failed. */
  predicate Inv(c: Consumer) {
    c.maxBatchInsert >= 1
    && c.stats.messagesProcessed + c.stats.messagesFailed == c.stats.messagesReceived
  }

  /** The constructor: `options.maxBatchInsert || 100`, stopped, unpaused,
      zeroed counters and an empty buffer. */
  function Create(maxBatchInsert: Option<nat>): (c: Consumer)
    ensures Inv(c) && c.buffer == [] && !c.isRunning && !c.isPaused
    ensures maxBatchInsert.Some? && maxBatchInsert.value != 0 ==> c.maxBatchInsert == maxBatchInsert.value
    ensures maxBatchInsert.None? || maxBatchInsert == Some(0) ==> c.maxBatchInsert == DEFAULT_MAX_BATCH_INSERT
  {
    var m := if maxBatchInsert.Some? && maxBatchInsert.value != 0 then maxBatchInsert.value else DEFAULT_MAX_BATCH_INSERT;
    Consumer(m, [], Stats(0, 0, 0, 0, 0, 0, None, None), false, false)
  }

  // ---------------------------------------------------------------------------
  // Flushing
  // ---------------------------------------------------------------------------

  function Min(a: nat, b: nat): nat { if a < b then a else b }

  /** The synchronous start of `flushBuffer`: `splice(0, maxBatchInsert)` takes
      the oldest records off the buffer. */
  function BeginFlush(c: Consumer): (r: (Consumer, seq<Record>))
    requires |c.buffer| > 0
    ensures |r.1| == Min(|c.buffer|, c.maxBatchInsert)
    ensures r.1 + r.0.buffer == c.buffer
    ensures r.0 == c.(buffer := r.0.buffer)
  {
    var n := Min(|c.buffer|, c.maxBatchInsert);
    assert c.buffer[..n] + c.buffer[n..] == c.buffer;
    (c.(buffer := c.buffer[n..]), c.buffer[..n])
  }

  /** How the rest of a flush ends: the pool connection fails (before the
      `try`), the insert fails, or the insert succeeds. */
  datatype FlushEnd = ConnectFailed | InsertFailed | Inserted

  /** The database end of a flush for `records`, taken earlier, applied to
      the consumer as it is by then. A failed insert puts the records back at
      the front, counts an error and rethrows; a failed connection rethrows
      with the records already gone. */
  function FinishFlush(c: Consumer, records: seq<Record>, end: FlushEnd): (r: (Consumer, bool))
    ensures r.1 <==> !end.Inserted?
    ensures end == ConnectFailed ==> r.0 == c
    ensures end == InsertFailed ==>
      r.0 == c.(buffer := records + c.buffer, stats := c.stats.(errors := c.stats.errors + 1))
    ensures end == Inserted ==>
      && r.0.buffer == c.buffer
      && r.0.stats == c.stats.(batchesInserted := c.stats.batchesInserted + 1,
                               totalRecordsInserted := c.stats.totalRecordsInserted + |records|)
  {
    match end
    case ConnectFailed => (c, true)
    case InsertFailed => (c.(buffer := records + c.buffer, stats := c.stats.(errors := c.stats.errors + 1)), true)
    case Inserted =>
      (c.(stats := c.stats.(batchesInserted := c.stats.batchesInserted + 1,
                           totalRecordsInserted := c.stats.totalRecordsInserted + |records|)), false)
  }

  /** A whole `flushBuffer` with nothing interleaved: the consumer afterwards,
      the statement sent (none when the buffer was empty or the connection
      failed), and whether it threw. */
  datatype Flush = Flush(c: Consumer, statement: Option<Statement>, threw: bool)

  function FlushBuffer(c: Consumer, end: FlushEnd): (f: Flush)
    ensures |c.buffer| == 0 ==> f == Flush(c, None, false)
    ensures f.c.maxBatchInsert == c.maxBatchInsert && f.c.isRunning == c.isRunning && f.c.isPaused == c.isPaused
    ensures f.c.stats.messagesReceived == c.stats.messagesReceived
    ensures f.c.stats.messagesProcessed == c.stats.messagesProcessed
    ensures f.c.stats.messagesFailed == c.stats.messagesFailed
  {
    if |c.buffer| == 0 then Flush(c, None, false)
    else
      var (taken, records) := BeginFlush(c);
      var (after, threw) := FinishFlush(taken, records, end);
      Flush(after, if end == ConnectFailed then None else Some(InsertFor(records)), threw)
  }

  /** A successful flush inserts the oldest `min(n, maxBatchInsert)` records
      in buffer order and leaves the rest, still in order. */
  lemma FlushTakesOldest(c: Consumer)
    requires |c.buffer| > 0
    ensures var f := FlushBuffer(c, Inserted);
      var n := Min(|c.buffer|, c.maxBatchInsert);
      && !f.threw
      && f.statement == Some(InsertFor(c.buffer[..n]))
      && f.c.buffer == c.buffer[n..]
      && f.c.stats.totalRecordsInserted == c.stats.totalRecordsInserted + n
      && f.c.stats.batchesInserted == c.stats.batchesInserted + 1
  {
    var n := Min(|c.buffer|, c.maxBatchInsert);
    var (taken, records) := BeginFlush(c);
    assert records == c.buffer[..n] && taken.buffer == c.buffer[n..] by {
      assert records + taken.buffer == c.buffer;
      assert records == (records + taken.buffer)[..n];
    }
  }

  /** A failed insert leaves the buffer as it was before the flush: the
      records come back at the front in their original order. */
  lemma FailedInsertRestoresBuffer(c: Consumer)
    requires |c.buffer| > 0
    ensures var f := FlushBuffer(c, InsertFailed);
      f.threw && f.c.buffer == c.buffer && f.c.stats.errors == c.stats.errors + 1
  {
  }

  /** Records added while the insert was pending stay behind the restored ones. */
  lemma RestoredAheadOfNewer(c: Consumer, newer: seq<Record>)
    requires |c.buffer| > 0
    ensures var (taken, records) := BeginFlush(c);
      var meanwhile := taken.(buffer := taken.buffer + newer);
      FinishFlush(meanwhile, records, InsertFailed).0.buffer == c.buffer + newer
  {
    var (taken, records) := BeginFlush(c);
    assert records + (taken.buffer + newer) == (records + taken.buffer) + newer;
  }

  /** A connection failure loses the taken records: they are neither inserted
      nor put back, and no error is counted by the flush itself. */
  lemma ConnectFailureLosesRecords(c: Consumer)
    requires |c.buffer| > 0
    ensures var f := FlushBuffer(c, ConnectFailed);
      && f.threw && f.statement.None?
      && |f.c.buffer| == |c.buffer| - Min(|c.buffer|, c.maxBatchInsert)
      && f.c.stats == c.stats
  {
  }

  // ---------------------------------------------------------------------------
  // Polling
  // ---------------------------------------------------------------------------

  /** The records of the parsable messages, in order, and the number of
      messages that failed to parse. */
  function Ingest(msgs: seq<Message>, nowIso: string): (r: (seq<Record>, nat))
    ensures |r.0| + r.1 == |msgs|
    ensures forall m :: m in msgs && m.body.Some? ==> RecordOf(m.body.value, nowIso) in r.0
    decreases |msgs|
  {
    if |msgs| == 0 then ([], 0)
    else
      var rest := Ingest(msgs[1..], nowIso);
      if msgs[0].body.Some? then ([RecordOf(msgs[0].body.value, nowIso)] + rest.0, rest.1)
      else (rest.0, rest.1 + 1)
  }

  function Receipts(msgs: seq<Message>): (rs: seq<string>)
    ensures |rs| == |msgs|
    ensures forall i :: 0 <= i < |msgs| ==> rs[i] == msgs[i].receipt
  {
    seq(|msgs|, (i: int) requires 0 <= i < |msgs| => msgs[i].receipt)
  }

  /** What a receive returned: it threw, or a list of messages. */
  datatype Receive = ReceiveFailed | Received(messages: seq<Message>)

  /** One `pollAndProcess`: the consumer afterwards, the receipts sent for
      deletion, the insert statement of a threshold flush, and whether it
      threw. The delete's own failure is logged and ignored, so only the
      request is modelled. */
  datatype Poll = Poll(c: Consumer, deleted: seq<string>, statement: Option<Statement>, threw: bool)

  function PollAndProcess(c: Consumer, receive: Receive, flushEnd: FlushEnd, now: int, nowIso: string): (p: Poll)
    ensures receive.ReceiveFailed? ==> p == Poll(c, [], None, true)
    ensures receive.Received? && |receive.messages| == 0 ==> p == Poll(c, [], None, false)
    ensures receive.Received? && |receive.messages| > 0 ==>
      p.c.stats.messagesReceived == c.stats.messagesReceived + |receive.messages|
    ensures Inv(c) ==> Inv(p.c)
    ensures p.c.isRunning == c.isRunning && p.c.isPaused == c.isPaused
  {
    match receive
    case ReceiveFailed => Poll(c, [], None, true)
    case Received(msgs) =>
      if |msgs| == 0 then Poll(c, [], None, false)
      else
        var (records, failed) := Ingest(msgs, nowIso);
        var c1 := c.(buffer := c.buffer + records,
                     stats := c.stats.(messagesReceived := c.stats.messagesReceived + |msgs|,
                                       messagesProcessed := c.stats.messagesProcessed + |records|,
                                       messagesFailed := c.stats.messagesFailed + failed));
        var f := if |c1.buffer| >= c1.maxBatchInsert then FlushBuffer(c1, flushEnd) else Flush(c1, None, false);
        if f.threw then Poll(f.c, [], f.statement, true)
        else Poll(f.c.(stats := f.c.stats.(lastProcessedAt := Some(now))), Receipts(msgs), f.statement, false)
  }

  /** Every received message is sent for deletion, the unparsable ones
      included, once the threshold flush (if any) has not thrown. */
  lemma EveryMessageDeleted(c: Consumer, msgs: seq<Message>, flushEnd: FlushEnd, now: int, nowIso: string)
    requires |msgs| > 0
    requires !PollAndProcess(c, Received(msgs), flushEnd, now, nowIso).threw
    ensures var p := PollAndProcess(c, Received(msgs), flushEnd, now, nowIso);
      && p.deleted == Receipts(msgs)
      && p.c.stats.lastProcessedAt == Some(now)
  {
  }

  /** A message whose body does not parse is counted as failed and deleted
      all the same. */
  lemma UnparsableCountedAndDeleted(c: Consumer, m: Message, now: int, nowIso: string)
    requires m.body.None? && |c.buffer| + 1 <= c.maxBatchInsert - 1
    ensures var p := PollAndProcess(c, Received([m]), Inserted, now, nowIso);
      && p.c.stats.messagesFailed == c.stats.messagesFailed + 1
      && p.c.buffer == c.buffer
      && p.deleted == [m.receipt]
  {
  }

  /** Below the threshold the records are appended in message order and
      nothing is inserted. */
  lemma BelowThresholdOnlyBuffers(c: Consumer, msgs: seq<Message>, flushEnd: FlushEnd, now: int, nowIso: string)
    requires |msgs| > 0
    requires |c.buffer| + |Ingest(msgs, nowIso).0| < c.maxBatchInsert
    ensures var p := PollAndProcess(c, Received(msgs), flushEnd, now, nowIso);
      && p.c.buffer == c.buffer + Ingest(msgs, nowIso).0
      && p.statement.None? && !p.threw
  {
  }

  /** Reaching the threshold flushes before deleting; when that insert fails
      nothing is deleted, the messages will be delivered again, and their
      records stay buffered: the same locations are buffered twice. */
  lemma FailedThresholdFlushKeepsMessages(c: Consumer, msgs: seq<Message>, now: int, nowIso: string)
    requires |msgs| > 0 && c.maxBatchInsert >= 1
    requires |c.buffer| + |Ingest(msgs, nowIso).0| >= c.maxBatchInsert
    ensures var p := PollAndProcess(c, Received(msgs), InsertFailed, now, nowIso);
      && p.threw && p.deleted == []
      && p.c.buffer == c.buffer + Ingest(msgs, nowIso).0
      && p.c.stats.errors == c.stats.errors + 1
      && p.c.stats.lastProcessedAt == c.stats.lastProcessedAt
  {
    var records := Ingest(msgs, nowIso).0;
    assert |c.buffer + records| > 0;
  }

  // ---------------------------------------------------------------------------
  // The loop and its controls
  // ---------------------------------------------------------------------------

  /** `start()`: a no-op when already running; the loop itself is `Iterate`. */
  function Start(c: Consumer, now: int): (r: Consumer)
    ensures c.isRunning ==> r == c
    ensures !c.isRunning ==> r == c.(isRunning := true, stats := c.stats.(startedAt := Some(now)))
  {
    if c.isRunning then c else c.(isRunning := true, stats := c.stats.(startedAt := Some(now)))
  }

  /** Starting twice is starting once. */
  lemma StartIdempotent(c: Consumer, now: int, later: int)
    ensures Start(Start(c, now), later) == Start(c, now)
  {
  }

  function Pause(c: Consumer): (r: Consumer)
    ensures r.isPaused && r == c.(isPaused := true)
  {
    c.(isPaused := true)
  }

  function Resume(c: Consumer): (r: Consumer)
    ensures !r.isPaused && r == c.(isPaused := false)
  {
    c.(isPaused := false)
  }

  /** Pausing and resuming touch nothing but the paused flag. */
  lemma PauseResumeOnlyToggle(c: Consumer)
    ensures Resume(Pause(c)) == c.(isPaused := false)
    ensures Pause(Resume(c)) == c.(isPaused := true)
  {
  }

  /** One turn of the `while (this.isRunning)` loop: the consumer afterwards
      and how long it then sleeps. A paused consumer only sleeps; a poll that
      throws counts one more error and backs off. */
  function Iterate(c: Consumer, receive: Receive, flushEnd: FlushEnd, now: int, nowIso: string): (r: (Consumer, nat))
    requires c.isRunning
    ensures c.isPaused ==> r == (c, PAUSED_SLEEP_MS)
  {
    if c.isPaused then (c, PAUSED_SLEEP_MS)
    else
      var p := PollAndProcess(c, receive, flushEnd, now, nowIso);
      if p.threw then (p.c.(stats := p.c.stats.(errors := p.c.stats.errors + 1)), POLL_ERROR_BACKOFF_MS)
      else (p.c, 0)
  }

  /** A failed threshold insert is counted twice: once by `flushBuffer`'s
      handler and once by the loop's. */
  lemma FailedInsertCountedTwice(c: Consumer, msgs: seq<Message>, now: int, nowIso: string)
    requires c.isRunning && !c.isPaused && |msgs| > 0 && c.maxBatchInsert >= 1
    requires |c.buffer| + |Ingest(msgs, nowIso).0| >= c.maxBatchInsert
    ensures Iterate(c, Received(msgs), InsertFailed, now, nowIso).0.stats.errors == c.stats.errors + 2
    ensures Iterate(c, Received(msgs), InsertFailed, now, nowIso).1 == POLL_ERROR_BACKOFF_MS
  {
    FailedThresholdFlushKeepsMessages(c, msgs, now, nowIso);
  }

  /** `stop()`: clear the running flag, then flush once if anything is
      buffered. One flush takes at most `maxBatchInsert` records, so the rest
      is left in the buffer when the pool closes. */
  function Stop(c: Consumer, flushEnd: FlushEnd): (f: Flush)
    ensures !f.c.isRunning
    ensures |c.buffer| == 0 ==> f == Flush(c.(isRunning := false), None, false)
  {
    FlushBuffer(c.(isRunning := false), flushEnd)
  }

  lemma StopLeavesOverflow(c: Consumer)
    requires |c.buffer| > c.maxBatchInsert
    ensures Stop(c, Inserted).c.buffer == c.buffer[c.maxBatchInsert..]
  {
    FlushTakesOldest(c.(isRunning := false));
  }

  // ---------------------------------------------------------------------------
  // Health
  // ---------------------------------------------------------------------------

  /** `isHealthy()` as written, with the error rate as a real quotient and the
      times as milliseconds. */
  function IsHealthy(c: Consumer, now: int): (ok: bool)
    ensures ok ==> !(c.isRunning && c.stats.lastProcessedAt.Some? && now - c.stats.lastProcessedAt.value > STALE_AFTER_MS)
    ensures !c.isRunning && c.stats.messagesFailed == 0 ==> ok
  {
    var errorRate: real := if c.stats.messagesReceived > 0
      then (c.stats.messagesFailed as real) / (c.stats.messagesReceived as real) else 0.0;
    var lastProcessed := if c.stats.lastProcessedAt.Some? then now - c.stats.lastProcessedAt.value else 0;
    var isStale := c.isRunning && lastProcessed > STALE_AFTER_MS;
    !isStale && !(errorRate > 0.1)
  }

  /** Healthy exactly when at most a tenth of the received messages failed
      and a running consumer last processed a batch at most five minutes ago. */
  lemma HealthyIff(c: Consumer, now: int)
    requires Inv(c)
    ensures IsHealthy(c, now) <==>
      && 10 * c.stats.messagesFailed <= c.stats.messagesReceived
      && !(c.isRunning && c.stats.lastProcessedAt.Some? && now - c.stats.lastProcessedAt.value > STALE_AFTER_MS)
  {
    if c.stats.messagesReceived > 0 {
      RateAboveTenth(c.stats.messagesFailed, c.stats.messagesReceived);
    }
  }

  lemma RateAboveTenth(failed: nat, received: nat)
    requires received > 0
    ensures (failed as real) / (received as real) > 0.1 <==> 10 * failed > received
  {
    var f := failed as real;
    var r := received as real;
    var q := f / r;
    assert q * r == f;
    if q > 0.1 {
      ScaleStrict(q, 0.1, r);
      assert f > 0.1 * r;
    } else {
      ScaleWeak(q, 0.1, r);
      assert f <= 0.1 * r;
    }
  }

  lemma ScaleStrict(a: real, b: real, r: real)
    requires r > 0.0 && a > b
    ensures a * r > b * r
  {
    assert a * r - b * r == (a - b) * r;
  }

  lemma ScaleWeak(a: real, b: real, r: real)
    requires r > 0.0 && a <= b
    ensures a * r <= b * r
  {
    assert b * r - a * r == (b - a) * r;
  }

  /** Empty receives do not refresh `lastProcessedAt`, so a running consumer
      on an idle queue turns unhealthy five minutes after its last batch. */
  lemma IdleConsumerTurnsUnhealthy(c: Consumer, now: int, nowIso: string, later: int)
    requires c.isRunning && !c.isPaused && c.stats.lastProcessedAt.Some?
    requires later - c.stats.lastProcessedAt.value > STALE_AFTER_MS
    ensures var c1 := Iterate(c, Received([]), Inserted, now, nowIso).0;
      c1 == c && !IsHealthy(c1, later)
  {
  }
}

=== FILE: services_driver_consumer.dfy ===
/** The trip-offer consumer of the services driver service: for each message
    it checks the offer's age against a 15 s timeout, drops expired offers,
    and otherwise offers the trip to every driver near the pickup (with the
    time left to answer), broadcasts it to everyone, and deletes the message.
    A message whose processing throws stays in the queue. */
module ServicesDriverConsumer {
  import opened Wrappers
  import opened JsValues
  import opened TripOffer

  const OFFER_TIMEOUT_MS: int := 15000

  /** `{ ...body.data, timeoutMs, msg }`; `timeoutMs` is `None` when the
      envelope's time is invalid (the subtraction gives NaN). */
  datatype Offer = Offer(trip: TripPayload, timeoutMs: Option<int>, msg: string)

  /** An emit to one driver's room, or the broadcast to every socket. */
  datatype Emit = ToDriver(room: string, offer: Offer) | Broadcast(message: string, trip: TripPayload)

  /** What processing one message did: the radius query it issued, what it
      emitted, in order, and whether the message was deleted. */
  datatype Decision = Decision(query: Option<GeoQuery>, emits: seq<Emit>, deleted: bool)

  /** `now - jobCreatedTime`, NaN (`None`) when the time is invalid. */
  function Elapsed(timestamp: Option<int>, now: int): Option<int> {
    if timestamp.Some? then Some(now - timestamp.value) else None
  }

  /** `elapsedTime > OFFER_TIMEOUT_MS`; NaN compares false. */
  predicate Expired(elapsed: Option<int>) {
    elapsed.Some? && elapsed.value > OFFER_TIMEOUT_MS
  }

  /** One offer per id returned by the radius query, in the query's order. */
  function Offers(ids: seq<string>, trip: TripPayload, remaining: Option<int>): (es: seq<Emit>)
    ensures |es| == |ids|
    ensures forall i :: 0 <= i < |ids| ==> es[i] == ToDriver(DriverRoom(ids[i]), Offer(trip, remaining, "New trip nearby!"))
  {
    seq(|ids|, i requires 0 <= i < |ids| => ToDriver(DriverRoom(ids[i]), Offer(trip, remaining, "New trip nearby!")))
  }

  /** Processing one message. A parse failure, a missing `data` (its
      `tripId` or its destructuring throws) and a failing radius query all
      land in the catch: nothing more happens and the message stays. An
      expired offer is only deleted. A live one is offered to each nearby
      driver when both pickup coordinates are truthy, then broadcast, then
      deleted. */
  function Process(m: Delivery): (d: Decision)
    ensures d.deleted ==> m.deleteSucceeds && m.body.Parsed? && m.body.data.Some?
    ensures d.query.Some? ==> d.query.value.radiusKm == SEARCH_RADIUS_KM
    ensures d.query.Some? <==>
      m.body.Parsed? && m.body.data.Some? && !Expired(Elapsed(m.body.timestamp, m.now)) && HasPickup(m.body.data.value)
    ensures d.deleted && d.query.Some? ==> m.nearby.Some?
  {
    match m.body
    case Unparsable => Decision(None, [], false)
    case Parsed(data, timestamp) =>
      var elapsed := Elapsed(timestamp, m.now);
      if data.None? then Decision(None, [], false)
      else if Expired(elapsed) then Decision(None, [], m.deleteSucceeds)
      else
        var trip := data.value;
        var remaining := if elapsed.Some? then Some(OFFER_TIMEOUT_MS - elapsed.value) else None;
        var broadcast := Broadcast("New trip available!", trip);
        if HasPickup(trip) then
          var q := Some(GeoQuery(trip.pickupLat, trip.pickupLng, SEARCH_RADIUS_KM));
          match m.nearby
          case None => Decision(q, [], false)
          case Some(ids) => Decision(q, Offers(ids, trip, remaining) + [broadcast], m.deleteSucceeds)
        else Decision(None, [broadcast], m.deleteSucceeds)
  }

  /** An offer older than the timeout is dropped: no search, no emit, and it
      is deleted exactly when the delete call succeeds. */
  lemma ExpiredOfferDropped(m: Delivery)
    requires m.body.Parsed? && m.body.data.Some? && m.body.timestamp.Some?
    requires m.now - m.body.timestamp.value > OFFER_TIMEOUT_MS
    ensures Process(m) == Decision(None, [], m.deleteSucceeds)
  {
  }

  /** A live offer with a pickup, whose search answers `ids`: one offer to
      each driver room in the answer's order, then exactly one broadcast of
      the trip; every offer carries the time left, `15000 - elapsed`. No
      status filter applies to the ids. */
  lemma LiveOfferFanOut(m: Delivery, ids: seq<string>)
    requires m.body.Parsed? && m.body.data.Some? && m.body.timestamp.Some?
    requires m.now - m.body.timestamp.value <= OFFER_TIMEOUT_MS
    requires HasPickup(m.body.data.value) && m.nearby == Some(ids)
    ensures var d := Process(m);
      var remaining := OFFER_TIMEOUT_MS - (m.now - m.body.timestamp.value);
      && |d.emits| == |ids| + 1
      && (forall i :: 0 <= i < |ids| ==>
            d.emits[i] == ToDriver(DriverRoom(ids[i]), Offer(m.body.data.value, Some(remaining), "New trip nearby!")))
      && d.emits[|ids|] == Broadcast("New trip available!", m.body.data.value)
      && remaining >= 0
      && d.deleted == m.deleteSucceeds
  {
  }

  /** The timeout test is strict: an offer exactly 15000 ms old is still
      sent, with no time left. */
  lemma BoundaryOfferSent(m: Delivery, ids: seq<string>)
    requires m.body.Parsed? && m.body.data.Some? && m.body.timestamp.Some?
    requires m.now - m.body.timestamp.value == OFFER_TIMEOUT_MS
    requires HasPickup(m.body.data.value) && m.nearby == Some(ids) && |ids| > 0
    ensures Process(m).emits[0].ToDriver? && Process(m).emits[0].offer.timeoutMs == Some(0)
  {
    LiveOfferFanOut(m, ids);
  }

  /** Without both pickup coordinates no search runs and the only emit is the
      broadcast, whatever a search would have answered. */
  lemma NoPickupOnlyBroadcast(m: Delivery, other: Option<seq<string>>)
    requires m.body.Parsed? && m.body.data.Some? && !Expired(Elapsed(m.body.timestamp, m.now))
    requires !HasPickup(m.body.data.value)
    ensures Process(m) == Decision(None, [Broadcast("New trip available!", m.body.data.value)], m.deleteSucceeds)
    ensures Process(m) == Process(m.(nearby := other))
  {
  }

  /** Every live message that is processed to the end broadcasts exactly
      once, whether or not any driver was found. */
  lemma OneBroadcastPerLiveOffer(m: Delivery, i: int)
    requires m.body.Parsed? && m.body.data.Some? && !Expired(Elapsed(m.body.timestamp, m.now))
    requires !HasPickup(m.body.data.value) || m.nearby.Some?
    requires 0 <= i < |Process(m).emits|
    ensures Process(m).emits[i].Broadcast? <==> i == |Process(m).emits| - 1
  {
  }

  /** A message is deleted only after its processing ran to the end. */
  lemma DeletedOnlyAfterProcessing(m: Delivery)
    requires Process(m).deleted
    ensures m.body.Parsed? && m.body.data.Some?
    ensures Expired(Elapsed(m.body.timestamp, m.now)) || |Process(m).emits| > 0
  {
  }

  /** One poll: a failing receive backs off 5 s; otherwise each message is
      processed on its own, so one message's failure does not stop the rest. */
  datatype Cycle = Cycle(decisions: seq<Decision>, sleepMs: nat)

  /** The same loop as `ModulesDriverConsumer.Poll`; only the per-message
      `Process` differs, by its 15 s expiry check. */
  function Poll(r: Receive): (c: Cycle)
    ensures r.ReceiveFailed? ==> c == Cycle([], POLL_ERROR_BACKOFF_MS)
    ensures r.Received? ==> c.sleepMs == 0 && |c.decisions| == |r.messages|
    ensures r.Received? ==> forall i :: 0 <= i < |r.messages| ==> c.decisions[i] == Process(r.messages[i])
  {
    match r
    case ReceiveFailed => Cycle([], POLL_ERROR_BACKOFF_MS)
    case Received(ms) => Cycle(seq(|ms|, i requires 0 <= i < |ms| => Process(ms[i])), 0)
  }
}

=== FILE: services_location_buffer.dfy ===
/** The location write-coalescing buffer of the services driver service. It
    keeps the same map, counters and flush as the modules copy, but `add`
    takes one object carrying the driver id and turns away an update whose
    driver id is falsy. The flush is split as in the modules copy: the
    synchronous part, then the settling of `exec()`. */
module ServicesLocationBuffer {
  import opened Wrappers
  import OM = OrderedMap
  import GeoStore
  import opened BufferState
  import ModulesLocationBuffer

  /** The object handed to `add`: `{ driverId, lat, lng, heading, speed, accuracy, tripId }`. */
  datatype Data = Data(driverId: string, location: GeoStore.Location)

  datatype AddReply = AddReply(buffered: bool, coalesced: bool, bufferSize: nat)

  /** The buffer after `add`, its reply (`None` for the bare `return`), and
      the flush it started, if any. */
  datatype AddStep = AddStep(buffer: Buffer, reply: Option<AddReply>, flush: Option<InFlight>)

  datatype BeginStep = BeginStep(buffer: Buffer, flight: Option<InFlight>)

  datatype FinishStep = FinishStep(buffer: Buffer, reply: FlushReply)

  /** `flush()` up to its `await`: an empty buffer returns `{ flushed: 0 }`;
      otherwise the values are drained, the map is cleared before any write,
      and one location write group per drained entry is queued. */
  function BeginFlush(b: Buffer, now: int): (r: BeginStep)
    ensures r.buffer.stats == b.stats && r.buffer.config == b.config
    ensures |b.entries| == 0 <==> r.flight.None?
    ensures r.flight.None? ==> r.buffer == b
    ensures r.flight.Some? ==> |r.buffer.entries| == 0
    ensures r.flight.Some? ==>
      && |r.flight.value.drained| == |b.entries|
      && (forall i :: 0 <= i < |b.entries| ==> r.flight.value.drained[i] == b.entries[i].1)
    ensures r.flight.Some? ==> r.flight.value.commands == GeoStore.WritesOf(WritesFor(r.flight.value.drained))
  {
    var size := |b.entries|;
    if size == 0 then BeginStep(b, None)
    else
      var locations := OM.Values(b.entries);
      BeginStep(b.(entries := []), Some(InFlight(locations, GeoStore.WritesOf(WritesFor(locations)), now)))
  }

  /** `add(data)`: a falsy driver id is logged and nothing changes, not even
      a counter. Otherwise the update is counted, `{...data, timestamp: now}`
      becomes the driver's only entry, a coalescing is counted when one was
      pending, and reaching `flushThreshold` starts a flush. */
  function Add(b: Buffer, data: Data, now: int): (r: AddStep)
    ensures data.driverId == "" ==> r == AddStep(b, None, None)
    ensures data.driverId != "" ==>
      && r.reply.Some? && r.reply.value.buffered
      && (r.reply.value.coalesced <==> OM.Has(b.entries, data.driverId))
      && r.buffer.stats.totalReceived == b.stats.totalReceived + 1
      && r.buffer.stats.totalCoalesced == b.stats.totalCoalesced + (if r.reply.value.coalesced then 1 else 0)
      && r.reply.value.bufferSize == |r.buffer.entries|
  {
    var driverId := data.driverId;
    if driverId == "" then AddStep(b, None, None)
    else
      var existing := OM.Get(b.entries, driverId);
      var entries := OM.Set(b.entries, driverId, Entry(driverId, data.location, now));
      var stats := b.stats.(totalReceived := b.stats.totalReceived + 1,
                            totalCoalesced := b.stats.totalCoalesced + (if existing.Some? then 1 else 0));
      var b1 := b.(entries := entries, stats := stats);
      var f := if |entries| >= b.config.flushThreshold then BeginFlush(b1, now) else BeginStep(b1, None);
      AddStep(f.buffer, Some(AddReply(true, existing.Some?, |f.buffer.entries|)), f.flight)
  }

  /** The two copies agree wherever the services copy accepts the update:
      same map, counters, reply and flush. */
  lemma AddAgreesWithModules(b: Buffer, data: Data, now: int)
    requires data.driverId != ""
    ensures var r := Add(b, data, now);
      var m := ModulesLocationBuffer.Add(b, data.driverId, data.location, now);
      && r.buffer == m.buffer && r.flush == m.flush
      && r.reply == Some(AddReply(m.reply.buffered, m.reply.coalesced, m.reply.bufferSize))
  {
  }

  /** After an accepted `add` the driver's one pending entry is the new data
      with the current time, every other driver's entry is as it was, and a
      flush started exactly when the threshold was reached. */
  lemma AddEffect(b: Buffer, data: Data, now: int)
    requires Inv(b) && data.driverId != ""
    ensures var r := Add(b, data, now);
      var pending := if r.flush.Some? then PairsOf(r.flush.value.drained) else r.buffer.entries;
      && Inv(r.buffer)
      && OM.Get(pending, data.driverId) == Some(Entry(data.driverId, data.location, now))
      && (forall k :: k != data.driverId ==> OM.Get(pending, k) == OM.Get(b.entries, k))
      && (r.flush.Some? <==> |pending| >= b.config.flushThreshold)
  {
    AddAgreesWithModules(b, data, now);
    ModulesLocationBuffer.AddEffect(b, data.driverId, data.location, now);
  }

  /** When `exec()` settles: on success the counters take the drained count
      and the time; on failure every drained entry is set back by driver id,
      clobbering newer ones, and the error is rethrown. */
  function FinishFlush(b: Buffer, f: InFlight, execSucceeded: bool, now: int): (r: FinishStep)
    ensures execSucceeded ==> r.reply == Flushed(|f.drained|, now - f.startTime) && r.buffer.entries == b.entries
    ensures execSucceeded ==>
      && r.buffer.stats.totalFlushed == b.stats.totalFlushed + |f.drained|
      && r.buffer.stats.flushCount == b.stats.flushCount + 1
    ensures !execSucceeded ==> r.reply == Rethrown && r.buffer.stats == b.stats
  {
    if execSucceeded then
      var stats := b.stats.(totalFlushed := b.stats.totalFlushed + |f.drained|,
                            flushCount := b.stats.flushCount + 1,
                            lastFlushTime := now,
                            lastFlushDuration := Some(now - f.startTime));
      FinishStep(b.(stats := stats), Flushed(|f.drained|, now - f.startTime))
    else
      FinishStep(b.(entries := OM.SetAll(b.entries, PairsOf(f.drained))), Rethrown)
  }

  /** The flush of the two copies is the same step. */
  lemma FlushAgreesWithModules(b: Buffer, f: InFlight, ok: bool, now: int)
    ensures BeginFlush(b, now).buffer == ModulesLocationBuffer.BeginFlush(b, now).buffer
    ensures BeginFlush(b, now).flight == ModulesLocationBuffer.BeginFlush(b, now).flight
    ensures FinishFlush(b, f, ok, now).buffer == ModulesLocationBuffer.FinishFlush(b, f, ok, now).buffer
    ensures FinishFlush(b, f, ok, now).reply == ModulesLocationBuffer.FinishFlush(b, f, ok, now).reply
  {
  }

  /** A failed write sets every drained entry back under its driver, over any
      newer one; other drivers keep their pending entry. */
  lemma FailedFlushRestores(b: Buffer, f: InFlight, now: int, k: string)
    requires Inv(b) && OM.Valid(PairsOf(f.drained))
    ensures var r := FinishFlush(b, f, false, now);
      && Inv(r.buffer)
      && (OM.Has(PairsOf(f.drained), k) ==> OM.Get(r.buffer.entries, k) == OM.Get(PairsOf(f.drained), k))
      && (!OM.Has(PairsOf(f.drained), k) ==> OM.Get(r.buffer.entries, k) == OM.Get(b.entries, k))
  {
    FlushAgreesWithModules(b, f, false, now);
    ModulesLocationBuffer.FailedFlushRestores(b, f, now, k);
  }

  /** `shutdown()`: the timer is cleared, and a flush is started exactly when
      the buffer is non-empty. */
  function Shutdown(b: Buffer, now: int): (r: BeginStep)
    ensures !r.buffer.timerActive
    ensures r.flight.Some? <==> |b.entries| > 0
    ensures r.flight.Some? ==> |r.flight.value.drained| == |b.entries| && |r.buffer.entries| == 0
    ensures r.flight.None? ==> r.buffer.entries == b.entries
    ensures r.buffer.stats == b.stats
  {
    var b1 := b.(timerActive := false);
    if |b1.entries| > 0 then BeginFlush(b1, now) else BeginStep(b1, None)
  }

  /** What `getStats()` reports besides the percentage string: the average
      flush size is 0 before the first successful flush, else the rounded mean. */
  function GetStats(b: Buffer): (r: (Stats, nat, nat))
    ensures r.0 == b.stats && r.1 == |b.entries|
    ensures b.stats.flushCount == 0 ==> r.2 == 0
    ensures b.stats.flushCount > 0 ==>
      2 * b.stats.flushCount * r.2 <= 2 * b.stats.totalFlushed + b.stats.flushCount
      < 2 * b.stats.flushCount * (r.2 + 1)
  {
    (b.stats, |b.entries|, AvgFlushSize(b.stats))
  }
}

=== FILE: services_sqs_client.dfy ===
/** The services trip service's queue client setup: whether the endpoint is
    LocalStack, which credentials the client gets, and how the queue URL is
    chosen. */
module ServicesSqsClient {
  import opened Wrappers
  import opened Text
  import opened JsValues
  import ModulesTripSqs

  const DEFAULT_ENDPOINT: string := "http://localstack:4566"
  const DEFAULT_QUEUE_NAME: string := "trip-events"

  /** `SQS_ENDPOINT`, `SQS_QUEUE_URL`, `AWS_ACCOUNT_ID`, `SQS_TRIP_QUEUE_NAME`. */
  datatype Env = Env(sqsEndpoint: Option<string>, sqsQueueUrl: Option<string>,
                     accountId: Option<string>, queueName: Option<string>)

  function Endpoint(env: Env): string {
    EnvOr(env.sqsEndpoint, DEFAULT_ENDPOINT)
  }

  function QueueName(env: Env): string {
    EnvOr(env.queueName, DEFAULT_QUEUE_NAME)
  }

  /** `isLocal`: the endpoint mentions `localstack`. */
  predicate IsLocal(env: Env) {
    Contains(Endpoint(env), "localstack")
  }

  /** The client's endpoint, and whether the fixed test credentials are set. */
  datatype ClientConfig = ClientConfig(endpoint: string, testCredentials: bool)

  function ClientConfigOf(env: Env): (c: ClientConfig)
    ensures c.endpoint == Endpoint(env)
    ensures c.testCredentials <==> IsLocal(env)
  {
    ClientConfig(Endpoint(env), IsLocal(env))
  }

  /** An environment variable that is set and non-empty, so truthy. */
  predicate Given(v: Option<string>) {
    v.Some? && v.value != ""
  }

  /** `getQueueUrl()`, in four cases tried in order. */
  function QueueUrl(env: Env): (url: string)
    ensures IsLocal(env) ==>
      url == StripTrailingSlash(ReplaceFirst(Endpoint(env), "localhost", "localstack"))
             + ModulesTripSqs.ACCOUNT_PATH + QueueName(env)
    ensures !IsLocal(env) && Given(env.sqsQueueUrl) ==> url == env.sqsQueueUrl.value
    ensures !IsLocal(env) && !Given(env.sqsQueueUrl) && Given(env.accountId) ==>
      url == Endpoint(env) + "/" + env.accountId.value + "/" + QueueName(env)
    ensures !IsLocal(env) && !Given(env.sqsQueueUrl) && !Given(env.accountId) ==> url == Endpoint(env)
  {
    var endpoint := Endpoint(env);
    if IsLocal(env) then
      StripTrailingSlash(ReplaceFirst(endpoint, "localhost", "localstack")) + ModulesTripSqs.ACCOUNT_PATH + QueueName(env)
    else if Given(env.sqsQueueUrl) then env.sqsQueueUrl.value
    else if Given(env.accountId) then endpoint + "/" + env.accountId.value + "/" + QueueName(env)
    else endpoint
  }

  /** In local mode an explicit `SQS_QUEUE_URL` is ignored. */
  lemma LocalIgnoresQueueUrl(env: Env, u: Option<string>)
    requires IsLocal(env)
    ensures QueueUrl(env.(sqsQueueUrl := u)) == QueueUrl(env)
  {
  }

  /** The default endpoint is LocalStack's. */
  lemma DefaultIsLocal()
    ensures IsLocal(Env(None, None, None, None))
    ensures ClientConfigOf(Env(None, None, None, None)).testCredentials
  {
    assert MatchAt(DEFAULT_ENDPOINT, "localstack", 7);
  }

  /** For a LocalStack endpoint without `localhost`, this client and the
      modules queue helper build the same URL, although they rewrite hosts in
      opposite directions. */
  lemma AgreesWithModulesHelper(env: Env)
    requires IsLocal(env) && !Contains(Endpoint(env), "localhost")
    ensures QueueUrl(env) == ModulesTripSqs.QueueUrl(ModulesTripSqs.Env(env.sqsEndpoint, env.queueName))
  {
  }
}

=== FILE: services_trip_controller.dfy ===
/** The services trip controller: creation through the outbox transaction
    plus a direct queue push, and the status handlers with their ownership
    checks. The caller's id is `req.headers["x-user-id"] || req.user?.id`.
    Path ids are taken as already-parsed trip ids. */
module ServicesTripController {
  import opened Wrappers
  import opened JsValues
  import opened TripOffer
  import opened TripModel
  import opened TripRequests
  import ModulesTripSqs
  import ServicesTripSqs

  /** The caller as the request carries it: the `x-user-id` header and the
      id the auth middleware put on `req.user`, each `undefined` when absent. */
  datatype Caller = Caller(header: JsVal, user: JsVal)

  function CallerId(c: Caller): JsVal {
    Or(c.header, c.user)
  }

  /** `req.body` of a creation. */
  datatype CreateRequest = CreateRequest(pickup: JsVal, destination: JsVal, pickupLat: JsVal, pickupLng: JsVal)

  /** The database after creation, the HTTP status, the trip created, and
      the direct push made. */
  datatype CreateStep = CreateStep(db: Db, code: int, trip: Option<Trip>, push: Option<ModulesTripSqs.Push>)

  /** The offer the handler pushes itself, built from the `RETURNING *` row:
      its fare is the column's text. */
  function DirectPayload(t: Trip, req: CreateRequest): TripPayload {
    TripPayload(t.id, Str(t.pickup), Str(t.destination), Str(FareText(t.fare)), Num(t.passengerId), req.pickupLat, req.pickupLng)
  }

  /** `createTripHandler`: 400 without pickup or destination, or without a
      caller id; otherwise the outbox transaction (a failure is a 500), then
      a direct push of the offer, whose failure is also a 500 although the
      trip is already committed. */
  function CreateTrip(db: Db, req: CreateRequest, caller: Caller, failAt: Option<TxStep>,
                      sqsQueueUrl: Option<string>, now: int, sent: Option<SendResult>): (r: CreateStep)
    ensures !Truthy(req.pickup) || !Truthy(req.destination) || !Truthy(CallerId(caller)) ==> r == CreateStep(db, 400, None, None)
    ensures r.code == 201 ==> r.trip.Some? && r.push.Some? && sent.Some?
    ensures r.code == 201 || r.code == 400 || r.code == 500
    ensures r.push.Some? ==> r.trip.Some? && r.push.value.attempt.body.data == DirectPayload(r.trip.value, req)
  {
    if !Truthy(req.pickup) || !Truthy(req.destination) then CreateStep(db, 400, None, None)
    else
      var passengerId := CallerId(caller);
      if !Truthy(passengerId) then CreateStep(db, 400, None, None)
      else
        var tx := CreateTripWithOutbox(db, TripData(passengerId, req.pickup, req.destination, FARE, SEARCHING,
                                                    req.pickupLat, req.pickupLng), failAt);
        if tx.outcome.Thrown? then CreateStep(tx.db, 500, None, None)
        else
          var trip := tx.outcome.value;
          var push := ServicesTripSqs.PushTripOfferJob(sqsQueueUrl, DirectPayload(trip, req), now, sent);
          CreateStep(tx.db, if push.reply.Threw? then 500 else 201, Some(trip), Some(push))
  }

  /** A successful creation publishes the offer twice: the committed outbox
      row (for the outbox worker) and the direct push. The two payloads agree
      on the trip and coordinates; the passenger id is the caller's value in
      one and the stored number in the other, loosely equal; the fare is the
      number 50000 in the outbox row but the column text "50000.00" in the
      direct push, so the two offers are not the same object. */
  lemma CreatePublishesTwice(db: Db, req: CreateRequest, caller: Caller, sqsQueueUrl: Option<string>, now: int, sent: Option<SendResult>)
    requires Inv(db)
    requires CreateTrip(db, req, caller, None, sqsQueueUrl, now, sent).code == 201
    ensures var r := CreateTrip(db, req, caller, None, sqsQueueUrl, now, sent);
      var row := r.db.outbox[|r.db.outbox| - 1];
      var direct := r.push.value.attempt.body.data;
      && |r.db.outbox| == |db.outbox| + 1
      && row.eventType == TRIP_OFFER && row.status == "PENDING"
      && row.payload.tripId == direct.tripId == r.trip.value.id
      && row.payload.fare == Num(FARE) && direct.fare == Str("50000.00")
      && row.payload != direct
      && row.payload.pickupLat == direct.pickupLat && row.payload.pickupLng == direct.pickupLng
      && LooseEq(row.payload.passengerId, direct.passengerId)
      && r.trip.value.status == SEARCHING
  {
    var data := TripData(CallerId(caller), req.pickup, req.destination, FARE, SEARCHING, req.pickupLat, req.pickupLng);
    CreateCommitsBoth(db, data);
    FareTextOfWholeAmount();
  }

  /** When the direct push fails the client gets a 500, yet the trip and its
      outbox row are committed. */
  lemma CreatePushFailureStillCommits(db: Db, req: CreateRequest, caller: Caller, sqsQueueUrl: Option<string>, now: int)
    requires Inv(db)
    requires Truthy(req.pickup) && Truthy(req.destination) && Truthy(CallerId(caller))
    requires Insertable(TripData(CallerId(caller), req.pickup, req.destination, FARE, SEARCHING, req.pickupLat, req.pickupLng))
    ensures var r := CreateTrip(db, req, caller, None, sqsQueueUrl, now, None);
      && r.code == 500
      && |r.db.trips| == |db.trips| + 1
      && |r.db.outbox| == |db.outbox| + 1
  {
    var data := TripData(CallerId(caller), req.pickup, req.destination, FARE, SEARCHING, req.pickupLat, req.pickupLng);
    CreateCommitsBoth(db, data);
  }

  /** The status handlers. */
  datatype Op =
    | Cancel(id: nat, caller: Caller)
    | Complete(id: nat, caller: Caller)
    | Review(id: nat, caller: Caller, rating: JsVal, comment: JsVal)
    | Accept(id: nat, driverId: JsVal)
    | Reject(id: nat, driverId: JsVal)

  /** `cancelTripHandler`: 404 for a missing trip; 403 when a caller id is
      given and differs, as a string, from the passenger; 400 only for a
      completed trip; anything else becomes canceled. */
  function CancelTrip(db: Db, id: nat, caller: Caller): (r: Step)
    ensures id !in db.trips ==> r == Step(db, Reply(404, None))
    ensures r.reply.code == 200 <==>
      id in db.trips && db.trips[id].status != COMPLETED
      && (!Truthy(CallerId(caller)) || StringEq(Num(db.trips[id].passengerId), CallerId(caller)))
    ensures r.reply.code == 200 ==> r.db == UpdateTripStatus(db, id, CANCELED).0
    ensures r.reply.code != 200 ==> r.db == db
  {
    match GetTripById(db, id)
    case None => Step(db, Reply(404, None))
    case Some(trip) =>
      var userId := CallerId(caller);
      if Truthy(userId) && !StringEq(Num(trip.passengerId), userId) then Step(db, Reply(403, None))
      else if trip.status == COMPLETED then Step(db, Reply(400, None))
      else
        var u := UpdateTripStatus(db, id, CANCELED);
        Step(u.0, Reply(200, u.1))
  }

  /** `completeTripHandler`: 404 for a missing trip; 403 unless a caller id
      is given and equals the assigned driver as a string, checked before the
      status; then only an accepted or in-progress trip becomes completed. */
  function CompleteTrip(db: Db, id: nat, caller: Caller): (r: Step)
    ensures id !in db.trips ==> r == Step(db, Reply(404, None))
    ensures id in db.trips && (!Truthy(CallerId(caller)) || !StringEq(DriverVal(db.trips[id].driverId), CallerId(caller))) ==>
      r == Step(db, Reply(403, None))
    ensures r.reply.code == 200 <==>
      id in db.trips && Truthy(CallerId(caller)) && StringEq(DriverVal(db.trips[id].driverId), CallerId(caller))
      && (db.trips[id].status == ACCEPTED || db.trips[id].status == IN_PROGRESS)
    ensures r.reply.code == 200 ==> r.db == UpdateTripStatus(db, id, COMPLETED).0
    ensures r.reply.code != 200 ==> r.db == db
  {
    var requesterId := CallerId(caller);
    match GetTripById(db, id)
    case None => Step(db, Reply(404, None))
    case Some(trip) =>
      if !Truthy(requesterId) || !StringEq(DriverVal(trip.driverId), requesterId) then Step(db, Reply(403, None))
      else if trip.status != ACCEPTED && trip.status != IN_PROGRESS then Step(db, Reply(400, None))
      else
        var u := UpdateTripStatus(db, id, COMPLETED);
        Step(u.0, Reply(200, u.1))
  }

  /** `reviewTripHandler`: the rating guard (400) runs before the lookup
      (404); then the trip must be completed, in either case spelling (400),
      and the caller must be its passenger as a string (403). The stored
      review can still fail in the database (500). */
  function ReviewTrip(db: Db, id: nat, caller: Caller, rating: JsVal, comment: JsVal): (r: Step)
    ensures RatingRefused(rating) ==> r == Step(db, Reply(400, None))
    ensures !RatingRefused(rating) && id !in db.trips ==> r == Step(db, Reply(404, None))
    ensures r.reply.code == 201 ==>
      && id in db.trips
      && (db.trips[id].status == "completed" || db.trips[id].status == "COMPLETED")
      && StringEq(Num(db.trips[id].passengerId), CallerId(caller))
    ensures r.reply.code != 201 ==> r.db == db
    ensures r.db.outbox == db.outbox
  {
    if RatingRefused(rating) then Step(db, Reply(400, None))
    else
      match GetTripById(db, id)
      case None => Step(db, Reply(404, None))
      case Some(trip) =>
        if trip.status != "completed" && trip.status != "COMPLETED" then Step(db, Reply(400, None))
        else if !StringEq(Num(trip.passengerId), CallerId(caller)) then Step(db, Reply(403, None))
        else
          var u := UpdateTripReview(db, trip.id, rating, ToStr(Or(comment, Str(""))));
          if u.1.Thrown? then Step(db, Reply(500, None)) else Step(u.0, Reply(201, u.1.value))
  }

  /** `acceptTripHandler`: 404 for a missing trip; 400 unless it is
      searching; then the driver is assigned and the status set to accepted.
      A driver id the database cannot store is a 500. The handler is line
      for line the one `ModulesTripController.AcceptTrip` models. */
  function AcceptTrip(db: Db, id: nat, driverId: JsVal): (r: Step)
    ensures id !in db.trips ==> r == Step(db, Reply(404, None))
    ensures id in db.trips && db.trips[id].status != SEARCHING ==> r == Step(db, Reply(400, None))
    ensures r.reply.code == 200 ==>
      && id in db.trips && db.trips[id].status == SEARCHING
      && r.db == AssignDriver(db, id, driverId).0
      && id in r.db.trips && r.db.trips[id].status == ACCEPTED
    ensures r.reply.code != 200 ==> r.db == db
  {
    match GetTripById(db, id)
    case None => Step(db, Reply(404, None))
    case Some(trip) =>
      if trip.status != SEARCHING then Step(db, Reply(400, None))
      else
        var a := AssignDriver(db, id, driverId);
        if a.1.Thrown? then Step(db, Reply(500, None))
        else
          AssignThenAcceptIsAssign(db, id, driverId);
          var u := UpdateTripStatus(a.0, id, ACCEPTED);
          Step(u.0, Reply(200, a.1.value))
  }

  /** `rejectTripHandler`: 404, 400 unless searching, else a 200 that
      changes nothing. The handler is line for line the one
      `ModulesTripController.RejectTrip` models. */
  function RejectTrip(db: Db, id: nat): (r: Step)
    ensures r.db == db
    ensures r.reply.code == 200 <==> id in db.trips && db.trips[id].status == SEARCHING
  {
    match GetTripById(db, id)
    case None => Step(db, Reply(404, None))
    case Some(trip) =>
      if trip.status != SEARCHING then Step(db, Reply(400, None)) else Step(db, Reply(200, None))
  }

  function Handle(db: Db, op: Op): Step {
    match op
    case Cancel(id, caller) => CancelTrip(db, id, caller)
    case Complete(id, caller) => CompleteTrip(db, id, caller)
    case Review(id, caller, rating, comment) => ReviewTrip(db, id, caller, rating, comment)
    case Accept(id, driverId) => AcceptTrip(db, id, driverId)
    case Reject(id, _) => RejectTrip(db, id)
  }

  /** No handler removes a trip, and every status change is an allowed move:
      accept only from searching, cancel never from completed, complete only
      from accepted or in progress. */
  lemma HandlersMoveLegally(db: Db, op: Op)
    ensures StatusesMoveLegally(db, Handle(db, op).db)
  {
    match op
    case Review(id, caller, rating, comment) =>
      var r := Handle(db, op);
      if r.reply.code == 201 {
        var trip := db.trips[id];
        var u := UpdateTripReview(db, trip.id, rating, ToStr(Or(comment, Str(""))));
        assert r.db == u.0;
      }
    case _ =>
  }

  /** The services review compares ids as strings, so a header id that is the
      passenger's number in text passes the ownership check. */
  lemma ReviewAcceptsTextualId(db: Db, id: nat, rating: int)
    requires id in db.trips && db.trips[id].status == COMPLETED && db.trips[id].passengerId >= 0
    requires 1 <= rating <= 5
    ensures var caller := Caller(Str(Text.NatToString(db.trips[id].passengerId)), Undefined);
      ReviewTrip(db, id, caller, Num(rating), Undefined).reply.code == 201
  {
    JsValues.NumberAndItsText(db.trips[id].passengerId);
    assert Text.NatToString(db.trips[id].passengerId) != "";
  }
}

=== FILE: services_trip_sqs.dfy ===
/** The services trip service's queue helper: a fixed queue URL, the same
    offer envelope as the modules copy, and a send failure rethrown to the
    caller. */
module ServicesTripSqs {
  import opened Wrappers
  import opened JsValues
  import opened TripOffer
  import ModulesTripSqs
  import Consumer = ServicesDriverConsumer

  const DEFAULT_QUEUE_URL: string := "http://localstack:4566/000000000000/trip-events"

  /** `QUEUE_URL`: `SQS_QUEUE_URL` when set and non-empty, else the default. */
  function QueueUrl(sqsQueueUrl: Option<string>): (url: string)
    ensures sqsQueueUrl.Some? && sqsQueueUrl.value != "" ==> url == sqsQueueUrl.value
    ensures sqsQueueUrl.None? || sqsQueueUrl == Some("") ==> url == DEFAULT_QUEUE_URL
  {
    EnvOr(sqsQueueUrl, DEFAULT_QUEUE_URL)
  }

  /** Unconfigured, both copies send to the same queue. */
  lemma DefaultsAgreeWithModules()
    ensures QueueUrl(None) == ModulesTripSqs.QueueUrl(ModulesTripSqs.Env(None, None))
  {
    ModulesTripSqs.DefaultQueueUrl();
  }

  /** `pushTripOfferJob(tripData)`: the envelope `{ type: "TRIP_OFFER", data,
      timestamp: now }` goes to `QUEUE_URL`; the send result is returned and a
      failed send is rethrown. */
  function PushTripOfferJob(sqsQueueUrl: Option<string>, data: TripPayload, now: int, sent: Option<SendResult>): (p: ModulesTripSqs.Push)
    ensures sent.None? <==> p.reply.Threw?
    ensures sent.Some? ==> p.reply == Returned(sent)
    ensures p.attempt.body.msgType == TRIP_OFFER && p.attempt.body.data == data && p.attempt.body.timestamp == now
    ensures p.attempt.queueUrl == QueueUrl(sqsQueueUrl)
  {
    var attempt := ModulesTripSqs.Attempt(QueueUrl(sqsQueueUrl), OfferEnvelope(data, now));
    if sent.Some? then ModulesTripSqs.Push(attempt, Returned(sent)) else ModulesTripSqs.Push(attempt, Threw)
  }

  /** The two copies send the same message; they differ only in what a
      failed send does. */
  lemma SameMessageAsModules(data: TripPayload, now: int, sent: Option<SendResult>)
    ensures PushTripOfferJob(None, data, now, sent).attempt
         == ModulesTripSqs.PushTripOfferJob(ModulesTripSqs.Env(None, None), data, now, sent).attempt
    ensures sent.None? ==>
      && PushTripOfferJob(None, data, now, sent).reply == Threw
      && ModulesTripSqs.PushTripOfferJob(ModulesTripSqs.Env(None, None), data, now, sent).reply == Returned(None)
  {
    DefaultsAgreeWithModules();
  }

  /** The consumer reads back exactly what was sent: an offer pushed at
      `sentAt` and handled at `now`, within the timeout, reaches each driver
      the search finds with the pushed trip and `15000 - (now - sentAt)` ms
      left. */
  lemma ConsumerReadsEnvelope(data: TripPayload, sentAt: int, now: int, ids: seq<string>, deleteOk: bool)
    requires HasPickup(data) && now - sentAt <= Consumer.OFFER_TIMEOUT_MS
    ensures var env := PushTripOfferJob(None, data, sentAt, Some(SendResult("m"))).attempt.body;
      var d := Consumer.Process(Delivery(Decode(env), now, Some(ids), deleteOk));
      && |d.emits| == |ids| + 1
      && (forall i :: 0 <= i < |ids| ==>
            d.emits[i].ToDriver? && d.emits[i].offer.trip == data
            && d.emits[i].offer.timeoutMs == Some(Consumer.OFFER_TIMEOUT_MS - (now - sentAt)))
  {
    var env := PushTripOfferJob(None, data, sentAt, Some(SendResult("m"))).attempt.body;
    Consumer.LiveOfferFanOut(Delivery(Decode(env), now, Some(ids), deleteOk), ids);
  }
}

=== FILE: sql_batch.dfy ===
/** The multi-row `INSERT ... VALUES ($1, ..., $w), ($w+1, ...), ...` that
    the location-history writers build: one placeholder tuple per row with a
    running parameter number, and one flat list of values in the same order. */
module SqlBatch {
  import opened Wrappers

  /** A value handed to the database driver. `Float` and `Int` stand for
      what `parseFloat` and `parseInt` read from the given value, NaN when
      `None`. */
  datatype SqlVal = SqlNull | Int(n: Option<int>) | Float(x: Option<int>) | SqlText(s: string) | DateOf(ms: Option<int>)

  /** The parameter numbers of row `i` when every row has `width` columns:
      `$(i*width+1)` to `$(i*width+width)`. */
  function RowParams(i: nat, width: nat): (ps: seq<nat>)
    ensures |ps| == width
    ensures forall k :: 0 <= k < width ==> ps[k] == i * width + k + 1
  {
    seq(width, (k: int) requires 0 <= k => i * width + k + 1)
  }

  /** The placeholder tuples of `n` rows. */
  function Params(n: nat, width: nat): (ps: seq<seq<nat>>)
    ensures |ps| == n
    ensures forall i :: 0 <= i < n ==> ps[i] == RowParams(i, width)
  {
    seq(n, (i: int) requires 0 <= i => RowParams(i, width))
  }

  /** The rows' values one after the other. */
  function Flatten<V>(rows: seq<seq<V>>): seq<V>
    decreases |rows|
  {
    if |rows| == 0 then [] else rows[0] + Flatten(rows[1..])
  }

  lemma {:induction false} FlattenAppend<V>(rows: seq<seq<V>>, row: seq<V>)
    ensures Flatten(rows + [row]) == Flatten(rows) + row
    decreases |rows|
  {
    if |rows| == 0 {
      assert rows + [row] == [row];
    } else {
      assert (rows + [row])[1..] == rows[1..] + [row];
      FlattenAppend(rows[1..], row);
    }
  }

  predicate Uniform<V>(rows: seq<seq<V>>, width: nat) {
    forall i :: 0 <= i < |rows| ==> |rows[i]| == width
  }

  lemma {:induction false} FlattenLength<V>(rows: seq<seq<V>>, width: nat)
    requires Uniform(rows, width)
    ensures |Flatten(rows)| == |rows| * width
    decreases |rows|
  {
    if |rows| > 0 {
      FlattenLength(rows[1..], width);
    }
  }

  /** Column `k` of row `i` sits at position `i*width+k` of the flat list. */
  lemma {:induction false} FlattenAt<V>(rows: seq<seq<V>>, width: nat, i: nat, k: nat)
    requires Uniform(rows, width)
    requires i < |rows| && k < width
    ensures i * width + k < |Flatten(rows)|
    ensures Flatten(rows)[i * width + k] == rows[i][k]
    decreases i
  {
    FlattenLength(rows, width);
    if i > 0 {
      FlattenAt(rows[1..], width, i - 1, k);
      assert (i - 1) * width + k + width == i * width + k;
    }
  }

  /** Every placeholder names the value of its own row and column: parameter
      `$p` is the `p`-th value, numbering from one. */
  lemma ParamsMatchValues<V>(rows: seq<seq<V>>, width: nat, i: nat, k: nat)
    requires Uniform(rows, width)
    requires i < |rows| && k < width
    ensures 1 <= Params(|rows|, width)[i][k] <= |Flatten(rows)|
    ensures Flatten(rows)[Params(|rows|, width)[i][k] - 1] == rows[i][k]
  {
    FlattenAt(rows, width, i, k);
  }

  /** The parameter numbers run `$1..$(n*width)` without gap or repeat. */
  lemma ParamsConsecutive(n: nat, width: nat)
    ensures Flatten(Params(n, width)) == seq(n * width, p => p + 1)
  {
    var ps := Params(n, width);
    assert Uniform(ps, width);
    FlattenLength(ps, width);
    forall p | 0 <= p < n * width
      ensures Flatten(ps)[p] == p + 1
    {
      var i := p / width;
      var k := p % width;
      assert i * width + k == p;
      LessFromProduct(i, n, width, k, p);
      FlattenAt(ps, width, i, k);
    }
  }

  lemma LessFromProduct(i: nat, n: nat, width: nat, k: nat, p: nat)
    requires i * width + k == p && p < n * width
    ensures i < n
  {
    if n <= i {
      MulMonotone(n, i, width);
    }
  }

  lemma MulMonotone(a: nat, b: nat, c: nat)
    requires a <= b
    ensures a * c <= b * c
  {
  }

  /** One more row adds its tuple at the end. */
  lemma ParamsSnoc(n: nat, width: nat)
    ensures Params(n + 1, width) == Params(n, width) + [RowParams(n, width)]
  {
  }

  lemma MulStep(i: nat, width: nat)
    ensures (i + 1) * width == i * width + width
  {
  }

  /** The loop both writers run: `paramIndex` starts at 1, each row pushes a
      tuple of the next `width` numbers and its values. */
  method BuildInsert<V>(rows: seq<seq<V>>, width: nat) returns (placeholders: seq<seq<nat>>, values: seq<V>)
    requires Uniform(rows, width)
    ensures placeholders == Params(|rows|, width)
    ensures values == Flatten(rows)
    ensures |values| == |rows| * width
  {
    placeholders := [];
    values := [];
    var paramIndex := 1;
    var idx := 0;
    while idx < |rows|
      invariant 0 <= idx <= |rows|
      invariant paramIndex == idx * width + 1
      invariant placeholders == Params(idx, width)
      invariant values == Flatten(rows[..idx])
    {
      var tuple := seq(width, k => paramIndex + k);
      assert tuple == RowParams(idx, width);
      ParamsSnoc(idx, width);
      placeholders := placeholders + [tuple];
      FlattenAppend(rows[..idx], rows[idx]);
      assert rows[..idx + 1] == rows[..idx] + [rows[idx]];
      values := values + rows[idx];
      MulStep(idx, width);
      paramIndex := paramIndex + width;
      idx := idx + 1;
    }
    assert rows[..idx] == rows;
    FlattenLength(rows, width);
  }
}

=== FILE: sqs_location_client.dfy ===
/** The modules driver service's queue publisher for locations: single
    updates to the FIFO location queue, batches of up to ten to the history
    queue, and one delayed history message per location. The queue's answer
    to each send is a parameter; `iso` stands for `new Date().toISOString()`
    and `nowMs` for `Date.now()`. */
module SqsLocationClient {
  import opened Wrappers
  import opened Text
  import opened JsValues
  import opened SqlBatch
  import History = LocationHistoryHandler

  /** SQS takes at most ten entries per batch request. */
  const CHUNK: nat := 10
  /** History messages wait five seconds so the consumer sees larger batches. */
  const HISTORY_DELAY_SECONDS: nat := 5

  /** `if (!URL)`: an unset or empty queue URL disables publishing. */
  predicate Configured(url: Option<string>) {
    url.Some? && url.value != ""
  }

  // ---------------------------------------------------------------------------
  // Chunking
  // ---------------------------------------------------------------------------

  /** `locations.slice(i, i + 10)` for `i = 0, 10, 20, ...`: the chunks
      concatenate back to the input, none is empty, and all but the last hold
      exactly ten. */
  function Chunks<T>(xs: seq<T>): (cs: seq<seq<T>>)
    ensures Flatten(cs) == xs
    ensures forall i :: 0 <= i < |cs| ==> 1 <= |cs[i]| <= CHUNK
    ensures forall i :: 0 <= i < |cs| - 1 ==> |cs[i]| == CHUNK
    decreases |xs|
  {
    if |xs| == 0 then []
    else if |xs| <= CHUNK then
      assert [xs][1..] == [];
      [xs]
    else
      var rest := Chunks(xs[CHUNK..]);
      var cs := [xs[..CHUNK]] + rest;
      assert cs[1..] == rest;
      assert xs[..CHUNK] + xs[CHUNK..] == xs;
      cs
  }

  /** A list longer than one chunk: its first ten, then the chunks of the rest. */
  lemma ChunksSplit<T>(xs: seq<T>)
    requires |xs| > CHUNK
    ensures Chunks(xs) == [xs[..CHUNK]] + Chunks(xs[CHUNK..])
  {
  }

  /** Entry `r` of chunk `c` is location `10c + r`. */
  lemma {:induction false} ChunkAt<T>(xs: seq<T>, c: nat, r: nat)
    requires r < CHUNK && c * CHUNK + r < |xs|
    ensures c < |Chunks(xs)| && r < |Chunks(xs)[c]|
    ensures Chunks(xs)[c][r] == xs[c * CHUNK + r]
    decreases c
  {
    if c > 0 {
      ChunkAt(xs[CHUNK..], c - 1, r);
      LaterChunk(xs, c, r);
    } else {
      FirstChunk(xs);
    }
  }

  /** Chunk `c > 0` of a list is chunk `c - 1` of what follows its first ten. */
  lemma LaterChunk<T>(xs: seq<T>, c: nat, r: nat)
    requires 0 < c && r < CHUNK && c * CHUNK + r < |xs|
    requires var cr := Chunks(xs[CHUNK..]);
      c - 1 < |cr| && r < |cr[c - 1]| && cr[c - 1][r] == xs[CHUNK..][(c - 1) * CHUNK + r]
    ensures c < |Chunks(xs)| && r < |Chunks(xs)[c]|
    ensures Chunks(xs)[c][r] == xs[c * CHUNK + r]
  {
    ChunksSplit(xs);
  }

  /** The first chunk is the first ten locations, or all of them. */
  lemma FirstChunk<T>(xs: seq<T>)
    requires |xs| > 0
    ensures |Chunks(xs)| > 0 && Chunks(xs)[0] == if |xs| > CHUNK then xs[..CHUNK] else xs
  {
    if |xs| > CHUNK {
      ChunksSplit(xs);
    }
  }

  /** Location `j` travels in chunk `j / 10` at entry `j % 10`. */
  lemma ChunkPosition<T>(xs: seq<T>, j: nat)
    requires j < |xs|
    ensures j / CHUNK < |Chunks(xs)|
    ensures j % CHUNK < |Chunks(xs)[j / CHUNK]|
    ensures Chunks(xs)[j / CHUNK][j % CHUNK] == xs[j]
  {
    ChunkAt(xs, j / CHUNK, j % CHUNK);
  }

  // ---------------------------------------------------------------------------
  // Batch entries
  // ---------------------------------------------------------------------------

  /** The JSON text of `{type, version, ...loc, timestamp}` as the queue
      delivers it: the location's own fields override `type` and `version`,
      never `timestamp`, and undefined fields are dropped. */
  function BatchBody(loc: Obj, iso: string): Obj {
    Stringify(map["type" := Str("driver.location_batch"), "version" := Str("1.0")] + loc + map["timestamp" := Str(iso)])
  }

  /** A batch body carries every defined field of the location, the send
      time, and the batch type unless the location names its own. */
  lemma BatchBodyFields(loc: Obj, iso: string, k: string)
    ensures Get(BatchBody(loc, iso), "timestamp") == Str(iso)
    ensures k != "timestamp" && Get(loc, k) != Undefined ==> Get(BatchBody(loc, iso), k) == Get(loc, k)
    ensures "type" !in loc ==> Get(BatchBody(loc, iso), "type") == Str("driver.location_batch")
  {
  }

  /** The batch entry id of position `i`. */
  function EntryId(i: nat): string {
    "msg-" + NatToString(i)
  }

  /** The ids within one request are pairwise distinct, as SQS requires. */
  lemma EntryIdsDistinct(i: nat, j: nat)
    requires i != j
    ensures EntryId(i) != EntryId(j)
  {
    if EntryId(i) == EntryId(j) {
      SameHead("msg-", NatToString(i), NatToString(j));
      NatToStringInjective(i, j);
    }
  }

  /** One entry of a batch request; `driverAttr` is the `DriverId` message
      attribute. */
  datatype Entry = Entry(id: string, body: Obj, driverAttr: string)

  /** `batch.map(...)`: `None` when a location's `driverId` is `undefined` or
      `null`, whose `toString()` throws. */
  function EntriesOf(chunk: seq<Obj>, iso: string): (r: Option<seq<Entry>>)
    ensures r.Some? <==> forall k :: 0 <= k < |chunk| ==> !IsNullish(Get(chunk[k], "driverId"))
    ensures r.Some? ==> |r.value| == |chunk|
    ensures r.Some? ==> forall k :: 0 <= k < |chunk| ==>
      r.value[k] == Entry(EntryId(k), BatchBody(chunk[k], iso), ToStr(Get(chunk[k], "driverId")))
  {
    if exists k :: 0 <= k < |chunk| && IsNullish(Get(chunk[k], "driverId")) then None
    else Some(seq(|chunk|, (k: int) requires 0 <= k < |chunk| =>
      Entry(EntryId(k), BatchBody(chunk[k], iso), ToStr(Get(chunk[k], "driverId")))))
  }

  // ---------------------------------------------------------------------------
  // publishLocationBatch
  // ---------------------------------------------------------------------------

  /** What a batch request ends in: the client threw, or the response with
      its `Successful` and `Failed` lists' lengths (absent lists are `None`). */
  datatype BatchReply = BatchThrew | BatchReplied(successful: Option<nat>, failed: Option<nat>)

  datatype Counts = Counts(successful: nat, failed: nat)

  /** The tally one request adds: the response's counts, or the whole chunk
      as failed when the request threw. */
  function Tally(reply: BatchReply, size: nat): (c: Counts)
    ensures reply.BatchThrew? ==> c == Counts(0, size)
  {
    match reply
    case BatchThrew => Counts(0, size)
    case BatchReplied(s, f) => Counts(s.GetOr(0), f.GetOr(0))
  }

  function Add(a: Counts, b: Counts): Counts {
    Counts(a.successful + b.successful, a.failed + b.failed)
  }

  /** The chunks from `i` on, sent in order; `replies(i)` answers chunk `i`.
      The requests sent so far stay sent when a later chunk throws. */
  datatype Run = Run(outcome: Outcome<Counts>, sent: seq<seq<Entry>>)

  function SendChunks(cs: seq<seq<Obj>>, i: nat, replies: nat -> BatchReply, iso: string): (r: Run)
    requires i <= |cs|
    ensures r.outcome.Thrown? <==> exists j, k :: i <= j < |cs| && 0 <= k < |cs[j]| && IsNullish(Get(cs[j][k], "driverId"))
    ensures r.outcome.Done? ==> |r.sent| == |cs| - i
    ensures r.outcome.Done? ==> forall t :: 0 <= t < |r.sent| ==> Some(r.sent[t]) == EntriesOf(cs[i + t], iso)
    ensures |r.sent| <= |cs| - i
    decreases |cs| - i
  {
    if i == |cs| then Run(Done(Counts(0, 0)), [])
    else
      match EntriesOf(cs[i], iso)
      case None => Run(Thrown, [])
      case Some(es) =>
        var rest := SendChunks(cs, i + 1, replies, iso);
        var outcome := if rest.outcome.Thrown? then Thrown else Done(Add(Tally(replies(i), |cs[i]|), rest.outcome.value));
        Run(outcome, [es] + rest.sent)
  }

  /** The result of `publishLocationBatch`: `null` (`Done(None)`) without a
      history URL, even for an empty input; zero counts for a missing or
      empty input; otherwise the tallies of every chunk. */
  datatype BatchPublish = BatchPublish(result: Outcome<Option<Counts>>, sent: seq<seq<Entry>>)

  function PublishLocationBatch(url: Option<string>, locations: Option<seq<Obj>>, replies: nat -> BatchReply, iso: string): (r: BatchPublish)
    ensures !Configured(url) ==> r == BatchPublish(Done(None), [])
    ensures Configured(url) && (locations.None? || locations == Some([])) ==> r == BatchPublish(Done(Some(Counts(0, 0))), [])
    ensures r.result.Thrown? <==> (Configured(url) && locations.Some? &&
      exists j :: 0 <= j < |locations.value| && IsNullish(Get(locations.value[j], "driverId")))
  {
    if !Configured(url) then BatchPublish(Done(None), [])
    else if locations.None? || |locations.value| == 0 then BatchPublish(Done(Some(Counts(0, 0))), [])
    else
      var cs := Chunks(locations.value);
      NullishInChunks(locations.value);
      var run := SendChunks(cs, 0, replies, iso);
      BatchPublish(if run.outcome.Thrown? then Thrown else Done(Some(run.outcome.value)), run.sent)
  }

  /** A location lies in some chunk and every chunk entry is some location. */
  lemma NullishInChunks(xs: seq<Obj>)
    ensures (exists j :: 0 <= j < |xs| && IsNullish(Get(xs[j], "driverId")))
      <==> (exists c, k :: 0 <= c < |Chunks(xs)| && 0 <= k < |Chunks(xs)[c]| && IsNullish(Get(Chunks(xs)[c][k], "driverId")))
  {
    var cs := Chunks(xs);
    if j :| 0 <= j < |xs| && IsNullish(Get(xs[j], "driverId")) {
      ChunkPosition(xs, j);
      assert IsNullish(Get(cs[j / CHUNK][j % CHUNK], "driverId"));
    }
    if c, k :| 0 <= c < |cs| && 0 <= k < |cs[c]| && IsNullish(Get(cs[c][k], "driverId")) {
      FlattenMember(cs, c, k);
    }
  }

  /** Every entry of a chunk appears in the concatenation. */
  lemma {:induction false} FlattenMember<T>(cs: seq<seq<T>>, c: nat, k: nat)
    requires c < |cs| && k < |cs[c]|
    ensures exists j :: 0 <= j < |Flatten(cs)| && Flatten(cs)[j] == cs[c][k]
    decreases c
  {
    if c == 0 {
      assert Flatten(cs)[k] == cs[0][k];
    } else {
      FlattenMember(cs[1..], c - 1, k);
      var j :| 0 <= j < |Flatten(cs[1..])| && Flatten(cs[1..])[j] == cs[1..][c - 1][k];
      assert Flatten(cs)[|cs[0]| + j] == Flatten(cs[1..])[j];
    }
  }

  /** Every location goes out exactly once: entry `j % 10` of request `j / 10`
      carries location `j` under the id `msg-(j % 10)`. */
  lemma EveryLocationSentOnce(url: Option<string>, locations: seq<Obj>, replies: nat -> BatchReply, iso: string, j: nat)
    requires Configured(url) && j < |locations|
    requires PublishLocationBatch(url, Some(locations), replies, iso).result.Done?
    ensures var r := PublishLocationBatch(url, Some(locations), replies, iso);
      && |r.sent| == |Chunks(locations)|
      && j / CHUNK < |r.sent| && j % CHUNK < |r.sent[j / CHUNK]|
      && r.sent[j / CHUNK][j % CHUNK] == Entry(EntryId(j % CHUNK), BatchBody(locations[j], iso), ToStr(Get(locations[j], "driverId")))
  {
    ChunkPosition(locations, j);
  }

  /** A request's reply accounts for its chunk when the response lists every
      entry as either successful or failed. */
  predicate Accounts(reply: BatchReply, size: nat) {
    reply.BatchThrew? || reply.successful.GetOr(0) + reply.failed.GetOr(0) == size
  }

  lemma {:induction false} SendChunksAccounting(cs: seq<seq<Obj>>, i: nat, replies: nat -> BatchReply, iso: string)
    requires i <= |cs|
    requires forall j :: i <= j < |cs| ==> Accounts(replies(j), |cs[j]|)
    requires SendChunks(cs, i, replies, iso).outcome.Done?
    ensures var c := SendChunks(cs, i, replies, iso).outcome.value;
      c.successful + c.failed == |Flatten(cs[i..])|
    decreases |cs| - i
  {
    if i < |cs| {
      SendChunksAccounting(cs, i + 1, replies, iso);
      assert cs[i..][1..] == cs[i + 1..];
    }
  }

  /** When every response accounts for its chunk, the counts add up to the
      number of locations. */
  lemma BatchAccounting(url: Option<string>, locations: seq<Obj>, replies: nat -> BatchReply, iso: string)
    requires Configured(url)
    requires forall j :: 0 <= j < |Chunks(locations)| ==> Accounts(replies(j), |Chunks(locations)[j]|)
    requires PublishLocationBatch(url, Some(locations), replies, iso).result.Done?
    ensures var c := PublishLocationBatch(url, Some(locations), replies, iso).result.value;
      c.Some? && c.value.successful + c.value.failed == |locations|
  {
    if |locations| > 0 {
      var cs := Chunks(locations);
      SendChunksAccounting(cs, 0, replies, iso);
      assert cs[0..] == cs;
    }
  }

  lemma {:induction false} SendChunksAllThrow(cs: seq<seq<Obj>>, i: nat, replies: nat -> BatchReply, iso: string)
    requires i <= |cs|
    requires forall j :: i <= j < |cs| ==> replies(j) == BatchThrew
    requires SendChunks(cs, i, replies, iso).outcome.Done?
    ensures SendChunks(cs, i, replies, iso).outcome.value == Counts(0, |Flatten(cs[i..])|)
    decreases |cs| - i
  {
    if i < |cs| {
      SendChunksAllThrow(cs, i + 1, replies, iso);
      assert cs[i..][1..] == cs[i + 1..];
    }
  }

  /** When every request throws, every location is counted as failed and
      none as successful. */
  lemma AllRequestsThrowAllFailed(url: Option<string>, locations: seq<Obj>, iso: string)
    requires Configured(url)
    requires PublishLocationBatch(url, Some(locations), _ => BatchThrew, iso).result.Done?
    ensures PublishLocationBatch(url, Some(locations), _ => BatchThrew, iso).result.value == Some(Counts(0, |locations|))
  {
    if |locations| > 0 {
      var cs := Chunks(locations);
      SendChunksAllThrow(cs, 0, _ => BatchThrew, iso);
      assert cs[0..] == cs;
    }
  }

  /** A location without a driver id rejects the whole call once its chunk
      is reached; the chunks before it have already been sent. */
  lemma NullishDriverRejects(url: Option<string>, locations: seq<Obj>, replies: nat -> BatchReply, iso: string, j: nat)
    requires Configured(url) && j < |locations| && IsNullish(Get(locations[j], "driverId"))
    ensures var r := PublishLocationBatch(url, Some(locations), replies, iso);
      r.result.Thrown? && |r.sent| <= j / CHUNK
  {
    ChunkPosition(locations, j);
    SentBeforeNullish(Chunks(locations), 0, replies, iso, j / CHUNK, j % CHUNK);
  }

  lemma {:induction false} SentBeforeNullish(cs: seq<seq<Obj>>, i: nat, replies: nat -> BatchReply, iso: string, c: nat, k: nat)
    requires i <= c < |cs| && k < |cs[c]| && IsNullish(Get(cs[c][k], "driverId"))
    ensures |SendChunks(cs, i, replies, iso).sent| <= c - i
    decreases |cs| - i
  {
    if i < c && EntriesOf(cs[i], iso).Some? {
      SentBeforeNullish(cs, i + 1, replies, iso, c, k);
    }
  }

  // ---------------------------------------------------------------------------
  // publishToHistoryQueue
  // ---------------------------------------------------------------------------

  /** What one send of a single message ends in. */
  datatype SendResult = Sent(messageId: string) | SendFailed

  /** The history message as the queue delivers it: a falsy optional field
      becomes `null` and stays in the JSON, while an undefined `driverId`,
      `lat` or `lng` disappears from it. */
  function HistoryBody(loc: Obj, iso: string): Obj {
    Stringify(map[
      "type" := Str("driver.location_history"), "version" := Str("1.0"),
      "driverId" := Get(loc, "driverId"), "lat" := Get(loc, "lat"), "lng" := Get(loc, "lng"),
      "heading" := Or(Get(loc, "heading"), Null), "speed" := Or(Get(loc, "speed"), Null),
      "accuracy" := Or(Get(loc, "accuracy"), Null), "tripId" := Or(Get(loc, "tripId"), Null),
      "recordedAt" := Str(iso)])
  }

  datatype HistoryMessage = HistoryMessage(body: Obj, delaySeconds: nat)

  /** `publishToHistoryQueue`: never throws; the message id on success, `null`
      without a URL or when the send fails. */
  function PublishToHistoryQueue(url: Option<string>, loc: Obj, iso: string, send: SendResult): (r: (Option<string>, Option<HistoryMessage>))
    ensures !Configured(url) ==> r == (None, None)
    ensures Configured(url) ==> r.1 == Some(HistoryMessage(HistoryBody(loc, iso), HISTORY_DELAY_SECONDS))
    ensures r.0.Some? <==> Configured(url) && send.Sent?
  {
    if !Configured(url) then (None, None)
    else
      var msg := HistoryMessage(HistoryBody(loc, iso), HISTORY_DELAY_SECONDS);
      match send
      case Sent(id) => (Some(id), Some(msg))
      case SendFailed => (None, Some(msg))
  }

  /** The optional fields are always present: the value when truthy, `null`
      otherwise, so a heading of 0 arrives as `null`. */
  lemma HistoryOptionalFields(loc: Obj, iso: string, k: string)
    requires k in {"heading", "speed", "accuracy", "tripId"}
    ensures k in HistoryBody(loc, iso)
    ensures HistoryBody(loc, iso)[k] == if Truthy(Get(loc, k)) then Get(loc, k) else Null
  {
  }

  /** The required fields of a history body: as given, absent when
      undefined. */
  lemma HistoryBodyRequired(loc: Obj, iso: string)
    ensures var b := HistoryBody(loc, iso);
      && ("driverId" in b <==> Get(loc, "driverId") != Undefined)
      && ("lat" in b <==> Get(loc, "lat") != Undefined)
      && ("lng" in b <==> Get(loc, "lng") != Undefined)
      && ("driverId" in b ==> b["driverId"] == Get(loc, "driverId"))
      && ("lat" in b ==> b["lat"] == Get(loc, "lat"))
      && ("lng" in b ==> b["lng"] == Get(loc, "lng"))
  {
  }

  /** The optional fields of a history body, or `null`, and the send time. */
  lemma HistoryBodyOptional(loc: Obj, iso: string)
    ensures var b := HistoryBody(loc, iso);
      && History.PyGet(b, "recordedAt") == Str(iso)
      && History.PyGet(b, "heading") == Or(Get(loc, "heading"), Null)
      && History.PyGet(b, "speed") == Or(Get(loc, "speed"), Null)
      && History.PyGet(b, "accuracy") == Or(Get(loc, "accuracy"), Null)
      && History.PyGet(b, "tripId") == Or(Get(loc, "tripId"), Null)
  {
  }

  /** A body with numeric `driverId`, `lat` and `lng` and an accepted
      `recordedAt` parses into exactly those values. */
  lemma ParsesWithNumbers(b: Obj, isoOk: string -> bool, messageId: string, iso: string)
    requires "driverId" in b && "lat" in b && "lng" in b
    requires b["driverId"].Num? && b["lat"].Num? && b["lng"].Num?
    requires History.PyGet(b, "recordedAt") == Str(iso) && iso != "" && isoOk(iso)
    ensures History.ParseRecord(History.SqsRecord(messageId, Some(b)), isoOk)
      == History.Parsed(History.Location(
           b["driverId"].n, b["lat"].n, b["lng"].n,
           History.PyGet(b, "heading"), History.PyGet(b, "speed"),
           History.PyGet(b, "accuracy"), History.PyGet(b, "tripId"), Some(iso)))
  {
  }

  /** The history Lambda accepts what this publisher sends: with numeric
      `driverId`, `lat` and `lng` the record parses into exactly those values,
      the optional fields (or `null`) and the send time. */
  lemma HistoryMessageParsed(loc: Obj, iso: string, isoOk: string -> bool, messageId: string)
    requires Get(loc, "driverId").Num? && Get(loc, "lat").Num? && Get(loc, "lng").Num?
    requires iso != "" && isoOk(iso)
    ensures History.ParseRecord(History.SqsRecord(messageId, Some(HistoryBody(loc, iso))), isoOk)
      == History.Parsed(History.Location(
           Get(loc, "driverId").n, Get(loc, "lat").n, Get(loc, "lng").n,
           Or(Get(loc, "heading"), Null), Or(Get(loc, "speed"), Null),
           Or(Get(loc, "accuracy"), Null), Or(Get(loc, "tripId"), Null), Some(iso)))
  {
    HistoryBodyRequired(loc, iso);
    HistoryBodyOptional(loc, iso);
    ParsesWithNumbers(HistoryBody(loc, iso), isoOk, messageId, iso);
  }

  /** A location whose latitude is undefined loses the key in the JSON, and
      the Lambda drops the record silently: neither stored nor retried. */
  lemma UndefinedLatitudeDropped(loc: Obj, iso: string, isoOk: string -> bool, messageId: string)
    requires Get(loc, "lat") == Undefined
    ensures History.ParseRecord(History.SqsRecord(messageId, Some(HistoryBody(loc, iso))), isoOk) == History.Skipped
  {
    HistoryBodyRequired(loc, iso);
  }

  /** A body whose `lat` is `null` makes the Lambda raise a TypeError. */
  lemma NullLatitudeEscapes(b: Obj, isoOk: string -> bool, messageId: string, iso: string)
    requires "driverId" in b && "lat" in b && "lng" in b
    requires b["driverId"].Num? && b["lat"] == Null
    requires History.PyGet(b, "recordedAt") == Str(iso) && iso != "" && isoOk(iso)
    ensures History.ParseRecord(History.SqsRecord(messageId, Some(b)), isoOk) == History.Escaped
  {
  }

  /** A latitude of `null` survives the JSON and makes the Lambda raise, so
      the whole batch is retried. */
  lemma NullLatitudeRaises(loc: Obj, iso: string, isoOk: string -> bool, messageId: string)
    requires Get(loc, "driverId").Num? && Get(loc, "lat") == Null && Get(loc, "lng").Num?
    requires iso != "" && isoOk(iso)
    ensures History.ParseRecord(History.SqsRecord(messageId, Some(HistoryBody(loc, iso))), isoOk) == History.Escaped
  {
    HistoryBodyRequired(loc, iso);
    HistoryBodyOptional(loc, iso);
    NullLatitudeEscapes(HistoryBody(loc, iso), isoOk, messageId, iso);
  }

  // ---------------------------------------------------------------------------
  // publishLocationUpdate
  // ---------------------------------------------------------------------------

  /** The JSON of `{type, version, ...locationData, timestamp}`. */
  function UpdateBody(loc: Obj, iso: string): Obj {
    Stringify(map["type" := Str("driver.location_update"), "version" := Str("1.0")] + loc + map["timestamp" := Str(iso)])
  }

  /** A FIFO message: its body, its group (one per driver, keeping a driver's
      updates in order), and its deduplication id. */
  datatype UpdateMessage = UpdateMessage(body: Obj, groupId: string, dedupId: string)

  function DedupId(driverId: JsVal, nowMs: nat): string {
    ToStr(driverId) + "-" + NatToString(nowMs)
  }

  /** `publishLocationUpdate`: `null` without a URL; a nullish `driverId`
      throws before sending; a send failure is rethrown; otherwise the
      message id. */
  function PublishLocationUpdate(url: Option<string>, loc: Obj, iso: string, nowMs: nat, send: SendResult): (r: (Outcome<Option<string>>, Option<UpdateMessage>))
    ensures !Configured(url) ==> r == (Done(None), None)
    ensures Configured(url) && IsNullish(Get(loc, "driverId")) ==> r == (Thrown, None)
    ensures r.1.Some? ==> r.1.value.groupId == ToStr(Get(loc, "driverId")) && r.1.value.body == UpdateBody(loc, iso)
    ensures r.0 == Done(None) <==> !Configured(url)
    ensures r.0.Done? && r.0.value.Some? <==> Configured(url) && !IsNullish(Get(loc, "driverId")) && send.Sent?
  {
    if !Configured(url) then (Done(None), None)
    else
      var driverId := Get(loc, "driverId");
      if IsNullish(driverId) then (Thrown, None)
      else
        var msg := UpdateMessage(UpdateBody(loc, iso), ToStr(driverId), DedupId(driverId, nowMs));
        match send
        case Sent(id) => (Done(Some(id)), Some(msg))
        case SendFailed => (Thrown, Some(msg))
  }

  /** Two updates share a deduplication id only when they come from the same
      driver (as text) in the same millisecond, whatever the driver ids hold. */
  lemma DedupIdInjective(d1: JsVal, t1: nat, d2: JsVal, t2: nat)
    requires DedupId(d1, t1) == DedupId(d2, t2)
    ensures ToStr(d1) == ToStr(d2) && t1 == t2
  {
    var a, b := ToStr(d1), ToStr(d2);
    var n, m := NatToString(t1), NatToString(t2);
    NatToStringHasOnlyDigits(t1, '-');
    NatToStringHasOnlyDigits(t2, '-');
    LastIndexAfter(a, '-', n);
    LastIndexAfter(b, '-', m);
    assert a + "-" + n == a + ['-'] + n;
    assert b + "-" + m == b + ['-'] + m;
    SameTail(a + "-", n, b + "-", m);
    SameTail(a, "-", b, "-");
    NatToStringInjective(t1, t2);
  }
}

=== FILE: sqs_location_consumer.dfy ===
/** The services driver service's queue consumer: it receives up to ten
    location messages, queues the Redis writes of the `driver.location_update`
    ones in one pipeline, and deletes exactly those messages once the
    pipeline has run. The queue's answer and the pipeline's outcome are
    parameters; `now` stands for `Date.now()`. */
module SqsLocationConsumer {
  import opened Wrappers
  import opened JsValues
  import opened GeoStore
  import Client = SqsLocationClient

  const BATCH_SIZE: nat := 10
  const ERROR_BACKOFF_MS: nat := 5000
  const UPDATE_TYPE: string := "driver.location_update"

  /** A received message; a body `JSON.parse` rejects is `None`. */
  datatype Message = Message(receipt: string, body: Option<Obj>)

  // ---------------------------------------------------------------------------
  // One message
  // ---------------------------------------------------------------------------

  /** How ioredis stores a defined value: a number as its text, a string as
      itself. */
  function ScalarOf(v: JsVal): Scalar {
    match v
    case Num(n) => GeoStore.Num(n as real)
    case Str(s) => Txt(s)
    case _ => Txt(ToStr(v))
  }

  /** `v?.toString() || '0'`: nullish and empty values are stored as 0. */
  function OrZeroText(v: JsVal): (s: Scalar)
    ensures IsNullish(v) || v == Str("") ==> s == GeoStore.Num(0.0)
    ensures v.Num? ==> s == GeoStore.Num(v.n as real)
  {
    if IsNullish(v) || ToStr(v) == "" then GeoStore.Num(0.0) else ScalarOf(v)
  }

  /** The metadata hash of one update. */
  function Meta(o: Obj, now: int): (h: map<string, Scalar>)
    ensures h.Keys == {"lat", "lng", "heading", "speed", "accuracy", "tripId", "updatedAt"}
  {
    map["lat" := ScalarOf(Get(o, "lat")), "lng" := ScalarOf(Get(o, "lng")),
        "heading" := OrZeroText(Get(o, "heading")), "speed" := OrZeroText(Get(o, "speed")),
        "accuracy" := OrZeroText(Get(o, "accuracy")),
        "tripId" := Txt(ToStr(Or(Get(o, "tripId"), Str("")))),
        "updatedAt" := GeoStore.Num(now as real)]
  }

  /** The member name and key suffix: `${driverId}`. */
  function DriverKey(o: Obj): string {
    ToStr(Get(o, "driverId"))
  }

  /** The commands one update queues. GEOADD with coordinates Redis cannot
      read as numbers fails alone inside the pipeline, so it is left out. */
  function Commands(o: Obj, now: int): (cs: seq<Command>)
    ensures forall c :: 0 <= c < |cs| ==> cs[c].key == DRIVERS_LOCATIONS || cs[c].key == LocationKey(DriverKey(o))
    ensures |cs| >= 2 && cs[|cs| - 1] == Expire(LocationKey(DriverKey(o)), LOCATION_TTL)
  {
    var lat := ParseNumber(Get(o, "lat"));
    var lng := ParseNumber(Get(o, "lng"));
    var geo := if lat.Some? && lng.Some? then [GeoAdd(DRIVERS_LOCATIONS, DriverKey(o), Point(lng.value as real, lat.value as real))] else [];
    geo + [HSet(LocationKey(DriverKey(o)), Meta(o, now)), Expire(LocationKey(DriverKey(o)), LOCATION_TTL)]
  }

  /** What the loop does with one message: leaves it alone (another type),
      counts an error (unparsable body, or `lat`/`lng` missing so that
      `toString()` throws), or accepts it with its commands. */
  datatype Decision = Ignored | ParseError | Accepted(cs: seq<Command>)

  function Decide(m: Message, now: int): (d: Decision)
    ensures d.Accepted? <==> (m.body.Some? && Get(m.body.value, "type") == Str(UPDATE_TYPE)
      && !IsNullish(Get(m.body.value, "lat")) && !IsNullish(Get(m.body.value, "lng")))
    ensures d == Ignored <==> m.body.Some? && Get(m.body.value, "type") != Str(UPDATE_TYPE)
  {
    match m.body
    case None => ParseError
    case Some(o) =>
      if Get(o, "type") != Str(UPDATE_TYPE) then Ignored
      else if IsNullish(Get(o, "lat")) || IsNullish(Get(o, "lng")) then ParseError
      else Accepted(Commands(o, now))
  }

  /** The consumer's hash is the shared location write's hash when the
      numbers arrive as numbers and the trip id as text or not at all. */
  function LocationOf(o: Obj): GeoStore.Location
    requires Get(o, "lat").Num? && Get(o, "lng").Num?
  {
    GeoStore.Location(Get(o, "lat").n as real, Get(o, "lng").n as real,
      OptReal(Get(o, "heading")), OptReal(Get(o, "speed")), OptReal(Get(o, "accuracy")),
      if Get(o, "tripId").Str? && Get(o, "tripId").s != "" then Some(Get(o, "tripId").s) else None)
  }

  function OptReal(v: JsVal): Option<real> {
    if v.Num? then Some(v.n as real) else None
  }

  predicate NumOrNullish(v: JsVal) {
    v.Num? || IsNullish(v)
  }

  /** An update with numeric fields queues exactly the write group every
      other location writer queues: geo member, metadata hash, 3600 s TTL. */
  lemma CommandsAreLocationWrites(o: Obj, now: int)
    requires Get(o, "lat").Num? && Get(o, "lng").Num?
    requires NumOrNullish(Get(o, "heading")) && NumOrNullish(Get(o, "speed")) && NumOrNullish(Get(o, "accuracy"))
    requires Get(o, "tripId").Str? || IsNullish(Get(o, "tripId"))
    ensures Commands(o, now) == LocationWrites(DriverKey(o), LocationOf(o), now)
  {
    var loc := LocationOf(o);
    assert Meta(o, now) == MetaHash(loc, now);
  }

  // ---------------------------------------------------------------------------
  // pollAndProcess
  // ---------------------------------------------------------------------------

  /** The loop over the received messages: the accepted ones in order, the
      pipeline they fill, and the number of errors counted. */
  datatype Batch = Batch(accepted: seq<Message>, pipeline: seq<Command>, errors: nat)

  function Process(ms: seq<Message>, now: int): (b: Batch)
    ensures forall m :: m in b.accepted ==> m in ms && Decide(m, now).Accepted?
    ensures forall m :: m in ms && Decide(m, now).Accepted? ==> m in b.accepted
    ensures |b.accepted| + b.errors <= |ms|
    ensures TouchesOwnKeys(b)
    decreases |ms|
  {
    if |ms| == 0 then Batch([], [], 0)
    else
      var rest := Process(ms[1..], now);
      assert ms == [ms[0]] + ms[1..];
      match Decide(ms[0], now)
      case Ignored => rest
      case ParseError => rest.(errors := rest.errors + 1)
      case Accepted(cs) =>
        AcceptedStep(ms[0], cs, rest);
        Batch([ms[0]] + rest.accepted, cs + rest.pipeline, rest.errors)
  }

  /** Every queued command writes the geo set or the metadata key of one of
      the accepted drivers. */
  predicate TouchesOwnKeys(b: Batch) {
    forall c :: 0 <= c < |b.pipeline| ==> OwnKey(b.pipeline[c], b.accepted)
  }

  predicate OwnKey(cmd: Command, accepted: seq<Message>) {
    cmd.key == DRIVERS_LOCATIONS ||
    exists m :: m in accepted && m.body.Some? && cmd.key == LocationKey(DriverKey(m.body.value))
  }

  /** Accepting one more message in front keeps the pipeline on its own keys. */
  lemma AcceptedStep(m: Message, cs: seq<Command>, rest: Batch)
    requires m.body.Some?
    requires forall c :: 0 <= c < |cs| ==> cs[c].key == DRIVERS_LOCATIONS || cs[c].key == LocationKey(DriverKey(m.body.value))
    requires TouchesOwnKeys(rest)
    ensures TouchesOwnKeys(Batch([m] + rest.accepted, cs + rest.pipeline, rest.errors))
  {
    var b := Batch([m] + rest.accepted, cs + rest.pipeline, rest.errors);
    forall c | 0 <= c < |b.pipeline| ensures OwnKey(b.pipeline[c], b.accepted) {
      if c < |cs| {
        assert b.pipeline[c] == cs[c];
        assert m in b.accepted;
      } else {
        assert b.pipeline[c] == rest.pipeline[c - |cs|];
        assert OwnKey(rest.pipeline[c - |cs|], rest.accepted);
      }
    }
  }

  /** The number of messages the loop counts as errors. */
  function ParseErrors(ms: seq<Message>, now: int): nat
    decreases |ms|
  {
    if |ms| == 0 then 0
    else (if Decide(ms[0], now) == ParseError then 1 else 0) + ParseErrors(ms[1..], now)
  }

  lemma {:induction false} ProcessCountsParseErrors(ms: seq<Message>, now: int)
    ensures Process(ms, now).errors == ParseErrors(ms, now)
    decreases |ms|
  {
    if |ms| > 0 {
      ProcessCountsParseErrors(ms[1..], now);
    }
  }

  datatype Worker = Worker(isRunning: bool, processedCount: nat, errorCount: nat)

  /** What `ReceiveMessage` returns; no messages and an absent list alike
      are `Received([])`. */
  datatype Receive = ReceiveFailed | Received(messages: seq<Message>)

  /** The worker and store after one turn, the messages whose receipts the
      delete request carries (a failed delete is swallowed), and the sleep. */
  datatype Turn = Turn(worker: Worker, store: Store, deleted: seq<Message>, sleepMs: nat)

  /** One turn of the loop, `execRejects` being a rejected `pipeline.exec()`.
      A failed receive is counted by the loop's catch, which then sleeps. */
  function PollAndProcess(w: Worker, st: Store, receive: Receive, now: int, execRejects: bool): (t: Turn)
    ensures receive.ReceiveFailed? ==> t == Turn(w.(errorCount := w.errorCount + 1), st, [], ERROR_BACKOFF_MS)
    ensures receive == Received([]) ==> t == Turn(w, st, [], 0)
    ensures t.worker.isRunning == w.isRunning
    ensures t.deleted != [] ==> !execRejects && t.store == ExecAll(st, Process(receive.messages, now).pipeline)
    ensures t.store != st ==> t.deleted != []
  {
    match receive
    case ReceiveFailed => Turn(w.(errorCount := w.errorCount + 1), st, [], ERROR_BACKOFF_MS)
    case Received(ms) =>
      if |ms| == 0 then Turn(w, st, [], 0)
      else
        var b := Process(ms, now);
        var w1 := w.(errorCount := w.errorCount + b.errors);
        if |b.accepted| == 0 then Turn(w1, st, [], 0)
        else if execRejects then Turn(w1.(errorCount := w1.errorCount + 1), st, [], 0)
        else Turn(w1.(processedCount := w1.processedCount + |b.accepted|), ExecAll(st, b.pipeline), b.accepted, 0)
  }

  /** Only update messages are deleted, and after a resolved pipeline every
      one of them is; other types and parse failures stay in the queue. */
  lemma DeletesExactlyUpdates(w: Worker, st: Store, ms: seq<Message>, now: int, m: Message)
    requires m in ms
    ensures var t := PollAndProcess(w, st, Received(ms), now, false);
      m in t.deleted <==> Decide(m, now).Accepted?
    ensures m in PollAndProcess(w, st, Received(ms), now, true).deleted ==> false
  {
  }

  /** Every parse failure adds one to `errorCount`; a resolved pipeline adds
      the accepted messages to `processedCount`. */
  lemma TurnCounters(w: Worker, st: Store, ms: seq<Message>, now: int)
    requires |ms| > 0
    ensures var t := PollAndProcess(w, st, Received(ms), now, false);
      && t.worker.errorCount == w.errorCount + ParseErrors(ms, now)
      && t.worker.processedCount == w.processedCount + |t.deleted|
  {
    ProcessCountsParseErrors(ms, now);
  }

  /** A rejected pipeline deletes nothing, changes no key, and counts one
      error on top of the parse failures. */
  lemma RejectedPipelineKeepsMessages(w: Worker, st: Store, ms: seq<Message>, now: int)
    requires |ms| > 0 && |Process(ms, now).accepted| > 0
    ensures PollAndProcess(w, st, Received(ms), now, true)
      == Turn(Worker(w.isRunning, w.processedCount, w.errorCount + ParseErrors(ms, now) + 1), st, [], 0)
  {
    ProcessCountsParseErrors(ms, now);
  }

  /** A turn writes only the geo set and the metadata keys of the drivers
      whose updates it accepted. */
  lemma TurnTouchesOnlyAcceptedDrivers(w: Worker, st: Store, ms: seq<Message>, now: int, execRejects: bool, k: string)
    requires k != DRIVERS_LOCATIONS
    requires forall m :: m in ms && Decide(m, now).Accepted? ==> k != LocationKey(DriverKey(m.body.value))
    ensures At(PollAndProcess(w, st, Received(ms), now, execRejects).store, k) == At(st, k)
  {
    var b := Process(ms, now);
    ExecAllFrame(st, b.pipeline, k);
  }

  // ---------------------------------------------------------------------------
  // startWorker / stopWorker
  // ---------------------------------------------------------------------------

  /** `startWorker`: without a queue URL the worker does not start. */
  function StartWorker(w: Worker, url: Option<string>): (r: Worker)
    ensures r.isRunning <==> Client.Configured(url) || w.isRunning
    ensures r.processedCount == w.processedCount && r.errorCount == w.errorCount
  {
    if !Client.Configured(url) then w else w.(isRunning := true)
  }

  function StopWorker(w: Worker): (r: Worker)
    ensures !r.isRunning
    ensures r.processedCount == w.processedCount && r.errorCount == w.errorCount
  {
    w.(isRunning := false)
  }

  /** `while (isRunning)`: a stopped worker takes no further turn. */
  function Loop(w: Worker, st: Store, receive: Receive, now: int, execRejects: bool): (t: Option<Turn>)
    ensures t.Some? <==> w.isRunning
    ensures t.Some? ==> t.value.worker.isRunning
  {
    if w.isRunning then Some(PollAndProcess(w, st, receive, now, execRejects)) else None
  }

  /** After `stopWorker` the loop ends, whatever the queue holds. */
  lemma StopEndsLoop(w: Worker, st: Store, receive: Receive, now: int, execRejects: bool)
    ensures Loop(StopWorker(w), st, receive, now, execRejects).None?
  {
  }

  // ---------------------------------------------------------------------------
  // Publisher and consumer together
  // ---------------------------------------------------------------------------

  /** An update the modules publisher sends with numeric coordinates is
      accepted here and puts the driver at its position. */
  lemma PublishedUpdateConsumed(loc: Obj, iso: string, receipt: string, now: int)
    requires "type" !in loc
    requires Get(loc, "lat").Num? && Get(loc, "lng").Num?
    ensures var o := Client.UpdateBody(loc, iso);
      && Decide(Message(receipt, Some(o)), now).Accepted?
      && Decide(Message(receipt, Some(o)), now).cs[0]
         == GeoAdd(DRIVERS_LOCATIONS, ToStr(Get(loc, "driverId")), Point(Get(loc, "lng").n as real, Get(loc, "lat").n as real))
  {
    var o := Client.UpdateBody(loc, iso);
    assert Get(o, "type") == Str(UPDATE_TYPE);
    assert Get(o, "lat") == Get(loc, "lat") && Get(o, "lng") == Get(loc, "lng");
    assert Get(o, "driverId") == Get(loc, "driverId");
  }

  /** A location carrying its own `type` overrides the message type and the
      consumer never deletes the message. */
  lemma ForeignTypeNeverConsumed(loc: Obj, iso: string, receipt: string, now: int)
    requires "type" in loc && loc["type"] != Str(UPDATE_TYPE)
    ensures Decide(Message(receipt, Some(Client.UpdateBody(loc, iso))), now) == Ignored
  {
    var o := Client.UpdateBody(loc, iso);
    assert loc["type"] != Undefined ==> o["type"] == loc["type"];
  }
}

=== FILE: text.dfy ===
/** String operations the services lean on, stated over `seq<char>`:
    decimal rendering and parsing of whole numbers, first-occurrence search
    and replacement (JavaScript `includes` / `replace` with a string pattern),
    trailing-slash stripping, and `split`/`join` on one separator character. */
module Text {
  import opened Wrappers

  // ---------------------------------------------------------------------------
  // Decimal digits
  // ---------------------------------------------------------------------------

  predicate IsDigit(c: char) {
    '0' <= c <= '9'
  }

  predicate AllDigits(s: string) {
    forall i :: 0 <= i < |s| ==> IsDigit(s[i])
  }

  function DigitChar(d: nat): (c: char)
    requires d < 10
    ensures IsDigit(c)
  {
    (48 + d) as char
  }

  function DigitValue(c: char): (d: nat)
    requires IsDigit(c)
    ensures d < 10
  {
    (c as int) - 48
  }

  /** The decimal rendering of a whole number, without leading zeros:
      JavaScript's `String(n)` and Python's `f"{n}"` for n >= 0. */
  function NatToString(n: nat): (s: string)
    ensures |s| > 0
    ensures AllDigits(s)
    decreases n
  {
    if n < 10 then [DigitChar(n)] else NatToString(n / 10) + [DigitChar(n % 10)]
  }

  /** The value a string of decimal digits denotes. */
  function DigitsValue(s: string): nat
    requires AllDigits(s)
    decreases |s|
  {
    if |s| == 0 then 0 else 10 * DigitsValue(s[..|s| - 1]) + DigitValue(s[|s| - 1])
  }

  /** Rendering then reading back a whole number gives the number. */
  lemma {:induction false} NatToStringRoundTrip(n: nat)
    ensures DigitsValue(NatToString(n)) == n
    decreases n
  {
    var s := NatToString(n);
    if n < 10 {
      assert s[..|s| - 1] == [];
    } else {
      NatToStringRoundTrip(n / 10);
      assert s[..|s| - 1] == NatToString(n / 10);
    }
  }

  /** Distinct numbers have distinct decimal renderings. */
  lemma NatToStringInjective(a: nat, b: nat)
    ensures NatToString(a) == NatToString(b) ==> a == b
  {
    NatToStringRoundTrip(a);
    NatToStringRoundTrip(b);
  }

  /** `String(i)` for a JavaScript integer. */
  function IntToString(i: int): string {
    if i < 0 then "-" + NatToString(-i) else NatToString(i)
  }

  /** A non-empty all-digit string read as a whole number; anything else is not one. */
  function ParseNat(s: string): (r: Option<nat>)
    ensures r.Some? <==> |s| > 0 && AllDigits(s)
  {
    if |s| > 0 && AllDigits(s) then Some(DigitsValue(s)) else None
  }

  lemma ParseNatOfRendering(n: nat)
    ensures ParseNat(NatToString(n)) == Some(n)
  {
    NatToStringRoundTrip(n);
  }

  // ---------------------------------------------------------------------------
  // parseInt
  // ---------------------------------------------------------------------------

  /** The white space and line terminators of ECMAScript, which `parseInt`
      skips before the number. */
  predicate IsJsSpace(c: char) {
    c == ' ' || c == '\t' || c == '\n' || c == '\r' || c == '\U{000B}' || c == '\U{000C}'
    || c == '\U{00A0}' || c == '\U{1680}' || ('\U{2000}' <= c <= '\U{200A}')
    || c == '\U{2028}' || c == '\U{2029}' || c == '\U{202F}' || c == '\U{205F}'
    || c == '\U{3000}' || c == '\U{FEFF}'
  }

  /** `s` without its leading white space. */
  function TrimStart(s: string): (r: string)
    ensures |r| <= |s| && r == s[|s| - |r|..]
    ensures |r| > 0 ==> !IsJsSpace(r[0])
    ensures |s| > 0 && !IsJsSpace(s[0]) ==> r == s
    ensures forall i :: 0 <= i < |s| - |r| ==> IsJsSpace(s[i])
    decreases |s|
  {
    if |s| > 0 && IsJsSpace(s[0]) then
      assert forall i :: 0 <= i < |s| - 1 ==> s[1..][i] == s[i + 1];
      TrimStart(s[1..])
    else s
  }

  /** The longest run of decimal digits `s` starts with. */
  function DigitRun(s: string): (p: string)
    ensures p <= s && AllDigits(p)
    ensures |p| < |s| ==> !IsDigit(s[|p|])
    ensures AllDigits(s) ==> p == s
    decreases |s|
  {
    if |s| > 0 && IsDigit(s[0]) then [s[0]] + DigitRun(s[1..]) else []
  }

  predicate IsHexDigit(c: char) {
    IsDigit(c) || 'a' <= c <= 'f' || 'A' <= c <= 'F'
  }

  predicate AllHexDigits(s: string) {
    forall i :: 0 <= i < |s| ==> IsHexDigit(s[i])
  }

  function HexDigitValue(c: char): (d: nat)
    requires IsHexDigit(c)
    ensures d < 16
  {
    if IsDigit(c) then DigitValue(c) else if 'a' <= c <= 'f' then (c as int) - 87 else (c as int) - 55
  }

  /** The longest run of hexadecimal digits `s` starts with. */
  function HexRun(s: string): (p: string)
    ensures p <= s && AllHexDigits(p)
    ensures |p| < |s| ==> !IsHexDigit(s[|p|])
    decreases |s|
  {
    if |s| > 0 && IsHexDigit(s[0]) then [s[0]] + HexRun(s[1..]) else []
  }

  /** The value a string of hexadecimal digits denotes. */
  function HexValue(s: string): nat
    requires AllHexDigits(s)
    decreases |s|
  {
    if |s| == 0 then 0 else 16 * HexValue(s[..|s| - 1]) + HexDigitValue(s[|s| - 1])
  }

  /** The magnitude `parseInt` reads after the sign: a `0x` or `0X` prefix
      selects base 16, otherwise the leading decimal digits count; no digit
      at all is not a number. */
  function ParseMagnitude(u: string): (r: Option<nat>)
    ensures r.Some? ==> |u| > 0 && IsDigit(u[0])
    ensures |u| > 0 && AllDigits(u) ==> r == Some(DigitsValue(u))
  {
    if |u| >= 2 && u[0] == '0' && (u[1] == 'x' || u[1] == 'X') then
      var h := HexRun(u[2..]);
      if |h| == 0 then None else Some(HexValue(h))
    else
      var d := DigitRun(u);
      if |d| == 0 then None else Some(DigitsValue(d))
  }

  /** The text after one leading sign, if there is one. */
  function AfterSign(t: string): (u: string)
    ensures u == t || (|t| > 0 && u == t[1..])
  {
    if |t| > 0 && (t[0] == '-' || t[0] == '+') then t[1..] else t
  }

  /** A magnitude with its sign; NaN stays NaN. */
  function Signed(neg: bool, m: Option<nat>): Option<int> {
    match m
    case None => None
    case Some(v) => Some(if neg then -(v as int) else v as int)
  }

  /** JavaScript's `parseInt(s)` without a radix: leading white space is
      skipped, one sign is read, then the magnitude; `None` stands for NaN,
      and a negative zero reads as 0. */
  function ParseInt(s: string): (r: Option<int>)
    ensures |TrimStart(s)| == 0 ==> r == None
    ensures r.Some? ==> exists i :: 0 <= i < |s| && IsDigit(s[i])
  {
    var t := TrimStart(s);
    var u := AfterSign(t);
    assert |u| > 0 ==> s[|s| - |u|] == u[0];
    Signed(|t| > 0 && t[0] == '-', ParseMagnitude(u))
  }

  /** The digit run of a digit string followed by a non-digit is that string. */
  lemma {:induction false} DigitRunStops(w: string, rest: string)
    requires AllDigits(w) && |rest| > 0 && !IsDigit(rest[0])
    ensures DigitRun(w + rest) == w
    decreases |w|
  {
    if |w| == 0 {
      assert (w + rest)[0] == rest[0];
    } else {
      assert (w + rest)[0] == w[0] && (w + rest)[1..] == w[1..] + rest;
      DigitRunStops(w[1..], rest);
    }
  }

  /** The text `<digits>.<fraction>` starts with a digit. */
  lemma DecimalStartsWithDigit(n: nat, frac: string)
    ensures var u := NatToString(n) + "." + frac; |u| > 0 && IsDigit(u[0])
  {
    var w := NatToString(n);
    assert (w + "." + frac)[0] == w[0];
  }

  /** The magnitude of `<digits>.<fraction>` is the whole part. */
  lemma MagnitudeOfDecimal(n: nat, frac: string)
    ensures ParseMagnitude(NatToString(n) + "." + frac) == Some(n)
  {
    var w := NatToString(n);
    var u := w + "." + frac;
    assert u == w + ("." + frac);
    DigitRunStops(w, "." + frac);
    assert u[1] == '.' || u[1] == w[1];
    NatToStringRoundTrip(n);
  }

  /** Text that starts with a digit is read as its magnitude. */
  lemma ParseIntUnsigned(u: string)
    requires |u| > 0 && IsDigit(u[0])
    ensures ParseInt(u) == Signed(false, ParseMagnitude(u))
  {
    assert TrimStart(u) == u;
    assert AfterSign(u) == u;
  }

  /** Text `-u` with `u` starting with a digit reads as the negated magnitude of `u`. */
  lemma ParseIntNegative(u: string, m: nat)
    requires |u| > 0 && IsDigit(u[0]) && ParseMagnitude(u) == Some(m)
    ensures ParseInt("-" + u) == Some(-(m as int))
  {
    var s := "-" + u;
    assert TrimStart(s) == s;
    assert s[1..] == u;
  }

  /** The text of a whole number reads back as that number. */
  lemma ParseIntOfRendering(n: int)
    ensures ParseInt(IntToString(n)) == Some(n)
  {
    if n < 0 {
      NatToStringRoundTrip(-n);
      ParseIntNegative(NatToString(-n), -n);
    } else {
      NatToStringRoundTrip(n);
      ParseIntUnsigned(NatToString(n));
    }
  }

  /** Reading stops at the decimal point: the text of a number with a
      fraction, `<digits>.<fraction>`, reads as its whole part. */
  lemma ParseIntReadsWholePart(n: nat, frac: string)
    ensures ParseInt(NatToString(n) + "." + frac) == Some(n)
  {
    var u := NatToString(n) + "." + frac;
    MagnitudeOfDecimal(n, frac);
    DecimalStartsWithDigit(n, frac);
    ParseIntUnsigned(u);
  }

  /** The same with a minus sign, `-<digits>.<fraction>`; `-0.5` reads as 0. */
  lemma ParseIntReadsNegativeWholePart(n: nat, frac: string)
    ensures ParseInt("-" + (NatToString(n) + "." + frac)) == Some(-(n as int))
  {
    var u := NatToString(n) + "." + frac;
    MagnitudeOfDecimal(n, frac);
    DecimalStartsWithDigit(n, frac);
    ParseIntNegative(u, n);
  }

  // ---------------------------------------------------------------------------
  // Searching and replacing
  // ---------------------------------------------------------------------------

  /** `pat` occurs in `s` starting at index `i`. */
  predicate MatchAt(s: string, pat: string, i: int) {
    0 <= i && i + |pat| <= |s| && s[i..i + |pat|] == pat
  }

  /** JavaScript's `s.includes(pat)`. */
  predicate Contains(s: string, pat: string) {
    exists i :: 0 <= i <= |s| && MatchAt(s, pat, i)
  }

  /** The first occurrence of `pat` in `s` at or after index `k`. */
  function IndexOfFrom(s: string, pat: string, k: nat): (r: Option<nat>)
    ensures r.Some? ==> k <= r.value && MatchAt(s, pat, r.value)
    ensures r.Some? ==> forall j :: k <= j < r.value ==> !MatchAt(s, pat, j)
    ensures r.None? ==> forall j :: k <= j ==> !MatchAt(s, pat, j)
    decreases |s| - k
  {
    if k + |pat| > |s| then None
    else if s[k..k + |pat|] == pat then Some(k)
    else IndexOfFrom(s, pat, k + 1)
  }

  /** The first occurrence of `pat` in `s`: found exactly when `s` contains `pat`. */
  function IndexOf(s: string, pat: string): (r: Option<nat>)
    ensures r.Some? <==> Contains(s, pat)
    ensures r.Some? ==> MatchAt(s, pat, r.value)
    ensures r.Some? ==> forall j :: j < r.value ==> !MatchAt(s, pat, j)
  {
    IndexOfFrom(s, pat, 0)
  }

  /** JavaScript's `s.replace(pat, rep)` with a string pattern: only the first
      occurrence is replaced, and a string without `pat` comes back unchanged. */
  function ReplaceFirst(s: string, pat: string, rep: string): (r: string)
    ensures !Contains(s, pat) ==> r == s
    ensures Contains(s, pat) ==>
      exists i :: MatchAt(s, pat, i) && (forall j :: j < i ==> !MatchAt(s, pat, j))
                  && r == s[..i] + rep + s[i + |pat|..]
  {
    match IndexOf(s, pat)
    case None => s
    case Some(i) => s[..i] + rep + s[i + |pat|..]
  }

  /** `if (s.endsWith("/")) s = s.slice(0, -1)`: at most one trailing slash is removed. */
  function StripTrailingSlash(s: string): (r: string)
    ensures |s| > 0 && s[|s| - 1] == '/' ==> r + "/" == s
    ensures !(|s| > 0 && s[|s| - 1] == '/') ==> r == s
  {
    if |s| > 0 && s[|s| - 1] == '/' then s[..|s| - 1] else s
  }

  // ---------------------------------------------------------------------------
  // Splitting and joining on one separator character
  // ---------------------------------------------------------------------------

  /** JavaScript's `s.split(sep)` for a one-character separator: always at least
      one part, no part contains the separator, and "" splits to [""]. */
  function Split(s: string, sep: char): (parts: seq<string>)
    ensures |parts| >= 1
    ensures forall i :: 0 <= i < |parts| ==> sep !in parts[i]
    decreases |s|
  {
    if |s| == 0 then [""]
    else if s[0] == sep then [""] + Split(s[1..], sep)
    else
      var rest := Split(s[1..], sep);
      [[s[0]] + rest[0]] + rest[1..]
  }

  /** JavaScript's `parts.join(sep)`. */
  function Join(parts: seq<string>, sep: char): string
    decreases |parts|
  {
    if |parts| == 0 then ""
    else if |parts| == 1 then parts[0]
    else parts[0] + [sep] + Join(parts[1..], sep)
  }

  lemma {:induction false} SplitWithoutSeparator(p: string, sep: char)
    requires sep !in p
    ensures Split(p, sep) == [p]
    decreases |p|
  {
    if |p| > 0 {
      SplitWithoutSeparator(p[1..], sep);
      assert [p[0]] + p[1..] == p;
    }
  }

  lemma {:induction false} SplitAfterFirstPart(p: string, t: string, sep: char)
    requires sep !in p
    ensures Split(p + [sep] + t, sep) == [p] + Split(t, sep)
    decreases |p|
  {
    var s := p + [sep] + t;
    if |p| == 0 {
      assert s[1..] == t;
    } else {
      assert s[1..] == p[1..] + [sep] + t;
      SplitAfterFirstPart(p[1..], t, sep);
      assert [p[0]] + p[1..] == p;
    }
  }

  /** Joining separator-free parts and splitting again gives the parts back. */
  lemma {:induction false} SplitJoinRoundTrip(parts: seq<string>, sep: char)
    requires |parts| >= 1
    requires forall i :: 0 <= i < |parts| ==> sep !in parts[i]
    ensures Split(Join(parts, sep), sep) == parts
    decreases |parts|
  {
    if |parts| == 1 {
      SplitWithoutSeparator(parts[0], sep);
    } else {
      SplitJoinRoundTrip(parts[1..], sep);
      SplitAfterFirstPart(parts[0], Join(parts[1..], sep), sep);
      assert [parts[0]] + parts[1..] == parts;
    }
  }

  // ---------------------------------------------------------------------------
  // Cancelling a common head or a tail of equal length
  // ---------------------------------------------------------------------------

  lemma SameTail(x: string, d: string, y: string, e: string)
    requires x + d == y + e && |d| == |e|
    ensures x == y && d == e
  {
    assert x == (x + d)[..|x|];
    assert y == (y + e)[..|y|];
    assert d == (x + d)[|x|..];
    assert e == (y + e)[|y|..];
  }

  lemma SameHead(p: string, x: string, y: string)
    requires p + x == p + y
    ensures x == y
  {
    assert x == (p + x)[|p|..];
    assert y == (p + y)[|p|..];
  }

  /** A decimal rendering holds no character other than digits. */
  lemma NatToStringHasOnlyDigits(n: nat, c: char)
    requires !IsDigit(c)
    ensures c !in NatToString(n)
  {
    var s := NatToString(n);
    forall i | 0 <= i < |s|
      ensures s[i] != c
    {
      assert IsDigit(s[i]);
    }
  }

  /** The position of the last `c` in `s`. */
  function LastIndexOf(s: string, c: char): (r: Option<nat>)
    ensures r.Some? ==> r.value < |s| && s[r.value] == c
    decreases |s|
  {
    if |s| == 0 then None
    else if s[|s| - 1] == c then Some(|s| - 1)
    else LastIndexOf(s[..|s| - 1], c)
  }

  /** The last `c` of `a + [c] + n` is the one after `a` when `n` has none. */
  lemma {:induction false} LastIndexAfter(a: string, c: char, n: string)
    requires c !in n
    ensures LastIndexOf(a + [c] + n, c) == Some(|a|)
    decreases |n|
  {
    var s := a + [c] + n;
    if |n| > 0 {
      assert n[|n| - 1] in n;
      assert s[|s| - 1] == n[|n| - 1];
      assert s[..|s| - 1] == a + [c] + n[..|n| - 1];
      LastIndexAfter(a, c, n[..|n| - 1]);
    }
  }
}

=== FILE: trip_model.dfy ===
/** The trip service's data model over PostgreSQL: the `trips` table with its
    SERIAL id, the `outbox_events` table, and the writes the controllers use.
    `createTripWithOutbox` inserts the trip and its offer event in one
    transaction; which statement fails, if any, is an input. */
module TripModel {
  import opened Wrappers
  import opened Text
  import opened JsValues
  import opened TripOffer

  /** The trip statuses. Their string values live in `utils/constants.js`,
      which is not part of this model; they are taken to be the lower-case
      names the schema comment and `assignDriver` use. */
  const SEARCHING: string := "searching"
  const ACCEPTED: string := "accepted"
  const IN_PROGRESS: string := "in_progress"
  const COMPLETED: string := "completed"
  const CANCELED: string := "canceled"

  /** A `trips` row. `pickup` and `destination` are VARCHAR, so a number
      sent for them is stored as its text. */
  datatype Trip = Trip(
    id: nat, passengerId: int, driverId: Option<int>, pickup: string, destination: string,
    fare: int, status: string, rating: Option<int>, comment: Option<string>)

  /** An `outbox_events` row; its UUID is drawn from a counter. */
  datatype OutboxRow = OutboxRow(
    id: nat, aggregateType: string, aggregateId: string, eventType: string,
    payload: TripPayload, status: string)

  /** The tables and the two id generators. A sequence is not rolled back
      with its transaction. */
  datatype Db = Db(trips: map<nat, Trip>, tripSeq: nat, outbox: seq<OutboxRow>, outboxSeq: nat)

  /** Each trip is stored under its own id, ids come from the sequence, and
      outbox ids are distinct and below their counter. */
  predicate Inv(db: Db) {
    && (forall k :: k in db.trips ==> 1 <= k <= db.tripSeq && db.trips[k].id == k)
    && (forall i :: 0 <= i < |db.outbox| ==> db.outbox[i].id < db.outboxSeq)
    && (forall i, j :: 0 <= i < j < |db.outbox| ==> db.outbox[i].id != db.outbox[j].id)
  }

  /** `getTripById(id)`: the row, or `undefined`. */
  function GetTripById(db: Db, id: nat): Option<Trip> {
    if id in db.trips then Some(db.trips[id]) else None
  }

  /** The object the controllers hand to `createTripWithOutbox`. */
  datatype TripData = TripData(
    passengerId: JsVal, pickup: JsVal, destination: JsVal, fare: int, status: string,
    pickupLat: JsVal, pickupLng: JsVal)

  /** The steps of the transaction, for naming the one that fails:
      getting a client, `BEGIN`, the trip insert, the outbox insert, `COMMIT`. */
  datatype TxStep = Connect | Begin | InsertTrip | InsertOutbox | Commit

  /** The database afterwards, what the call returned, and whether a pool
      client was taken and given back. */
  datatype TxResult = TxResult(db: Db, outcome: Outcome<Trip>, clientAcquired: bool, clientReleased: bool)

  /** Whether the trip insert can store these values: `passenger_id` is an
      INTEGER NOT NULL and `pickup`, `destination` are NOT NULL. */
  predicate Insertable(data: TripData) {
    PgInteger(data.passengerId).PgValue? && !IsNullish(data.pickup) && !IsNullish(data.destination)
  }

  /** The new trip row for `data` under id `id`. */
  function NewTrip(data: TripData, id: nat): Trip
    requires Insertable(data)
  {
    Trip(id, PgInteger(data.passengerId).n, None, ToStr(data.pickup), ToStr(data.destination),
         data.fare, data.status, None, None)
  }

  /** The offer payload: the new id with the request's own values, the
      coordinates included. */
  function PayloadOf(data: TripData, id: nat): TripPayload {
    TripPayload(id, data.pickup, data.destination, Num(data.fare), data.passengerId, data.pickupLat, data.pickupLng)
  }

  /** How node-postgres hands back a whole amount read from the
      `NUMERIC(10,2)` fare column: as text with two decimals, not a number. */
  function FareText(fare: int): string {
    IntToString(fare) + ".00"
  }

  /** The fare every trip is created with comes back as "50000.00". */
  lemma FareTextOfWholeAmount()
    ensures FareText(50000) == "50000.00"
  {
    assert NatToString(5) == "5";
    assert NatToString(50) == "50";
    assert NatToString(500) == "500";
    assert NatToString(5000) == "5000";
    assert NatToString(50000) == "50000";
  }

  /** `createTripWithOutbox(tripData)`. A falsy passenger id throws before any
      database call. Otherwise a client is taken; `BEGIN`, the two inserts and
      `COMMIT` run in order, and the first failure rolls everything back and
      rethrows. The client is released on every path after it was taken. */
  function CreateTripWithOutbox(db: Db, data: TripData, failAt: Option<TxStep>): (r: TxResult)
    ensures !Truthy(data.passengerId) ==> r == TxResult(db, Thrown, false, false)
    ensures r.clientAcquired <==> Truthy(data.passengerId) && failAt != Some(Connect)
    ensures r.clientReleased <==> r.clientAcquired
    ensures r.outcome.Thrown? ==> r.db.trips == db.trips && r.db.outbox == db.outbox
    ensures r.outcome.Done? <==> Truthy(data.passengerId) && Insertable(data) && failAt.None?
  {
    if !Truthy(data.passengerId) then TxResult(db, Thrown, false, false)
    else if failAt == Some(Connect) then TxResult(db, Thrown, false, false)
    else if failAt == Some(Begin) || failAt == Some(InsertTrip) || !Insertable(data) then
      TxResult(db, Thrown, true, true)
    else
      var id := db.tripSeq + 1;
      var trip := NewTrip(data, id);
      // The SERIAL sequence has advanced even if the transaction rolls back.
      var advanced := db.(tripSeq := id);
      if failAt.Some? then TxResult(advanced, Thrown, true, true)
      else
        var row := OutboxRow(db.outboxSeq, "TRIP", NatToString(id), TRIP_OFFER, PayloadOf(data, id), "PENDING");
        TxResult(Db(db.trips[id := trip], id, db.outbox + [row], db.outboxSeq + 1), Done(trip), true, true)
  }

  /** A committed creation adds exactly one trip and one PENDING outbox row for
      it, carrying the offer payload; the trip row has no coordinates, the
      payload has the request's. Both tables keep their invariant. */
  lemma CreateCommitsBoth(db: Db, data: TripData)
    requires Inv(db) && Truthy(data.passengerId) && Insertable(data)
    ensures var r := CreateTripWithOutbox(db, data, None);
      var trip := r.outcome.value;
      && r.outcome.Done?
      && trip.id !in db.trips
      && r.db.trips == db.trips[trip.id := trip]
      && trip.status == data.status && trip.driverId == None
      && LooseEq(data.passengerId, Num(trip.passengerId))
      && |r.db.outbox| == |db.outbox| + 1 && r.db.outbox[..|db.outbox|] == db.outbox
      && r.db.outbox[|db.outbox|].aggregateType == "TRIP"
      && ParseNat(r.db.outbox[|db.outbox|].aggregateId) == Some(trip.id)
      && r.db.outbox[|db.outbox|].eventType == TRIP_OFFER
      && r.db.outbox[|db.outbox|].status == "PENDING"
      && r.db.outbox[|db.outbox|].payload
         == TripPayload(trip.id, data.pickup, data.destination, Num(data.fare), data.passengerId, data.pickupLat, data.pickupLng)
      && Inv(r.db)
  {
    var id := db.tripSeq + 1;
    ParseNatOfRendering(id);
    var r := CreateTripWithOutbox(db, data, None);
    assert r.db.outbox[..|db.outbox|] == db.outbox;
  }

  /** A failed or refused creation commits nothing and keeps the invariant. */
  lemma CreateFailureCommitsNothing(db: Db, data: TripData, failAt: Option<TxStep>)
    requires Inv(db)
    requires CreateTripWithOutbox(db, data, failAt).outcome.Thrown?
    ensures var r := CreateTripWithOutbox(db, data, failAt);
      r.db.trips == db.trips && r.db.outbox == db.outbox && Inv(r.db)
  {
  }

  /** `updateTripStatus(id, status)`: the row's status only; `undefined` when
      there is no such row. */
  function UpdateTripStatus(db: Db, id: nat, status: string): (r: (Db, Option<Trip>))
    ensures id in db.trips ==> r.0.trips == db.trips[id := db.trips[id].(status := status)] && r.1 == Some(r.0.trips[id])
    ensures id !in db.trips ==> r.0 == db && r.1.None?
    ensures r.0.outbox == db.outbox && r.0.tripSeq == db.tripSeq
  {
    if id in db.trips then
      var t := db.trips[id].(status := status);
      (db.(trips := db.trips[id := t]), Some(t))
    else (db, None)
  }

  /** `assignDriver(tripId, driverId)`: the driver and status `'accepted'`
      together. A driver id that is not an integer makes the statement throw. */
  function AssignDriver(db: Db, id: nat, driverId: JsVal): (r: (Db, Outcome<Option<Trip>>))
    ensures PgInteger(driverId).PgInvalid? ==> r == (db, Thrown)
    ensures !PgInteger(driverId).PgInvalid? && id in db.trips ==>
      && id in r.0.trips && r.1 == Done(Some(r.0.trips[id]))
      && r.0.trips == db.trips[id := db.trips[id].(driverId := DriverColumn(driverId), status := ACCEPTED)]
    ensures !PgInteger(driverId).PgInvalid? && id !in db.trips ==> r == (db, Done(None))
  {
    if PgInteger(driverId).PgInvalid? then (db, Thrown)
    else if id in db.trips then
      var t := db.trips[id].(driverId := DriverColumn(driverId), status := ACCEPTED);
      (db.(trips := db.trips[id := t]), Done(Some(t)))
    else (db, Done(None))
  }

  /** The `driver_id` value a valid parameter stores. */
  function DriverColumn(v: JsVal): Option<int> {
    match PgInteger(v)
    case PgValue(n) => Some(n)
    case _ => None
  }

  /** `assignDriver` followed by `updateTripStatus(ACCEPTED)`, as the accept
      handlers do, leaves the same rows as `assignDriver` alone. */
  lemma AssignThenAcceptIsAssign(db: Db, id: nat, driverId: JsVal)
    requires AssignDriver(db, id, driverId).1.Done?
    ensures UpdateTripStatus(AssignDriver(db, id, driverId).0, id, ACCEPTED).0 == AssignDriver(db, id, driverId).0
  {
  }

  /** `updateTripReview(tripId, rating, comment)`: `rating` is an INTEGER with
      a 1..5 check, so anything else makes the statement throw. */
  function UpdateTripReview(db: Db, id: nat, rating: JsVal, comment: string): (r: (Db, Outcome<Option<Trip>>))
    ensures r.1.Thrown? <==> !(PgInteger(rating).PgNull? || (PgInteger(rating).PgValue? && 1 <= PgInteger(rating).n <= 5))
    ensures r.1.Thrown? ==> r.0 == db
    ensures r.0.outbox == db.outbox
    ensures r.1.Done? && id in db.trips ==>
      && r.0.trips.Keys == db.trips.Keys
      && r.0.trips[id].status == db.trips[id].status && r.0.trips[id].comment == Some(comment)
  {
    match PgInteger(rating)
    case PgInvalid => (db, Thrown)
    case PgValue(n) =>
      if !(1 <= n <= 5) then (db, Thrown)
      else if id in db.trips then
        var t := db.trips[id].(rating := Some(n), comment := Some(comment));
        (db.(trips := db.trips[id := t]), Done(Some(t)))
      else (db, Done(None))
    case PgNull =>
      if id in db.trips then
        var t := db.trips[id].(rating := None, comment := Some(comment));
        (db.(trips := db.trips[id := t]), Done(Some(t)))
      else (db, Done(None))
  }
}

=== FILE: trip_offer.dfy ===
/** The trip offer as it travels from the trip service to the driver service:
    the payload built from a new trip, the queue envelope around it, and a
    delivery of that envelope to a consumer together with what the consumer's
    calls answer (the radius query, the delete). */
module TripOffer {
  import opened Wrappers
  import opened JsValues

  /** `{ tripId, pickup, destination, fare, passengerId, pickupLat, pickupLng }`.
      Request fields stay JavaScript values: the consumers test the
      coordinates for truthiness, the passenger id may be a header string
      or a database number, and the fare is the number the controller chose
      or the text the database hands back for its NUMERIC column. */
  datatype TripPayload = TripPayload(
    tripId: nat, pickup: JsVal, destination: JsVal, fare: JsVal,
    passengerId: JsVal, pickupLat: JsVal, pickupLng: JsVal)

  const TRIP_OFFER: string := "TRIP_OFFER"

  /** `{ type, data, timestamp }`; the ISO time string is kept as the
      milliseconds it denotes. */
  datatype Envelope = Envelope(msgType: string, data: TripPayload, timestamp: int)

  /** The envelope both `pushTripOfferJob` copies send for `data` at `now`. */
  function OfferEnvelope(data: TripPayload, now: int): Envelope {
    Envelope(TRIP_OFFER, data, now)
  }

  /** A message body after `JSON.parse`: unparsable, or the `data` field
      (`None` when missing or null) and the time `new Date(body.timestamp)`
      denotes (`None` for an invalid date, whose time is NaN). */
  datatype Body = Unparsable | Parsed(data: Option<TripPayload>, timestamp: Option<int>)

  /** What a consumer reads back from an envelope it receives. */
  function Decode(e: Envelope): Body {
    Parsed(Some(e.data), Some(e.timestamp))
  }

  /** One received message with the answers its processing gets: the time
      it is handled, the driver ids the radius query returns (`None` when the
      query throws) and whether the delete call succeeds. */
  datatype Delivery = Delivery(body: Body, now: int, nearby: Option<seq<string>>, deleteSucceeds: bool)

  /** One `ReceiveMessage` call: it throws, or returns up to ten messages. */
  datatype Receive = ReceiveFailed | Received(messages: seq<Delivery>)

  const MAX_MESSAGES: nat := 10
  const SEARCH_RADIUS_KM: int := 5
  const POLL_ERROR_BACKOFF_MS: nat := 5000

  /** The radius query a consumer issues: around `(pickupLng, pickupLat)`. */
  datatype GeoQuery = GeoQuery(lat: JsVal, lng: JsVal, radiusKm: int)

  /** Both consumers search only when both pickup coordinates are truthy. */
  predicate HasPickup(t: TripPayload) {
    Truthy(t.pickupLat) && Truthy(t.pickupLng)
  }

  /** The Socket.IO room of one driver. */
  function DriverRoom(driverId: string): string {
    "driver:" + driverId
  }

  lemma DriverRoomInjective(a: string, b: string)
    ensures DriverRoom(a) == DriverRoom(b) <==> a == b
  {
    if DriverRoom(a) == DriverRoom(b) {
      assert a == DriverRoom(a)[7..];
    }
  }

  /** What a send call answers: its message id. */
  datatype SendResult = SendResult(messageId: string)

  /** How a `pushTripOfferJob` call ends: it returns the send result (`None`
      for `null`), or it throws. */
  datatype PushReply = Returned(result: Option<SendResult>) | Threw
}

=== FILE: trip_requests.dfy ===
/** What the two trip controllers share: the caller's identity as the request
    carries it, the handlers' replies, the rating guard, and the status moves
    a handler may make. */
module TripRequests {
  import opened Wrappers
  import opened JsValues
  import opened TripModel
  import Text

  /** The fare every new trip is created with. */
  const FARE: int := 50000

  /** A handler's HTTP status and the trip it returns, if any. */
  datatype Reply = Reply(code: int, trip: Option<Trip>)

  /** The database after a handler, and its reply. */
  datatype Step = Step(db: Db, reply: Reply)

  /** `!rating || rating < 1 || rating > 5`. A string is compared as the
      number it denotes; one that denotes none (NaN) fails both comparisons
      and so passes the guard. */
  predicate RatingRefused(rating: JsVal) {
    !Truthy(rating) ||
    match rating
    case Num(n) => n < 1 || n > 5
    case Str(s) => StringToNumber(s).Some? && (StringToNumber(s).value < 1 || StringToNumber(s).value > 5)
    case _ => false
  }

  /** A rating the guard lets through and the database stores. */
  lemma AcceptedRatingsInRange(rating: JsVal)
    requires !RatingRefused(rating) && PgInteger(rating).PgValue?
    ensures 1 <= PgInteger(rating).n <= 5
  {
  }

  /** The guard lets a non-numeric string through; the database then refuses
      it, so the review fails with a server error rather than a 400. */
  lemma NonNumericRatingPassesGuard()
    ensures !RatingRefused(Str("x")) && PgInteger(Str("x")).PgInvalid?
  {
    assert !Text.IsDigit('x');
  }

  /** `String(trip.driver_id)`'s operand: an unassigned driver is `null`. */
  function DriverVal(d: Option<int>): JsVal {
    match d
    case Some(n) => Num(n)
    case None => Null
  }

  /** The status moves the handlers may make: accept from searching, cancel
      from anything but completed, complete from accepted or in progress. */
  predicate AllowedMove(from: string, to: string) {
    || (from == SEARCHING && to == ACCEPTED)
    || (from != COMPLETED && to == CANCELED)
    || ((from == ACCEPTED || from == IN_PROGRESS) && to == COMPLETED)
  }

  /** Completed is a final status: no allowed move leaves it. */
  lemma CompletedIsFinal(to: string)
    ensures !AllowedMove(COMPLETED, to)
  {
  }

  /** Between two databases, every existing trip is kept, and its status
      either stays or makes an allowed move. */
  predicate StatusesMoveLegally(before: Db, after: Db) {
    forall k :: k in before.trips ==>
      && k in after.trips
      && (after.trips[k].status == before.trips[k].status
          || AllowedMove(before.trips[k].status, after.trips[k].status))
  }
}

=== FILE: wrappers.dfy ===
/** The datatypes shared by every module: an optional value (JavaScript's
    `undefined`/`null`, Python's `None` and "the key is absent" all map to
    `None`) and the outcome of a call that may throw. */
module Wrappers {

  datatype Option<+T> = None | Some(value: T) {

    /** The carried value, or `default` when there is none. */
    function GetOr(default: T): T {
      match this
      case Some(v) => v
      case None => default
    }
  }

  /** How an awaited call ends: it returns a value, or it throws (an error
      of its own or one it rethrows). */
  datatype Outcome<+T> = Done(value: T) | Thrown
}
